=== FILE: README.md ===
# TraceQ backend core, modelled in Dafny

TraceQ is a requirements-to-test-cases backend. Business analysts upload
requirement documents for a *journey* (a named user flow such as "Payment
Processing"). The service versions the documents, answers fact-check questions
against them, generates test cases with a language model, and mails the test
cases as a spreadsheet. This project models the deterministic core of that
backend. Every piece of I/O is turned into a parameter: the clock, the
filesystem, the language model, the vector search, the mail API and the thread
pool's futures. The operations become pure functions over immutable data, with
a few methods where the source runs a loop.

| module | file | models |
|---|---|---|
| `Common` | common.dfy | optional values and results; Python's `lower`, `split`, `strip`, `join`, `in`, slicing and `str(int)` over `seq<char>` |
| `Search` | search.dfy | a retrieval hit: text, score and metadata |
| `Report` | report.dfy | the "Test Cases" and "Summary" sheets of the email service's workbook |
| `Dispatch` | dispatch.dfy | the Gmail credential decision tree and the two send paths |
| `Journeys` | journeys.dfy | the journey registry: defaults, add, update, delete, names |
| `Versioning` | versioning.dfy | journey directory names, the version timeline, and the line-set diff |
| `TestGen` | testgen.dfy | the prompt context, the fallback test cases, one journey's generation reply and batch aggregation |
| `FactCheck` | factcheck.dfy | the search filter, the query list, dedup, stable sort, boosts, grouping by document, the analysis fallback and the timeline |
| `Gemini` | gemini.dfy | the retry loop, message conversion, completion text, embedding fallback and rerank parsing |
| `Tasks` | tasks.dfy | the background task registry and the batch partition |
| `Providers` | providers.dfy | provider-name normalisation and the fallback chain |

A loosely typed JSON test-case record is a `map<string, Value>`. A registry
(the journeys file, the task dictionary, the version store) is a value, and
each operation returns the next value together with its reply.

## Model

| member | source | states |
|---|---|---|
| Report.Lookup | backend/app/services/email_service.py:118-150 | The nested `get` fallbacks. The value comes from the first listed key that is present, and the default is used only when no listed key is present. |
| Report.LookupIsNestedGet | backend/app/services/email_service.py:140-150 | An ordered lookup over two or three keys equals the source's nested `test.get(k1, test.get(k2, ...))` chain. |
| Report.StepsRendering | backend/app/services/email_service.py:118-120 | For every list of steps: no steps render as "", one step as "1. step", and one more step appends a newline and "n. step" with n its 1-based position, so the rendering is one numbered line per step. |
| Report.BulletsRendering | backend/app/services/email_service.py:124-136 | For every list of preconditions or expected results: none renders as "", and each item adds one line "• item", joined by newlines. |
| Report.ScalarRendering | backend/app/services/email_service.py:118-136 | A value that is not a list renders as `str(v)` when it is truthy and as "" otherwise, in the steps, preconditions and expected-result columns alike. |
| Report.ToCells | backend/app/services/email_service.py:154-155 | A row of values can be written iff none of them is a list. When it can, each cell holds exactly the corresponding value. |
| Report.BuildRows | backend/app/services/email_service.py:116-155 | The data rows exist iff every record is renderable. There is one row per record, in input order, and each has 12 cells. |
| Report.HeaderRow | backend/app/services/email_service.py:92-113 | The header row holds exactly the 12 labels in their fixed order. |
| Report.CellFill | backend/app/services/email_service.py:108-174 | Header cells get fill 366092. The type column maps positive, negative and edge to C6EFCE, FFC7CE and FFEB9C. The priority column maps High, Medium and Low to FFC7CE, FFEB9C and C6EFCE. Every other cell or value gets no fill. |
| Report.Fills | backend/app/services/email_service.py:154-174 | The fill matrix has the sheet's shape, and every cell's fill is decided by its row, column and value alone. |
| Report.LongestIn | backend/app/services/email_service.py:177-185 | The column maximum bounds every rendered cell length in the column, and it is reached by some cell unless it is 0. |
| Report.ColumnWidths | backend/app/services/email_service.py:177-187 | There are 12 widths and none exceeds 50. Each width is at least `min(len(str(cell)) + 2, 50)` for every cell of its column. |
| Report.WidthIsAttained | backend/app/services/email_service.py:182-186 | A width is exactly `min(len + 2, 50)` of some cell of its column whenever that column holds a non-empty text, so the width is not over-estimated. |
| Report.DistinctCountsBounded | backend/app/services/email_service.py:195-206 | The counts of three distinct values of one field sum to at most the number of records. |
| Report.Summarise | backend/app/services/email_service.py:195-207 | The total is the record count. Each of the six counts is the running count of records whose raw field holds that bucket's value, positive+negative+edge ≤ total and High+Medium+Low ≤ total. |
| Report.SummariseCounts | backend/app/services/email_service.py:195-206 | Each summary count equals the number of records whose raw `test_type` (or `priority`) is present and equal to the bucket value, as the `sum(1 for test in tests if ...)` expressions count. |
| Report.CountWhereIsMatching | backend/app/services/email_service.py:195-206 | The running count of a field value equals the size of the set of positions whose record holds that value. |
| Report.GenerateWorkbook | backend/app/services/email_service.py:83-222 | The workbook exists iff every record is renderable. It is one header row plus one row per record in order, and every row has 12 cells. Its fills are the header and colour tables applied to the sheet, its widths are the capped column widths of the sheet, and its summary is the per-bucket count of the records. |
| Report.MissingFieldsDefaultOnlyInCells | backend/app/services/email_service.py:145-206 | A record without test_type or priority shows "positive" and "Medium" in its cells but is counted in no summary bucket. |
| Dispatch.Authenticate | backend/app/services/email_service.py:32-81 | The route follows the decision tree. The token is rewritten iff the refresh or consent flow succeeded and the write succeeded. The service is ready iff the stored token was valid or a token was written, and the client build succeeded. A valid token is never rewritten. |
| Dispatch.AuthenticationOutcomes | backend/app/services/email_service.py:40-70 | Consequences read off the environment alone: a valid token is used as is, an expired token with a refresh token is refreshed, environment credentials are preferred for consent, and with no credentials the service stays unset. |
| Dispatch.SendTestCasesEmail | backend/app/services/email_service.py:224-297 | With no service the reply is the "not authenticated" failure, before anything is rendered. Success holds iff the service is ready, the workbook renders and the API delivers. On success the reply carries the API's message id, the recipient and the attachment name. |
| Dispatch.SendSimpleEmail | backend/app/services/email_service.py:299-374 | Success holds iff the workbook renders. Then test_count is the number of records and attachment_size is the byte length of the serialised workbook. |
| Journeys.DefaultJourneys | backend/app/services/journey_manager.py:19-41 | The initial list has three journeys, all built-in, with the three fixed names in order. |
| Journeys.Names | backend/app/services/journey_manager.py:54-57 | The names are listed in registry order, one per journey. |
| Journeys.AddJourney | backend/app/services/journey_manager.py:59-96 | An add is rejected with the list unchanged iff the name is taken ignoring case. Otherwise exactly one non-default journey is appended, and an empty description becomes "Custom journey: {name}". |
| Journeys.FindFirst | backend/app/services/journey_manager.py:104-108 | The result is the first index whose name equals the given name exactly, or none when no name does. |
| Journeys.UpdateJourney | backend/app/services/journey_manager.py:98-140 | An update errors with the list unchanged iff no name matches. Otherwise only the first match is replaced: name only if a non-empty one is given, description if given, colour if non-empty, last_updated always. The default flag and creation date are kept. |
| Journeys.DeleteJourney | backend/app/services/journey_manager.py:142-184 | A delete errors with the list unchanged iff the name is absent or its first match is built-in. Otherwise exactly the first match is removed and the others keep their order. |
| Journeys.AddPreservesDefaults | backend/app/services/journey_manager.py:72-80 | Adding never changes the number of built-in journeys. |
| Journeys.UpdatePreservesDefaults | backend/app/services/journey_manager.py:116-124 | Updating never changes the number of built-in journeys. |
| Journeys.DeletePreservesDefaults | backend/app/services/journey_manager.py:160-168 | Deleting never changes the number of built-in journeys. |
| Journeys.AddKeepsNamesDistinct | backend/app/services/journey_manager.py:64-80 | If the names are distinct ignoring case, they stay distinct after an add. |
| Journeys.DefaultNamesDistinct | backend/app/services/journey_manager.py:19-41 | The three default names are distinct ignoring case. |
| Journeys.UpdateCanDuplicateNames | backend/app/services/journey_manager.py:117-118 | A rename is not checked against the other names. Renaming "Payment Processing" to "Point of Settlement" breaks the distinctness that add maintains. |
| Versioning.IndexOf | backend/app/services/versioning.py:45 | The result is the first position where the separator occurs, or none when it does not occur. |
| Versioning.DirNameRoundTrip | backend/app/services/versioning.py:12-45 | For a 16-hex-digit digest, splitting `digest__journey` at its first `__` gives back exactly the journey, even one that contains `__`. |
| Versioning.Insert | backend/app/services/versioning.py:46 | Inserting into a sorted list keeps it sorted and adds exactly one occurrence of the element. |
| Versioning.SortStrings | backend/app/services/versioning.py:46 | `sorted` yields a list in code-point order that is a permutation of its input. |
| Versioning.ListAllJourneys | backend/app/services/versioning.py:41-46 | The journey listing is sorted and is a permutation of the names recovered from the directory entries. |
| Versioning.ListAllRoundTrip | backend/app/services/versioning.py:12-46 | Listing the directories that `_journey_dir` created for some journeys, none holding "/", yields exactly those journeys (as a multiset), sorted. |
| Versioning.ListStoreJourneys | backend/app/services/versioning.py:12-46 | When the listing enumerates the store's journey directories, `list_versions(None)` reports exactly the journeys that have a directory, sorted. |
| Versioning.RecoveredAll | backend/app/services/versioning.py:43-45 | Every directory made by `_journey_dir` is recognised, and its journey is recovered in listing order. |
| Versioning.ListVersions | backend/app/services/versioning.py:47-51 | Listing a journey's versions returns its stored timeline, or the empty list when it has none, and creates only that journey's directory. |
| Versioning.RecordVersion | backend/app/services/versioning.py:23-37 | The version id is `ts-source_type`. The timeline gains exactly one entry at its end, that holds exactly the given fields, the id and created_at = ts, and every other journey's timeline is unchanged. |
| Versioning.ListAfterRecord | backend/app/services/versioning.py:23-51 | Listing after recording yields the earlier entries followed by the new entry, which carries the version id, journey, source type, document URI, summary, effective date and created_at = ts. |
| Versioning.IndexByVersion | backend/app/services/versioning.py:68 | Every version id of the timeline is a key of the index. |
| Versioning.IndexKeysFromTimeline | backend/app/services/versioning.py:68 | Every key of the index is a version id of the timeline, mapped to an entry carrying that id. |
| Versioning.IndexKeepsLatest | backend/app/services/versioning.py:68 | When version ids repeat, the index keeps the later entry. |
| Versioning.SplitLines | backend/app/services/versioning.py:73-74 | No line produced by `splitlines` contains a line-break character. |
| Versioning.DiffTexts | backend/app/services/versioning.py:75-79 | added = lines(b) − lines(a) and removed = lines(a) − lines(b). These are disjoint, and `changed` is always empty. |
| Versioning.DiffVersions | backend/app/services/versioning.py:66-80 | An unknown version id on either side gives the all-empty diff. Otherwise the diff is the line-set comparison of the documents that the indexed entries of the two ids point to, where a repeated id resolves to its latest entry. |
| Versioning.DiffWithSelfIsEmpty | backend/app/services/versioning.py:66-80 | Diffing a version with itself gives the all-empty diff. |
| TestGen.PyPrefix | backend/app/services/testgen.py:243 | Python's `s[:n]` is a prefix of `s`, of length min(n, len) for n ≥ 0 and max(len + n, 0) for negative n. |
| TestGen.ExtraCases | backend/app/services/testgen.py:230-241 | The generic cases from TC`from` up to but not including TC`upto`: one per number, in order. |
| TestGen.ExtraCasesNumbered | backend/app/services/testgen.py:230-241 | The generic cases continue the numbering of the two fixed cases: id TC`k+1` at position k, priority Medium, type Functional. |
| TestGen.FallbackCandidates | backend/app/services/testgen.py:201-241 | Before the cut there are 2 cases when max_cases ≤ 2, else min(max_cases, 5). Case k has id TC`k+1` and type Functional, and only the first is High. |
| TestGen.FallbackTests | backend/app/services/testgen.py:196-243 | For max_cases ≥ 0 there are min(max_cases, 5) cases, and negative values follow Python slicing. Ids are TC001, TC002, … in order, only the first is High, and all are Functional. |
| TestGen.FallbackIds | backend/app/services/testgen.py:201-243 | Five fallback cases run from "TC001" to "TC005". |
| TestGen.RequirementBlocks | backend/app/services/testgen.py:115-119 | There are at most five "Requirement i" blocks, numbered from 1, each with its text cut to 300 characters and followed by "...". |
| TestGen.BuildContext | backend/app/services/testgen.py:106-124 | The context is "" iff there are no hits and the additional context is blank. With both parts it is "Additional Context: {additional}", a blank line, then "Requirements Context:" and the requirement blocks joined by blank lines. With only one part it is that part alone. |
| TestGen.Preview | backend/app/services/testgen.py:59 | context_used is the context itself up to 500 characters. A longer context gives its first 500 characters plus "...". |
| TestGen.GenerateTestCases | backend/app/services/testgen.py:13-67 | The reply is Generated iff the search succeeds with hits and the model step does not fail. No search hits gives the "No requirements found" error. On success the count equals the cases' length, and the cases are the parsed ones, or the fallback ones when the reply does not parse. The model is the requested one or the default. |
| TestGen.ResponsesKeys | backend/app/services/testgen.py:81-89 | The results map has an entry for every journey of the batch and for nothing else. |
| TestGen.ResponsesLastWins | backend/app/services/testgen.py:89 | A journey listed more than once keeps the response to its last occurrence. |
| TestGen.GenerateBatch | backend/app/services/testgen.py:69-98 | journeys_processed is the number of journeys listed. total_tests_generated is the sum of total_generated over successful replies. results has exactly the listed journeys, each mapped to its last response. |
| TestGen.GeneratedCaseInSpreadsheet | backend/app/services/testgen.py:203-208 | A generated case in the spreadsheet takes its name and id from title and test_id, but its Steps and Expected Result cells are empty. The keys test_steps and expected_results are not read by the spreadsheet. |
| TestGen.UnreadKeysGiveEmptyCells | backend/app/services/email_service.py:118-136 | Without steps, test_script, expected_result and expected, the Steps and Expected Result cells are "". |
| TestGen.NameAndIdFromFallbackKeys | backend/app/services/email_service.py:139-152 | The name and id cells fall back to title and test_id when the earlier keys are missing. |
| FactCheck.MetadataFilter | backend/app/services/requirements_manager.py:93-95 | The filter always names the journey, and has a source_type `$in` clause iff the list of source types is non-empty. |
| FactCheck.EffectiveTopK | backend/app/services/requirements_manager.py:90 | A missing or zero top_k falls back to the configured value. |
| FactCheck.SearchRequirements | backend/app/services/requirements_manager.py:81-116 | The reply succeeds iff the search does. It then returns the hits unchanged, with total_results equal to their number. |
| FactCheck.LongWords | backend/app/services/requirements_manager.py:134 | Exactly the words longer than three characters are kept. |
| FactCheck.LongWordsAppend | backend/app/services/requirements_manager.py:134 | The long-word filter distributes over concatenation and keeps a single word iff it is longer than three characters, so the third query lists the long words in claim order with their repetitions. |
| FactCheck.SearchQueries | backend/app/services/requirements_manager.py:130-170 | The list starts with the claim, "journey claim" and the long-word join. It has 11 base queries, plus the 8 eligibility queries iff the lowercased claim has "eligibility" or "criteria", plus the 6 pension queries iff it has "apy" or "pension". |
| FactCheck.SearchAll | backend/app/services/requirements_manager.py:175-180 | The collected search fails iff one of the queries' searches fails, and then with the error of the first failing query. Otherwise the hits are every query's hits, concatenated in query order. |
| FactCheck.KeysOfMembers | backend/app/services/requirements_manager.py:184-186 | The seen-prefix set is exactly the 200-character prefixes of the hits. |
| FactCheck.Dedup | backend/app/services/requirements_manager.py:182-187 | Deduplication covers every prefix of the input and keeps no two hits with the same prefix. |
| FactCheck.DedupKeepsOnlyHits | backend/app/services/requirements_manager.py:187 | Deduplication keeps only input hits. |
| FactCheck.DedupKeepsFirsts | backend/app/services/requirements_manager.py:185-187 | Deduplication keeps the first hit of every prefix. |
| FactCheck.DedupInSearchOrder | backend/app/services/requirements_manager.py:182-187 | Deduplication yields exactly the input read at the ascending positions of first occurrences of each prefix: the first hit of each prefix, in search order. |
| FactCheck.FirstPositionsFacts | backend/app/services/requirements_manager.py:182-187 | The first positions are ascending, and a position is among them iff no earlier hit shares its prefix. |
| FactCheck.Deduplicate | backend/app/services/requirements_manager.py:173-187 | The loop with a seen set computes exactly the first-per-prefix filter. |
| FactCheck.InsertByScoreFacts | backend/app/services/requirements_manager.py:190 | Inserting a hit adds exactly that hit and keeps a list sorted by non-increasing score. |
| FactCheck.SortByScore | backend/app/services/requirements_manager.py:189-214 | Sorting by descending score yields a permutation of the input with non-increasing scores. |
| FactCheck.SortIsStable | backend/app/services/requirements_manager.py:189-214 | The sort is stable: hits of equal score keep their input order. |
| FactCheck.LastMatchFactor | backend/app/services/requirements_manager.py:197-211 | The applied factor is that of the last rule that fires, or 1 when none fires. |
| FactCheck.FactorOfSomeRule | backend/app/services/requirements_manager.py:197-211 | The applied factor is 1 or one of the rules' factors. |
| FactCheck.Scaled | backend/app/services/requirements_manager.py:194-211 | A rescored hit has the old score times the given factor, and its text, source type, version and summary are unchanged. |
| FactCheck.Boost | backend/app/services/requirements_manager.py:193-211 | The new score is the original score times LastMatchFactor of the four rules on the lowercased text: the factor of the last rule that fires, or 1 when none fires. So the boosts never compound, and every other field is unchanged. |
| FactCheck.BoostFactors | backend/app/services/requirements_manager.py:197-211 | A boosted score is one of 1, 2.0, 3.0, 5.0 or 2.5 times the original. |
| FactCheck.BoostAll | backend/app/services/requirements_manager.py:193 | Every evidence hit is boosted independently, in place. |
| FactCheck.RankEvidence | backend/app/services/requirements_manager.py:190-214 | The evidence has min(#distinct prefixes, 20) hits, is empty iff the search found nothing, is sorted by non-increasing score, and is a permutation of the boosted top 20. |
| FactCheck.FirstIndex | backend/app/services/requirements_manager.py:353 | The result is the first hit with a given document key, or the length when there is none. |
| FactCheck.HitKeysFirstIndex | backend/app/services/requirements_manager.py:353 | A document key occurs among the hits iff it has a first hit. |
| FactCheck.FindDocument | backend/app/services/requirements_manager.py:353 | The result is a document with the key, or none when no document has it. |
| FactCheck.GroupEvidence | backend/app/services/requirements_manager.py:349-360 | There is one document per distinct "source_type - version" key, in first-appearance order. Each is described by the first hit with its key and holds the texts of all hits with that key, in order. |
| FactCheck.ChunkLines | backend/app/services/requirements_manager.py:371-372 | A document renders at most 5 numbered chunks, each cut to 1200 characters. |
| FactCheck.AnalysisFallback | backend/app/services/requirements_manager.py:466-472 | The fallback analysis has confidence 0.5, strength "moderate", and sources = total_evidence = the evidence count. |
| FactCheck.FactCheck | backend/app/services/requirements_manager.py:118-248 | A search failure is an error. No evidence gives confidence 0.0, sources_used 0 and evidence [] regardless of the model. Otherwise the evidence is the ranked list (1 to 20 hits), sources_used is its length, and the confidence is read from the parsed or fallback analysis. |
| FactCheck.FallbackConfidence | backend/app/services/requirements_manager.py:233-242 | With an unparsable analysis, the confidence is 0.5 and the analysis counts every source used. |
| FactCheck.GetTimeline | backend/app/services/requirements_manager.py:288-308 | The timeline projects each version entry onto five fields, in order, and total_versions is the number of entries. |
| Gemini.RetryRequest | backend/app/providers/gemini_provider.py:18-39 | The loop makes at most max_retries calls and none when max_retries ≤ 0. The call count is the one CallsFrom counts. Every call but the last failed retryably. It returns the first success, or raises the last call's error when that error is not retried. |
| Gemini.NonRetryableStopsAtOnce | backend/app/providers/gemini_provider.py:37-39 | A non-retryable first failure is raised after a single call. |
| Gemini.PersistentFailureExhausts | backend/app/providers/gemini_provider.py:20-26 | A call that keeps failing retryably from attempt k on is made max_retries − k more times, and its error is raised. |
| Gemini.ConvertMessages | backend/app/providers/gemini_provider.py:44-62 | There is one entry per user or assistant message, in order. Entry k is the contents of the system messages that arrive after chat message k and before the next one, most recent first and each followed by a blank line, then message k's content. No chat message gives the single entry "Hello". |
| Gemini.ConvertTracksChat | backend/app/providers/gemini_provider.py:46-58 | The conversion loop yields exactly one entry per chat message, and each entry equals its message's content with only the system messages of its segment prepended as "{sys}\n\n". |
| Gemini.LeadingSystemDropped | backend/app/providers/gemini_provider.py:54-57 | System messages that arrive before any user or assistant message are dropped: they change no entry. |
| Gemini.ConvertWithoutSystem | backend/app/providers/gemini_provider.py:46-54 | Without system messages the entries are exactly the user and assistant contents. |
| Gemini.ExtractText | backend/app/providers/gemini_provider.py:111-118 | The text is the first candidate's first part text, "" when that part has no text, and the fixed fallback when the structure is missing. An empty parts list raises. |
| Gemini.Complete | backend/app/providers/gemini_provider.py:41-123 | A returned reply succeeds iff its text can be extracted. A raised request error or a missing response is an error. |
| Gemini.Embed | backend/app/providers/gemini_provider.py:125-165 | The call fails iff some request fails. Otherwise there is one vector per text, and the 768-zero vector replaces a missing "embedding.values". |
| Gemini.InRangeMembers | backend/app/providers/gemini_provider.py:191 | Index i is ranked iff i < n and i+1 was parsed from the reply. |
| Gemini.MissingFacts | backend/app/providers/gemini_provider.py:193-195 | The appended indices are below n, absent from the ranking, ascending and complete. |
| Gemini.AppendMissing | backend/app/providers/gemini_provider.py:193-195 | The append loop adds exactly the missing indices in ascending order. |
| Gemini.RerankAsWritten | backend/app/providers/gemini_provider.py:167-205 | The result always has length n with every element in [0, n). A failed completion or a reply without digits gives the identity. Otherwise the parsed in-range ranking comes first, cut to n. Every later position holds an index the ranking lacks, in ascending order. |
| Gemini.RerankAsWrittenOrder | backend/app/providers/gemini_provider.py:188-196 | The parsed ranking comes first. When it is shorter than n, the rest is exactly the first missing indices, ascending, as the `for i in range(len(candidates))` loop appends them. When the parsed in-range numbers are distinct, the result is a permutation of 0..n-1. |
| Gemini.RerankFallsBackToIdentity | backend/app/providers/gemini_provider.py:185-205 | With no digits in the reply, or a failed completion, the order is the identity. |
| Gemini.RerankRepeatedNumber | backend/app/providers/gemini_provider.py:191-196 | For two candidates the reply "1,1" yields [0, 0]. That is not a permutation, and candidate 1 is lost. |
| Gemini.FirstOccurrences | backend/app/providers/gemini_provider.py:191-195 | Keeping the first occurrence of each index yields a repetition-free list with the same members. |
| Gemini.Rerank | backend/app/providers/gemini_provider.py:167-205 | The corrected rerank is always a permutation of 0..n-1. A failed completion or a reply without digits gives the identity. Otherwise the first mention of each parsed in-range number comes first, in reply order, and the indices it lacks follow in ascending order. |
| Gemini.RerankAgreesWithoutRepeats | backend/app/providers/gemini_provider.py:188-196 | The corrected rerank agrees with the code whenever the reply repeats no index. |
| Gemini.PermutationFromDistinct | backend/app/providers/gemini_provider.py:191-196 | A repetition-free in-range ranking followed by the missing indices is a permutation. |
| Gemini.MissingTail | backend/app/providers/gemini_provider.py:193-196 | After the ranking, the appended indices are the missing ones in ascending order, and none of them is already ranked. |
| Gemini.MissingCovers | backend/app/providers/gemini_provider.py:193-196 | Ranked plus missing indices have at least n entries, and exactly n without repeats. |
| Tasks.Submit | backend/app/services/background_processor.py:19-39 | A known id is an error and the registry is unchanged. A new id gets a running task with progress 0 and no result or error, and no other task changes. |
| Tasks.GetStatus | backend/app/services/background_processor.py:41-66 | An unknown id gives none. A done future marks the task failed with its error, or completed with its result and progress 100. A pending future leaves it alone. No task is added or removed. |
| Tasks.SettleOverridesCancel | backend/app/services/background_processor.py:41-86 | A cancelled task whose future nevertheless returns is reported as completed. |
| Tasks.Cancel | backend/app/services/background_processor.py:75-86 | The result is true iff the task exists and is running, and only then does it become cancelled. Otherwise nothing changes. |
| Tasks.Cleanup | backend/app/services/background_processor.py:88-101 | Exactly the completed, failed or cancelled tasks older than max_age_hours·3600 seconds are removed, and the rest are untouched. |
| Tasks.CleanupKeepsRunning | backend/app/services/background_processor.py:95 | A running task survives every cleanup. |
| Tasks.MonitorTick | backend/app/services/background_processor.py:103-123 | While the future is pending, only a batch task older than 30 s changes, and only in its progress. That progress is min(90, ⌊elapsed/60·100⌋): it is 90 exactly when the age is at least 54 s, and below that the age lies in [p·0.6, (p+1)·0.6) seconds. Once the future is done the task is settled. |
| Tasks.ProgressSaturates | backend/app/services/background_processor.py:111-112 | From 54 s of age on, a batch task's shown progress is exactly 90. |
| Tasks.ProgressMonotone | backend/app/services/background_processor.py:110-112 | The shown progress of a pending batch task never decreases as its age grows. |
| Tasks.PartitionBatches | backend/app/services/background_processor.py:139-143 | The batch sizes sum to max_cases (0 when it is not positive). Each lies in [1, 50], all but the last are 50, and there are ⌈max_cases/50⌉ of them. |
| Tasks.BatchSizesShape | backend/app/services/background_processor.py:142-143 | Every batch but the last is full, and there are ⌈max_cases/50⌉ batches. |
| Tasks.BatchSizesSum | backend/app/services/background_processor.py:142-143 | The recursive batch sizes sum to max_cases and each lies in [1, 50]. |
| Providers.ProviderName | backend/app/providers/provider_factory.py:12 | The name is the lowercase of a non-empty preferred name, else of LLM_PROVIDER when set, else "claude". |
| Providers.DefaultChain | backend/app/providers/provider_factory.py:21-29 | The chain returns Claude if it builds, else Gemini if it builds, else the Ollama attempt, whose failure propagates. |
| Providers.Select | backend/app/providers/provider_factory.py:13-29 | "openai" picks OpenAI only when the import worked. The three explicit names map directly. Any other name goes to the default chain. |
| Providers.GetProvider | backend/app/providers/provider_factory.py:11-29 | With no preferred name and no LLM_PROVIDER, Claude is built directly, and its failure propagates without trying the fallback chain. A preferred name that lowercases to "gemini" builds Gemini. OpenAI is returned only when its module imported. An unrecognised name fails only when Claude, Gemini and Ollama all fail. |
| Providers.OpenAiNeedsImport | backend/app/providers/provider_factory.py:5-14 | Getting OpenAI implies the import worked and the name asked for it. |
| Providers.OpenAiWithoutImport | backend/app/providers/provider_factory.py:5-29 | Without the import, "OpenAI" falls to the default chain. |
| Providers.DefaultChainFails | backend/app/providers/provider_factory.py:23-29 | The default chain fails iff all three constructors fail. |
| Providers.ExplicitNameNoFallback | backend/app/providers/provider_factory.py:15-20 | An explicitly named provider is never replaced by another one. |
| Providers.EmptyEnvironmentName | backend/app/providers/provider_factory.py:12 | A set but empty LLM_PROVIDER gives the empty name, which takes the default chain. |

## Left out

- Email transport is not modelled: the Gmail API calls, the OAuth consent server, MIME assembly and base64 encoding. Each outcome is a boolean or reply parameter instead.
- The xlsx bytes produced by openpyxl are not modelled. `Dispatch.SendSimpleEmail` takes the serialiser as a function parameter.
- Fonts, alignment and other cell styling are not modelled, because they carry no data.
- Report.GenerateWorkbook: openpyxl's refusal of a list value is modelled as "no workbook". openpyxl's other behaviour is not modelled: it refuses a string holding a control character (U+0000 to U+0008, U+000B, U+000C, U+000E to U+001F) with IllegalCharacterError, which makes both send paths report failure, and it cuts strings to 32767 characters. Float values, nested dicts and lists of non-strings (rendered with `str(step)`) are outside the `Value` type, so the model can build workbooks for records the source refuses.
- Report.GenerateWorkbook: `created_date` defaults to one `today` for every row, where the source reads the clock once per row (email_service.py line 151), so rows written across midnight could differ.
- Journeys.DefaultJourneys: the three built-in journeys share one `now`, where the source reads the clock three times (journey_manager.py lines 24, 31 and 38).
- Versioning.ListAllRoundTrip: journey names holding "/" are excluded by hypothesis. `makedirs` creates such a name as nested directories, so the source lists it as `<digest>__<first segment>` and recovers a different name.
- Dispatch.SendTestCasesEmail: the attachment name is stamped once. The source reads the clock twice (lines 263 and 283), so the two names can differ across a second boundary.
- File I/O is not modelled: journeys.json, timeline.jsonl, token.json and storage. Registries are values, and reading a stored document is a function parameter.
- Journeys: a journeys file that fails to load (read as the empty list) and a write that raises are not modelled. The registry is the in-memory list.
- Versioning: the SHA-256 digest is a parameter constrained to 16 lowercase hex digits. `load_version_text` is an abstract function, and timeline JSON is not parsed.
- Language-model and vector-store calls are not modelled. Their replies, including parsed JSON, are parameters. JSON extraction with `re` and `json.loads` is a foreign library.
- `ingest_requirement`, `analyze_changes`, `_analyze_semantic_changes`, `_generate_summary` and the prompt texts are not modelled. They are thin wrappers around the language model and the store.
- Versioning.SplitLines: the contract states only that no line contains a line break, not that the lines and the breaks between them rebuild the text; the diff needs only the set of lines.
- FactCheck.Boost: scores are exact reals, not floats.
- FactCheck.Dedup: Python's `hash` of the 200-character prefix is modelled as the prefix itself, so hash collisions are not modelled.
- Common.Lower: `str.lower` is restricted to ASCII letters, so non-ASCII case mapping is not modelled. This affects the duplicate-name check of `Journeys.AddJourney` and the query triggers of `FactCheck.SearchQueries`.
- Gemini.RetryRequest: the exponential backoff delay, its random jitter and the log line are not modelled, because they only affect timing.
- Gemini.RerankAsWritten: only ASCII digits are parsed. Python's `\d` also matches other Unicode digits, and `int()` refuses more than 4300 digits (that path returns the identity order); neither is modelled.
- Gemini: the request payload (safety settings and generation config) is not modelled, because it does not affect any returned value.
- Tasks: the thread pool, the monitor thread, `time.sleep` and races between them are not modelled. A future is observed as Pending, Raised or Returned.
- Tasks.MonitorTick: the clock, the task ages and `elapsed / 60 * 100` are exact reals, where the source computes them in floating point (background_processor.py lines 30, 110-112). Near a whole percent, `int()` of the rounded float product can differ by one from the floor of the exact product, so the progress values the model computes are those of exact arithmetic.
- Tasks.Cleanup: ages are exact differences of real clock readings, where the source subtracts floats (background_processor.py line 96), so an age within rounding of max_age_hours·3600 may be classified differently.
- Tasks.GetStatus: reading a cancelled future raises `CancelledError` in Python; that is not modelled.
- Tasks.PartitionBatches: the batch job of `submit_batch_test_generation` calls generation with an undefined `context` (background_processor.py:147), so only the batch-size loop is modelled.
- `list_active_tasks` is not modelled. It only maps `get_task_status` over the registry's keys.
- Providers: the provider constructors (Claude, Gemini, Ollama, OpenAI) are oracles. Their own code is not part of this model.
- Routers, schemas, main.py, setup_email.py, document_processor.py, pinecone_service.py and the simple embedding provider are not modelled. They are HTTP plumbing or foreign libraries.

In these places the model follows the code:
- The summary counts read the raw `test_type` and `priority`. A record missing them is counted in no bucket, although its cells show "positive" and "Medium" (`Report.MissingFieldsDefaultOnlyInCells`).
- An `LLM_PROVIDER` that is set but empty yields the empty name, which takes the default chain, not "claude" (`Providers.EmptyEnvironmentName`).
- The version diff's `changed` is always empty (`Versioning.DiffTexts`).
- Generated and fallback test cases use the keys `test_steps` and `expected_results`, which the spreadsheet never reads, so those cells stay empty (`TestGen.GeneratedCaseInSpreadsheet`).

## Findings

| source | as written | input that shows it | evidently intended | confidence | as-written member | corrected member |
|---|---|---|---|---|---|---|
| backend/app/providers/gemini_provider.py:191-196 | Parsed numbers are kept with repetitions, then the result is cut to n entries. | Two candidates and the model reply "1,1": the ranking is [0, 0] and candidate 1 never appears. | A ranking that lists each candidate exactly once, ignoring a number after its first mention. | not executed | Gemini.RerankAsWritten (shown by Gemini.RerankRepeatedNumber) | Gemini.Rerank (Gemini.RerankAgreesWithoutRepeats) |

=== FILE: common.dfy ===
/**
 * Shared vocabulary of the model: optional values and Python's string
 * primitives (`str.lower`, `str.split`, `str.strip`, `sep.join`, `x in s`,
 * slicing and `str(int)`) stated over `seq<char>`.
 *
 * Characters are Unicode scalar values; case mapping is restricted to ASCII.
 */
module Common {

  datatype Option<+T> = None | Some(value: T) {
    function GetOr(default: T): T {
      match this
      case Some(v) => v
      case None => default
    }
  }

  /** A value, or the text of the exception that prevented it. */
  datatype Result<+T> = Ok(value: T) | Err(error: string)

  /** Python `str.isspace()` for a single character. */
  predicate IsSpace(c: char) {
    c == ' ' || c == '\t' || c == '\n' || c == '\r' || c == '\U{000B}' || c == '\U{000C}'
    || ('\U{001C}' <= c <= '\U{001F}') || c == '\U{0085}' || c == '\U{00A0}'
    || c == '\U{1680}' || ('\U{2000}' <= c <= '\U{200A}') || c == '\U{2028}'
    || c == '\U{2029}' || c == '\U{202F}' || c == '\U{205F}' || c == '\U{3000}'
  }

  /** `s.strip() == ""`: the string holds nothing but whitespace. */
  predicate IsBlank(s: string) {
    forall i :: 0 <= i < |s| ==> IsSpace(s[i])
  }

  function LowerChar(c: char): char {
    if 'A' <= c <= 'Z' then (c as int + 32) as char else c
  }

  function UpperChar(c: char): char {
    if 'a' <= c <= 'z' then (c as int - 32) as char else c
  }

  /** `s.lower()`, restricted to ASCII letters. */
  function Lower(s: string): (r: string)
    ensures |r| == |s|
    ensures forall i :: 0 <= i < |s| ==> r[i] == LowerChar(s[i])
  {
    seq(|s|, i requires 0 <= i < |s| => LowerChar(s[i]))
  }

  /** `s.upper()`, restricted to ASCII letters. */
  function Upper(s: string): (r: string)
    ensures |r| == |s|
    ensures forall i :: 0 <= i < |s| ==> r[i] == UpperChar(s[i])
  {
    seq(|s|, i requires 0 <= i < |s| => UpperChar(s[i]))
  }

  /** `s[:n]` for a non-negative bound. */
  function Take<T>(s: seq<T>, n: nat): (r: seq<T>)
    ensures |r| == if |s| <= n then |s| else n
    ensures r <= s
  {
    if |s| <= n then s else s[..n]
  }

  /** `sep.join(parts)`. */
  function Join(parts: seq<string>, sep: string): string {
    if |parts| == 0 then ""
    else if |parts| == 1 then parts[0]
    else parts[0] + sep + Join(parts[1..], sep)
  }

  /** Python's `needle in hay` on strings. */
  predicate Contains(hay: string, needle: string) {
    needle <= hay || (|hay| > 0 && Contains(hay[1..], needle))
  }

  /** `any(t in hay for t in needles)`. */
  predicate ContainsAny(hay: string, needles: seq<string>) {
    exists i :: 0 <= i < |needles| && Contains(hay, needles[i])
  }

  function DigitChar(d: nat): char
    requires d < 10
  {
    ['0', '1', '2', '3', '4', '5', '6', '7', '8', '9'][d]
  }

  /** `str(n)` for a natural number. */
  function NatToString(n: nat): (r: string)
    ensures |r| >= 1
    ensures forall i :: 0 <= i < |r| ==> '0' <= r[i] <= '9'
  {
    if n < 10 then [DigitChar(n)] else NatToString(n / 10) + [DigitChar(n % 10)]
  }

  /** `str(i)` for any integer. */
  function IntToString(i: int): string {
    if i < 0 then "-" + NatToString(-i) else NatToString(i)
  }

  /** Python `str.split()` with no separator: the maximal runs of non-whitespace. */
  function Words(s: string): (r: seq<string>)
    ensures forall k :: 0 <= k < |r| ==> |r[k]| > 0
    decreases |s|
  {
    if |s| == 0 then []
    else if IsSpace(s[0]) then Words(s[1..])
    else
      var n := WordLength(s);
      [s[..n]] + Words(s[n..])
  }

  /** Length of the run of non-whitespace that starts `s`. */
  function WordLength(s: string): (n: nat)
    ensures n <= |s|
    ensures |s| > 0 && !IsSpace(s[0]) ==> n >= 1
  {
    if |s| == 0 || IsSpace(s[0]) then 0 else 1 + WordLength(s[1..])
  }

  function Sum(xs: seq<int>): int {
    if |xs| == 0 then 0 else Sum(xs[..|xs| - 1]) + xs[|xs| - 1]
  }
}

=== FILE: dispatch.dfy ===
/**
 * The email service's credential acquisition and its two send paths.
 *
 * Everything the service asks of the outside world is an oracle here: whether
 * a stored token exists and what state it is in, whether a refresh or the
 * interactive consent flow succeeds, whether writing the token file and
 * building the API client succeed, and what the mail API answers.
 */
module Dispatch {
  import opened Common
  import Report

  /** The stored token file as the service finds it at start-up. */
  datatype TokenFile =
    | Absent
    | Unreadable
    | Stored(valid: bool, expired: bool, hasRefreshToken: bool)

  datatype AuthEnv = AuthEnv(
    token: TokenFile,
    refreshSucceeds: bool,
    clientId: string,
    clientSecret: string,
    credentialsFileExists: bool,
    consentSucceeds: bool,
    tokenWriteSucceeds: bool,
    buildSucceeds: bool)

  /** The branch of the decision tree the service takes. */
  datatype Route =
    | TokenLoadFailed
    | UseStoredToken
    | RefreshStoredToken
    | ConsentFromEnvironment
    | ConsentFromFile
    | NoCredentials

  /** `ready` is "the service is not None"; `tokenWritten` is "token.json was rewritten". */
  datatype AuthResult = AuthResult(route: Route, ready: bool, tokenWritten: bool)

  predicate IsConsent(r: Route) {
    r == ConsentFromEnvironment || r == ConsentFromFile
  }

  /** Routes that end with the token being written back to disk. */
  predicate Persists(r: Route) {
    r == RefreshStoredToken || IsConsent(r)
  }

  function ChooseRoute(env: AuthEnv): Route {
    match env.token
    case Unreadable => TokenLoadFailed
    case Stored(valid, expired, hasRefresh) =>
      if valid then UseStoredToken
      else if expired && hasRefresh then RefreshStoredToken
      else FreshConsent(env)
    case Absent => FreshConsent(env)
  }

  function FreshConsent(env: AuthEnv): Route {
    if env.clientId != "" && env.clientSecret != "" then ConsentFromEnvironment
    else if env.credentialsFileExists then ConsentFromFile
    else NoCredentials
  }

  /**
   * `_authenticate`: any exception on the way leaves the service unset; the
   * token file is rewritten only after a successful refresh or consent flow.
   */
  function Authenticate(env: AuthEnv): (r: AuthResult)
    ensures r.route == ChooseRoute(env)
    ensures r.tokenWritten <==> Persists(r.route)
                                && (r.route == RefreshStoredToken ==> env.refreshSucceeds)
                                && (IsConsent(r.route) ==> env.consentSucceeds)
                                && env.tokenWriteSucceeds
    ensures r.ready <==> (r.route == UseStoredToken || r.tokenWritten) && env.buildSucceeds
    ensures r.route == UseStoredToken ==> !r.tokenWritten
    ensures r.route == NoCredentials || r.route == TokenLoadFailed ==> !r.ready && !r.tokenWritten
  {
    var route := ChooseRoute(env);
    match route
    case TokenLoadFailed => AuthResult(route, false, false)
    case NoCredentials => AuthResult(route, false, false)
    case UseStoredToken => AuthResult(route, env.buildSucceeds, false)
    case _ =>
      var obtained := if route == RefreshStoredToken then env.refreshSucceeds else env.consentSucceeds;
      if !obtained || !env.tokenWriteSucceeds then AuthResult(route, false, false)
      else AuthResult(route, env.buildSucceeds, true)
  }

  /** The five outcomes of the decision tree, read off the environment alone. */
  lemma AuthenticationOutcomes(env: AuthEnv)
    ensures env.token.Stored? && env.token.valid ==>
              Authenticate(env).route == UseStoredToken && !Authenticate(env).tokenWritten
    ensures env.token.Stored? && !env.token.valid && env.token.expired && env.token.hasRefreshToken ==>
              Authenticate(env).route == RefreshStoredToken
    ensures (env.token.Absent? || (env.token.Stored? && !env.token.valid && !(env.token.expired && env.token.hasRefreshToken)))
            && env.clientId == "" && !env.credentialsFileExists ==>
              !Authenticate(env).ready && Authenticate(env).route == NoCredentials
    ensures env.token.Absent? && env.clientId != "" && env.clientSecret != "" ==>
              Authenticate(env).route == ConsentFromEnvironment
  {
  }

  /** What a send attempt reports back. */
  datatype Outcome =
    | Sent(message: string, messageId: string, recipient: string, attachmentFilename: string)
    | Prepared(message: string, recipient: string, journey: string, testCount: nat,
               attachmentSize: nat, note: string)
    | NotSent(message: string)
  {
    predicate Success() { !NotSent? }
  }

  /** The mail API's answer to a send request. */
  datatype ApiReply = Delivered(messageId: string) | ApiError(detail: string) | OtherError(detail: string)

  const NotAuthenticated := "Gmail API not authenticated. Please check credentials."
  const RenderFailure := "a record field could not be written to the spreadsheet"
  const NotTransmittedNote := "Email details logged (SMTP configured but not sending for demo)"

  /** `test_cases_<journey>_<YYYYMMDD_HHMMSS>.xlsx`, with the stamp supplied by the caller. */
  function AttachmentName(journey: string, stamp: string): string {
    "test_cases_" + journey + "_" + stamp + ".xlsx"
  }

  /**
   * `send_test_cases_email`: without an API client nothing is rendered or sent;
   * otherwise the workbook is built and the API reply decides the outcome.
   */
  function SendTestCasesEmail(
    ready: bool, tests: seq<Report.Record>, journey: string, recipient: string,
    today: string, now: string, stamp: string, reply: ApiReply): (r: Outcome)
    ensures !ready ==> r == NotSent(NotAuthenticated)
    ensures r.Success() <==>
              ready && reply.Delivered? && Report.GenerateWorkbook(tests, today, now).Some?
    ensures r.Success() ==> r.Sent? && r.messageId == reply.messageId && r.recipient == recipient
                            && r.attachmentFilename == AttachmentName(journey, stamp)
  {
    if !ready then NotSent(NotAuthenticated)
    else match Report.GenerateWorkbook(tests, today, now)
      case None => NotSent("Failed to send email: " + RenderFailure)
      case Some(_) =>
        match reply
        case Delivered(id) =>
          Sent("Test cases sent to BA successfully", id, recipient, AttachmentName(journey, stamp))
        case ApiError(detail) => NotSent("Gmail API error: " + detail)
        case OtherError(detail) => NotSent("Failed to send email: " + detail)
  }

  /**
   * `send_simple_email`: renders the workbook and reports what would be sent,
   * whether or not the service is authenticated. `serialise` stands for the
   * xlsx encoder.
   */
  function SendSimpleEmail(
    tests: seq<Report.Record>, journey: string, recipient: string,
    today: string, now: string, serialise: Report.Workbook -> seq<bv8>): (r: Outcome)
    ensures r.Success() <==> Report.GenerateWorkbook(tests, today, now).Some?
    ensures r.Success() ==> r.Prepared? && r.testCount == |tests| && r.journey == journey
                            && r.attachmentSize == |serialise(Report.GenerateWorkbook(tests, today, now).value)|
                            && r.note == NotTransmittedNote
  {
    match Report.GenerateWorkbook(tests, today, now)
    case None => NotSent("Failed to prepare email: " + RenderFailure)
    case Some(wb) =>
      Prepared("Email prepared successfully for " + journey + " journey with "
                 + NatToString(|tests|) + " test cases",
               recipient, journey, |tests|, |serialise(wb)|, NotTransmittedNote)
  }
}

=== FILE: factcheck.dfy ===
/**
 * The requirements manager's evidence pipeline: the search filter, the list
 * of queries a claim expands to, deduplication of the hits by their first 200
 * characters, the stable sort by score, the top-20 cut, the score boosts, the
 * grouping of evidence by document, the fallback evidence analysis and the
 * version timeline.
 *
 * The retrieval service and the language model are oracles. Scores are exact
 * reals, and Python's `hash` of a text prefix is the prefix itself.
 */
module FactCheck {
  import opened Common
  import opened Search
  import Report
  import Versioning

  const PerQueryTopK := 10
  const PrefixLength := 200
  const EvidenceLimit := 20
  const ChunksPerDocument := 5
  const ChunkLength := 1200
  const NoEvidenceAnswer := "No relevant information found in the uploaded documents for this journey. Please ensure you have uploaded the appropriate requirement documents."

  // ---------------------------------------------------------------------------
  // Search filter

  /** The metadata filter handed to the retrieval service. */
  datatype Filter = Filter(journey: string, sourceTypeIn: Option<seq<string>>)

  /** `{"journey": journey}`, with a `source_type $in` clause only for a non-empty list. */
  function MetadataFilter(journey: string, sourceTypes: Option<seq<string>>): (f: Filter)
    ensures f.journey == journey
    ensures f.sourceTypeIn.Some? <==> sourceTypes.Some? && |sourceTypes.value| > 0
    ensures f.sourceTypeIn.Some? ==> f.sourceTypeIn == sourceTypes
  {
    if sourceTypes.Some? && |sourceTypes.value| > 0 then Filter(journey, sourceTypes)
    else Filter(journey, None)
  }

  /** `top_k or config.top_k`: an absent or zero request falls back to the configured value. */
  function EffectiveTopK(topK: Option<int>, configured: int): (k: int)
    ensures topK.Some? && topK.value != 0 ==> k == topK.value
    ensures topK.None? || topK.value == 0 ==> k == configured
  {
    if topK.Some? && topK.value != 0 then topK.value else configured
  }

  /** The retrieval service: query, number of hits and filter to hits, or the error it raised. */
  type Searcher = (string, int, Filter) -> Result<seq<Hit>>

  datatype SearchReply =
    | Found(results: seq<Hit>, query: string, journey: string, totalResults: nat)
    | SearchFailed(message: string)

  /** `search_requirements`. */
  function SearchRequirements(journey: string, query: string, topK: Option<int>,
                              sourceTypes: Option<seq<string>>, configuredTopK: int,
                              search: Searcher): (r: SearchReply)
    ensures var outcome := search(query, EffectiveTopK(topK, configuredTopK), MetadataFilter(journey, sourceTypes));
            && (r.Found? <==> outcome.Ok?)
            && (r.Found? ==> r.results == outcome.value && r.totalResults == |r.results|
                             && r.query == query && r.journey == journey)
  {
    match search(query, EffectiveTopK(topK, configuredTopK), MetadataFilter(journey, sourceTypes))
    case Ok(hits) => Found(hits, query, journey, |hits|)
    case Err(e) => SearchFailed("Search failed: " + e)
  }

  // ---------------------------------------------------------------------------
  // Queries

  /** The words longer than three characters, in order. */
  function LongWords(ws: seq<string>): (r: seq<string>)
    ensures forall k :: 0 <= k < |r| ==> |r[k]| > 3 && r[k] in ws
    ensures forall k :: 0 <= k < |ws| && |ws[k]| > 3 ==> ws[k] in r
  {
    if |ws| == 0 then []
    else (if |ws[0]| > 3 then [ws[0]] else []) + LongWords(ws[1..])
  }

  /**
   * The filter distributes over concatenation; with the one-word case this
   * fixes the order of the long words: that of `ws`.
   */
  lemma {:induction false} LongWordsAppend(a: seq<string>, b: seq<string>)
    ensures LongWords(a + b) == LongWords(a) + LongWords(b)
    ensures forall w :: LongWords([w]) == (if |w| > 3 then [w] else [])
    decreases |a|
  {
    if |a| > 0 {
      var h := if |a[0]| > 3 then [a[0]] else [];
      assert (a + b)[0] == a[0];
      assert (a + b)[1..] == a[1..] + b;
      LongWordsAppend(a[1..], b);
      assert LongWords(a + b) == h + LongWords(a[1..] + b);
      AppendAssoc(h, LongWords(a[1..]), LongWords(b));
    } else {
      assert a + b == b;
      LongWordsSingle();
    }
  }

  lemma AppendAssoc<T>(x: seq<T>, y: seq<T>, z: seq<T>)
    ensures x + (y + z) == (x + y) + z
  {
  }

  lemma LongWordsSingle()
    ensures forall w :: LongWords([w]) == (if |w| > 3 then [w] else [])
  {
    forall w ensures LongWords([w]) == (if |w| > 3 then [w] else []) {
      assert [w][1..] == [];
    }
  }

  const EligibilityQueries: seq<string> := [
    "eligibility criteria age citizen",
    "requirements conditions age",
    "minimum age maximum age",
    "citizen india age requirements",
    "Any Citizen of India can join APY scheme",
    "age of the subscriber should be between 18 - 40 years",
    "savings bank account post office savings bank account",
    "should not be an Income tax payer citizen of India"]

  const PensionQueries: seq<string> := [
    "apy scheme eligibility",
    "pension scheme requirements",
    "atal pension yojana criteria",
    "APY eligibility criteria such as",
    "citizen of india join apy",
    "age subscriber between 18 40 years"]

  predicate MentionsEligibility(claim: string) {
    Contains(Lower(claim), "eligibility") || Contains(Lower(claim), "criteria")
  }

  predicate MentionsPension(claim: string) {
    Contains(Lower(claim), "apy") || Contains(Lower(claim), "pension")
  }

  /** The eleven queries every claim expands to. */
  function BaseQueries(journey: string, claim: string): (r: seq<string>)
    ensures |r| == 11
  {
    [ claim,
      journey + " " + claim,
      Join(LongWords(Words(claim)), " "),
      "eligibility criteria requirements conditions",
      "age requirements minimum maximum",
      "citizen india requirements",
      "savings bank account requirements",
      "income tax payer requirements",
      journey + " eligibility requirements",
      journey + " criteria conditions",
      journey + " age citizen account" ]
  }

  /** The queries `fact_check` runs, in order. */
  function SearchQueries(journey: string, claim: string): (r: seq<string>)
    ensures |r| == 11 + (if MentionsEligibility(claim) then 8 else 0) + (if MentionsPension(claim) then 6 else 0)
    ensures r[0] == claim && r[1] == journey + " " + claim && r[2] == Join(LongWords(Words(claim)), " ")
    ensures r[..11] == BaseQueries(journey, claim)
    ensures MentionsEligibility(claim) ==> r[11..19] == EligibilityQueries
    ensures MentionsPension(claim) ==> r[|r| - 6..] == PensionQueries
  {
    var base := BaseQueries(journey, claim);
    var eligibility := if MentionsEligibility(claim) then EligibilityQueries else [];
    var pension := if MentionsPension(claim) then PensionQueries else [];
    var r := base + eligibility + pension;
    assert r[..11] == base;
    assert r[0] == base[0] && r[1] == base[1] && r[2] == base[2];
    assert r[11..11 + |eligibility|] == eligibility;
    assert r[|r| - |pension|..] == pension;
    r
  }

  /**
   * The hits of every query in order, or the first error raised. Each query
   * is run with ten hits and the journey-only filter.
   */
  function SearchAll(journey: string, queries: seq<string>, search: Searcher): (r: Result<seq<Hit>>)
    ensures r.Err? <==> exists i :: 0 <= i < |queries| && search(queries[i], PerQueryTopK, MetadataFilter(journey, None)).Err?
    ensures r.Err? ==> exists i :: 0 <= i < |queries| && search(queries[i], PerQueryTopK, MetadataFilter(journey, None)) == Err(r.error)
                                  && forall j :: 0 <= j < i ==> search(queries[j], PerQueryTopK, MetadataFilter(journey, None)).Ok?
    ensures r.Ok? ==> r.value == HitsInQueryOrder(journey, queries, search)
  {
    if |queries| == 0 then Ok([])
    else match search(queries[0], PerQueryTopK, MetadataFilter(journey, None))
      case Err(e) => Err(e)
      case Ok(hits) =>
        match SearchAll(journey, queries[1..], search)
        case Err(e) =>
          assert forall i :: 0 <= i < |queries| - 1 ==> queries[1..][i] == queries[i + 1];
          Err(e)
        case Ok(rest) =>
          assert forall i :: 0 < i < |queries| ==> queries[i] == queries[1..][i - 1];
          HitsInQueryOrderCons(journey, queries, search);
          Ok(hits + rest)
  }

  /** The hits one query returns; a failed query contributes none. */
  function QueryHits(journey: string, query: string, search: Searcher): seq<Hit> {
    match search(query, PerQueryTopK, MetadataFilter(journey, None))
    case Ok(hits) => hits
    case Err(_) => []
  }

  /** The hits of every query, concatenated in query order. */
  function HitsInQueryOrder(journey: string, queries: seq<string>, search: Searcher): seq<Hit> {
    if |queries| == 0 then []
    else HitsInQueryOrder(journey, queries[..|queries| - 1], search) + QueryHits(journey, queries[|queries| - 1], search)
  }

  lemma {:induction false} HitsInQueryOrderCons(journey: string, queries: seq<string>, search: Searcher)
    requires |queries| > 0
    ensures HitsInQueryOrder(journey, queries, search)
            == QueryHits(journey, queries[0], search) + HitsInQueryOrder(journey, queries[1..], search)
    decreases |queries|
  {
    if |queries| > 1 {
      var init := queries[..|queries| - 1];
      HitsInQueryOrderCons(journey, init, search);
      assert init[1..] == queries[1..][..|queries[1..]| - 1];
      assert init[0] == queries[0];
    } else {
      assert queries[..0] == [] && queries[1..] == [];
    }
  }

  // ---------------------------------------------------------------------------
  // Deduplication by text prefix

  function PrefixKey(h: Hit): string {
    Take(h.text, PrefixLength)
  }

  /** The prefixes occurring among `hs`. */
  function KeysOf(hs: seq<Hit>): set<string> {
    if |hs| == 0 then {} else KeysOf(hs[..|hs| - 1]) + {PrefixKey(hs[|hs| - 1])}
  }

  lemma {:induction false} KeysOfMembers(hs: seq<Hit>)
    ensures forall k :: k in KeysOf(hs) <==> exists i :: 0 <= i < |hs| && PrefixKey(hs[i]) == k
    decreases |hs|
  {
    if |hs| > 0 {
      var init := hs[..|hs| - 1];
      KeysOfMembers(init);
      assert forall i :: 0 <= i < |init| ==> hs[i] == init[i];
    }
  }

  predicate DistinctKeys(hs: seq<Hit>) {
    forall i, j :: 0 <= i < j < |hs| ==> PrefixKey(hs[i]) != PrefixKey(hs[j])
  }

  /** No earlier hit shares the prefix of `hs[i]`. */
  predicate FirstWithKey(hs: seq<Hit>, i: nat)
    requires i < |hs|
  {
    forall j :: 0 <= j < i ==> PrefixKey(hs[j]) != PrefixKey(hs[i])
  }

  /** The first hit for each 200-character prefix, in search order. */
  function Dedup(hs: seq<Hit>): (r: seq<Hit>)
    ensures KeysOf(r) == KeysOf(hs)
    ensures DistinctKeys(r)
  {
    if |hs| == 0 then []
    else
      var kept := Dedup(hs[..|hs| - 1]);
      var h := hs[|hs| - 1];
      if PrefixKey(h) in KeysOf(kept) then kept
      else
        assert (kept + [h])[..|kept|] == kept;
        KeysOfMembers(kept);
        kept + [h]
  }

  /** Deduplication keeps only hits of the input. */
  lemma {:induction false} DedupKeepsOnlyHits(hs: seq<Hit>)
    ensures forall k :: 0 <= k < |Dedup(hs)| ==> Dedup(hs)[k] in hs
    decreases |hs|
  {
    if |hs| > 0 {
      var init := hs[..|hs| - 1];
      DedupKeepsOnlyHits(init);
      assert forall x :: x in init ==> x in hs;
    }
  }

  /** Deduplication keeps the first hit of every prefix. */
  lemma {:induction false} DedupKeepsFirsts(hs: seq<Hit>)
    ensures forall i :: 0 <= i < |hs| && FirstWithKey(hs, i) ==> hs[i] in Dedup(hs)
    decreases |hs|
  {
    if |hs| > 0 {
      var init := hs[..|hs| - 1];
      var h := hs[|hs| - 1];
      var kept := Dedup(init);
      DedupKeepsFirsts(init);
      forall i | 0 <= i < |hs| && FirstWithKey(hs, i)
        ensures hs[i] in Dedup(hs)
      {
        if i < |init| {
          FirstInPrefix(hs, i);
          assert init[i] in kept;
        } else {
          FirstKeyIsNew(hs);
          assert Dedup(hs) == kept + [h];
        }
      }
    }
  }

  lemma FirstInPrefix(hs: seq<Hit>, i: nat)
    requires i < |hs| - 1 && FirstWithKey(hs, i)
    ensures FirstWithKey(hs[..|hs| - 1], i) && hs[..|hs| - 1][i] == hs[i]
  {
    var init := hs[..|hs| - 1];
    forall j | 0 <= j < i
      ensures PrefixKey(init[j]) != PrefixKey(init[i])
    {
      assert init[j] == hs[j];
    }
  }

  lemma FirstKeyIsNew(hs: seq<Hit>)
    requires |hs| > 0 && FirstWithKey(hs, |hs| - 1)
    ensures PrefixKey(hs[|hs| - 1]) !in KeysOf(hs[..|hs| - 1])
  {
    var init := hs[..|hs| - 1];
    KeysOfMembers(init);
    forall j | 0 <= j < |init|
      ensures PrefixKey(init[j]) != PrefixKey(hs[|hs| - 1])
    {
      assert init[j] == hs[j];
    }
  }

  /** The positions below `n` of the first hit of each prefix, ascending. */
  function FirstPositions(hs: seq<Hit>, n: nat): (p: seq<nat>)
    requires n <= |hs|
    ensures forall k :: 0 <= k < |p| ==> p[k] < n
  {
    if n == 0 then [] else FirstPositions(hs, n - 1) + (if FirstWithKey(hs, n - 1) then [n - 1] else [])
  }

  /** The first positions are ascending, and are exactly the positions of first occurrences. */
  lemma {:induction false} FirstPositionsFacts(hs: seq<Hit>, n: nat)
    requires n <= |hs|
    ensures forall a, b :: 0 <= a < b < |FirstPositions(hs, n)| ==> FirstPositions(hs, n)[a] < FirstPositions(hs, n)[b]
    ensures forall i :: 0 <= i < n ==> (i in FirstPositions(hs, n) <==> FirstWithKey(hs, i))
    decreases n
  {
    if n > 0 {
      FirstPositionsFacts(hs, n - 1);
    }
  }

  /** Whether a position is a first occurrence does not depend on the hits after it. */
  lemma {:induction false} FirstPositionsOfPrefix(hs: seq<Hit>, n: nat)
    requires 0 < |hs| && n < |hs|
    ensures FirstPositions(hs[..|hs| - 1], n) == FirstPositions(hs, n)
    decreases n
  {
    if n > 0 {
      FirstPositionsOfPrefix(hs, n - 1);
      FirstWithKeyOfPrefix(hs, n - 1);
    }
  }

  lemma FirstWithKeyOfPrefix(hs: seq<Hit>, i: nat)
    requires i < |hs| - 1
    ensures FirstWithKey(hs[..|hs| - 1], i) == FirstWithKey(hs, i)
  {
    var init := hs[..|hs| - 1];
    assert forall j :: 0 <= j <= i ==> init[j] == hs[j];
  }

  /** The last hit is kept iff it is the first of its prefix. */
  lemma LastKeptIffFirst(hs: seq<Hit>)
    requires |hs| > 0
    ensures Dedup(hs) == Dedup(hs[..|hs| - 1]) + (if FirstWithKey(hs, |hs| - 1) then [hs[|hs| - 1]] else [])
  {
    var init := hs[..|hs| - 1];
    var h := hs[|hs| - 1];
    var kept := Dedup(init);
    assert Dedup(hs) == if PrefixKey(h) in KeysOf(kept) then kept else kept + [h];
    if FirstWithKey(hs, |hs| - 1) {
      FirstKeyIsNew(hs);
    } else {
      var j :| 0 <= j < |init| && PrefixKey(hs[j]) == PrefixKey(h);
      assert init[j] == hs[j];
      assert PrefixKey(h) in KeysOf(kept) by { KeysOfMembers(init); }
    }
  }

  /**
   * Deduplication keeps exactly the first hit of every prefix, in search
   * order: its result is `hs` read at the ascending first positions.
   */
  lemma {:induction false} DedupInSearchOrder(hs: seq<Hit>)
    ensures |Dedup(hs)| == |FirstPositions(hs, |hs|)|
    ensures forall k :: 0 <= k < |Dedup(hs)| ==> Dedup(hs)[k] == hs[FirstPositions(hs, |hs|)[k]]
    decreases |hs|
  {
    if |hs| > 0 {
      var init := hs[..|hs| - 1];
      var n := |init|;
      DedupInSearchOrder(init);
      FirstPositionsOfPrefix(hs, n);
      LastKeptIffFirst(hs);
      var p := FirstPositions(hs, n);
      var kept := Dedup(init);
      var q := FirstPositions(hs, |hs|);
      assert q == p + (if FirstWithKey(hs, n) then [n] else []);
      forall k | 0 <= k < |Dedup(hs)| ensures Dedup(hs)[k] == hs[q[k]] {
        if k < |p| {
          assert Dedup(hs)[k] == kept[k] == init[p[k]];
        }
      }
    }
  }

  /** The loop of `fact_check` that keeps a set of seen prefixes. */
  method Deduplicate(hits: seq<Hit>) returns (evidence: seq<Hit>)
    ensures evidence == Dedup(hits)
  {
    evidence := [];
    var seen: set<string> := {};
    var n := 0;
    while n < |hits|
      invariant n <= |hits|
      invariant evidence == Dedup(hits[..n])
      invariant seen == KeysOf(evidence)
    {
      var h := hits[n];
      assert hits[..n + 1][..n] == hits[..n];
      if PrefixKey(h) !in seen {
        seen := seen + {PrefixKey(h)};
        assert (evidence + [h])[..|evidence|] == evidence;
        evidence := evidence + [h];
      }
      n := n + 1;
    }
    assert hits[..n] == hits;
  }

  // ---------------------------------------------------------------------------
  // Stable sort by descending score

  predicate SortedByScore(hs: seq<Hit>) {
    forall i, j :: 0 <= i < j < |hs| ==> hs[i].score >= hs[j].score
  }

  /** Places `x` after every element whose score is at least its own. */
  function InsertByScore(s: seq<Hit>, x: Hit): seq<Hit> {
    if |s| == 0 then [x]
    else if s[|s| - 1].score >= x.score then s + [x]
    else InsertByScore(s[..|s| - 1], x) + [s[|s| - 1]]
  }

  /** Insertion adds exactly `x`, and keeps a sorted sequence sorted. */
  lemma InsertByScoreFacts(s: seq<Hit>, x: Hit)
    ensures |InsertByScore(s, x)| == |s| + 1
    ensures multiset(InsertByScore(s, x)) == multiset(s) + multiset{x}
    ensures forall k :: 0 <= k < |InsertByScore(s, x)| ==> InsertByScore(s, x)[k] == x || InsertByScore(s, x)[k] in s
    ensures SortedByScore(s) ==> SortedByScore(InsertByScore(s, x))
  {
    var r := InsertByScore(s, x);
    InsertCount(s, x);
    assert forall k :: 0 <= k < |r| ==> r[k] in multiset(r);
    InsertSorted(s, x);
  }

  lemma {:induction false} InsertCount(s: seq<Hit>, x: Hit)
    ensures multiset(InsertByScore(s, x)) == multiset(s) + multiset{x}
    decreases |s|
  {
    if |s| > 0 && s[|s| - 1].score < x.score {
      var init := s[..|s| - 1];
      assert s == init + [s[|s| - 1]];
      InsertCount(init, x);
    }
  }

  lemma {:induction false} InsertSorted(s: seq<Hit>, x: Hit)
    ensures SortedByScore(s) ==> SortedByScore(InsertByScore(s, x))
    decreases |s|
  {
    if |s| == 0 {
    } else if s[|s| - 1].score >= x.score {
      SortedSnoc(s, x);
    } else if SortedByScore(s) {
      var last := s[|s| - 1];
      var init := s[..|s| - 1];
      var r' := InsertByScore(init, x);
      assert SortedByScore(init) by {
        assert forall i :: 0 <= i < |init| ==> init[i] == s[i];
      }
      InsertSorted(init, x);
      InsertCount(init, x);
      forall k | 0 <= k < |r'|
        ensures r'[k].score >= last.score
      {
        assert r'[k] in multiset(r');
        if r'[k] != x {
          assert r'[k] in multiset(init);
          var i :| 0 <= i < |init| && init[i] == r'[k];
          assert s[i] == init[i];
        }
      }
      SortedSnoc(r', last);
    }
  }

  /** Appending an element no higher than every other keeps the order. */
  lemma SortedSnoc(s: seq<Hit>, x: Hit)
    ensures SortedByScore(s) && (forall k :: 0 <= k < |s| ==> s[k].score >= x.score) ==> SortedByScore(s + [x])
  {
    if SortedByScore(s) && (forall k :: 0 <= k < |s| ==> s[k].score >= x.score) {
      forall i, j | 0 <= i < j < |s| + 1
        ensures (s + [x])[i].score >= (s + [x])[j].score
      {
        assert (s + [x])[i] == s[i];
      }
    }
  }

  /** Python's `sorted(hs, key=score, reverse=True)`, which keeps ties in input order. */
  function SortByScore(hs: seq<Hit>): (r: seq<Hit>)
    ensures |r| == |hs|
    ensures multiset(r) == multiset(hs)
    ensures SortedByScore(r)
  {
    if |hs| == 0 then []
    else
      assert hs == hs[..|hs| - 1] + [hs[|hs| - 1]];
      InsertByScoreFacts(SortByScore(hs[..|hs| - 1]), hs[|hs| - 1]);
      InsertByScore(SortByScore(hs[..|hs| - 1]), hs[|hs| - 1])
  }

  /** The hits with score exactly `v`, in order. */
  function WithScore(hs: seq<Hit>, v: real): seq<Hit> {
    if |hs| == 0 then []
    else WithScore(hs[..|hs| - 1], v) + (if hs[|hs| - 1].score == v then [hs[|hs| - 1]] else [])
  }

  lemma WithScoreSnoc(s: seq<Hit>, x: Hit, v: real)
    ensures WithScore(s + [x], v) == WithScore(s, v) + (if x.score == v then [x] else [])
  {
    assert (s + [x])[..|s|] == s;
  }

  /** Inserting `x` only passes over hits with a strictly lower score. */
  lemma {:induction false} InsertKeepsTies(s: seq<Hit>, x: Hit, v: real)
    ensures WithScore(InsertByScore(s, x), v) == WithScore(s, v) + (if x.score == v then [x] else [])
    decreases |s|
  {
    if |s| == 0 {
      WithScoreSnoc([], x, v);
    } else {
      var last := s[|s| - 1];
      var init := s[..|s| - 1];
      assert s == init + [last];
      if last.score >= x.score {
        WithScoreSnoc(s, x, v);
      } else {
        InsertKeepsTies(init, x, v);
        WithScoreSnoc(InsertByScore(init, x), last, v);
        WithScoreSnoc(init, last, v);
      }
    }
  }

  /** The sort is stable: hits of equal score keep their relative order. */
  lemma {:induction false} SortIsStable(hs: seq<Hit>, v: real)
    ensures WithScore(SortByScore(hs), v) == WithScore(hs, v)
    decreases |hs|
  {
    if |hs| > 0 {
      var init, last := hs[..|hs| - 1], hs[|hs| - 1];
      var tail := if last.score == v then [last] else [];
      assert SortByScore(hs) == InsertByScore(SortByScore(init), last);
      InsertKeepsTies(SortByScore(init), last, v);
      SortIsStable(init, v);
      assert WithScore(hs, v) == WithScore(init, v) + tail;
    }
  }

  // ---------------------------------------------------------------------------
  // Score boosts

  /** A boost rule: it fires when any (or all) of its terms occur in the lowercased text. */
  datatype Rule = AnyOf(terms: seq<string>, factor: real) | AllOf(terms: seq<string>, factor: real)

  predicate Matches(rule: Rule, text: string) {
    match rule
    case AnyOf(ts, _) => ContainsAny(text, ts)
    case AllOf(ts, _) => forall i :: 0 <= i < |ts| ==> Contains(text, ts[i])
  }

  const BoostRules: seq<Rule> := [
    AnyOf(["eligibility criteria", "age of the subscriber", "citizen of india",
           "savings bank account", "income tax payer"], 2.0),
    AnyOf(["18 - 40 years", "between 18 - 40", "not an income tax payer"], 3.0),
    AllOf(["any citizen of india can join apy scheme", "eligibility criteria such as"], 5.0),
    AnyOf(["apy scheme eligibility", "atal pension yojana criteria", "citizen of india join"], 2.5)]

  /** The factor of the last rule that fires, 1 when none does. */
  function LastMatchFactor(rules: seq<Rule>, text: string): (f: real)
    ensures (forall i :: 0 <= i < |rules| ==> !Matches(rules[i], text)) ==> f == 1.0
    ensures forall i :: 0 <= i < |rules| && Matches(rules[i], text)
                        && (forall j :: i < j < |rules| ==> !Matches(rules[j], text))
                        ==> f == rules[i].factor
  {
    if |rules| == 0 then 1.0
    else if Matches(rules[|rules| - 1], text) then rules[|rules| - 1].factor
    else
      var init := rules[..|rules| - 1];
      assert forall i :: 0 <= i < |init| ==> init[i] == rules[i];
      LastMatchFactor(init, text)
  }

  /** A hit whose score is multiplied by `f`, every other field kept. */
  function Scaled(h: Hit, f: real): (r: Hit)
    ensures r.text == h.text && r.sourceType == h.sourceType && r.version == h.version && r.summary == h.summary
    ensures r.score == h.score * f
  {
    h.(score := h.score * f)
  }

  /**
   * The boost of `fact_check`: the score read before boosting is multiplied
   * by the factor of the last of its four rules that fires on the lower-cased
   * text, so boosts never compound.
   */
  function Boost(h: Hit): (r: Hit)
    ensures r.text == h.text && r.sourceType == h.sourceType && r.version == h.version && r.summary == h.summary
    ensures r == Scaled(h, LastMatchFactor(BoostRules, Lower(h.text)))
  {
    Scaled(h, LastMatchFactor(BoostRules, Lower(h.text)))
  }

  /** The boosted score is the original times 1, 2.0, 3.0, 5.0 or 2.5. */
  lemma BoostFactors(h: Hit)
    ensures Boost(h).score in {h.score, h.score * 2.0, h.score * 3.0, h.score * 5.0, h.score * 2.5}
  {
    var f := LastMatchFactor(BoostRules, Lower(h.text));
    FactorOfSomeRule(BoostRules, Lower(h.text));
    assert forall i :: 0 <= i < |BoostRules| ==> BoostRules[i].factor in {2.0, 3.0, 5.0, 2.5};
    assert f in {1.0, 2.0, 3.0, 5.0, 2.5};
  }

  /** The factor applied is 1 or the factor of one of the rules. */
  lemma {:induction false} FactorOfSomeRule(rules: seq<Rule>, text: string)
    ensures LastMatchFactor(rules, text) == 1.0
            || exists i :: 0 <= i < |rules| && LastMatchFactor(rules, text) == rules[i].factor
    decreases |rules|
  {
    if |rules| > 0 && !Matches(rules[|rules| - 1], text) {
      var init := rules[..|rules| - 1];
      FactorOfSomeRule(init, text);
      if LastMatchFactor(init, text) != 1.0 {
        var i :| 0 <= i < |init| && LastMatchFactor(init, text) == init[i].factor;
        assert rules[i] == init[i];
      }
    }
  }

  function BoostAll(hs: seq<Hit>): (r: seq<Hit>)
    ensures |r| == |hs|
    ensures forall k :: 0 <= k < |hs| ==> r[k] == Boost(hs[k])
  {
    seq(|hs|, k requires 0 <= k < |hs| => Boost(hs[k]))
  }

  /**
   * The evidence list of `fact_check`: dedup, sort, keep the top twenty,
   * boost and sort again.
   */
  function RankEvidence(hits: seq<Hit>): (r: seq<Hit>)
    ensures |r| == Report.Min(|Dedup(hits)|, EvidenceLimit)
    ensures |r| == 0 <==> |hits| == 0
    ensures SortedByScore(r)
    ensures multiset(r) == multiset(BoostAll(Take(SortByScore(Dedup(hits)), EvidenceLimit)))
  {
    var kept := Dedup(hits);
    assert |hits| > 0 ==> |kept| > 0 by {
      if |hits| > 0 {
        KeysOfMembers(hits);
        assert PrefixKey(hits[0]) in KeysOf(hits);
      }
    }
    SortByScore(BoostAll(Take(SortByScore(kept), EvidenceLimit)))
  }

  // ---------------------------------------------------------------------------
  // Grouping evidence by document

  datatype Document = Document(key: string, sourceType: string, version: string, summary: string,
                               chunks: seq<string>)

  /** `"{source_type} - {version}"`, each defaulting to "Unknown". */
  function DocKey(h: Hit): string {
    h.sourceType.GetOr("Unknown") + " - " + h.version.GetOr("Unknown")
  }

  function NewDocument(h: Hit): Document {
    Document(DocKey(h), h.sourceType.GetOr("Unknown"), h.version.GetOr("Unknown"),
             h.summary.GetOr("No summary available"), [h.text])
  }

  /** Position of the first hit with document key `k`, `|hs|` when there is none. */
  function FirstIndex(hs: seq<Hit>, k: string): (r: nat)
    ensures r <= |hs|
    ensures forall j :: 0 <= j < r ==> DocKey(hs[j]) != k
    ensures r < |hs| ==> DocKey(hs[r]) == k
  {
    if |hs| == 0 then 0
    else
      var init := hs[..|hs| - 1];
      var p := FirstIndex(init, k);
      assert forall j :: 0 <= j < |init| ==> hs[j] == init[j];
      if p < |init| then p
      else if DocKey(hs[|hs| - 1]) == k then |init|
      else |hs|
  }

  /** The texts of the hits with document key `k`, in order. */
  function TextsWithKey(hs: seq<Hit>, k: string): seq<string> {
    if |hs| == 0 then []
    else TextsWithKey(hs[..|hs| - 1], k) + (if DocKey(hs[|hs| - 1]) == k then [hs[|hs| - 1].text] else [])
  }

  lemma {:induction false} NoTextsForAbsentKey(hs: seq<Hit>, k: string)
    requires FirstIndex(hs, k) == |hs|
    ensures TextsWithKey(hs, k) == []
    decreases |hs|
  {
    if |hs| > 0 {
      var init := hs[..|hs| - 1];
      assert forall j :: 0 <= j < |init| ==> hs[j] == init[j];
      NoTextsForAbsentKey(init, k);
    }
  }

  function DocKeys(docs: seq<Document>): set<string> {
    if |docs| == 0 then {} else DocKeys(docs[..|docs| - 1]) + {docs[|docs| - 1].key}
  }

  /** The document keys occurring among `hs`. */
  function HitKeys(hs: seq<Hit>): set<string> {
    if |hs| == 0 then {} else HitKeys(hs[..|hs| - 1]) + {DocKey(hs[|hs| - 1])}
  }

  lemma {:induction false} HitKeysFirstIndex(hs: seq<Hit>, k: string)
    ensures k in HitKeys(hs) <==> FirstIndex(hs, k) < |hs|
    decreases |hs|
  {
    if |hs| > 0 {
      HitKeysFirstIndex(hs[..|hs| - 1], k);
    }
  }

  predicate DistinctDocKeys(docs: seq<Document>) {
    forall i, j :: 0 <= i < j < |docs| ==> docs[i].key != docs[j].key
  }

  function FindDocument(docs: seq<Document>, k: string): (r: Option<nat>)
    ensures r.None? <==> k !in DocKeys(docs)
    ensures r.Some? ==> r.value < |docs| && docs[r.value].key == k
  {
    if |docs| == 0 then None
    else if docs[|docs| - 1].key == k then Some(|docs| - 1)
    else FindDocument(docs[..|docs| - 1], k)
  }

  lemma {:induction false} DocKeysMembers(docs: seq<Document>)
    ensures forall k :: k in DocKeys(docs) <==> exists i :: 0 <= i < |docs| && docs[i].key == k
    decreases |docs|
  {
    if |docs| > 0 {
      var init := docs[..|docs| - 1];
      DocKeysMembers(init);
      assert forall i :: 0 <= i < |init| ==> docs[i] == init[i];
    }
  }

  /** Files one hit under its document, opening a document for a new key. */
  function AddToDocuments(docs: seq<Document>, h: Hit): seq<Document> {
    match FindDocument(docs, DocKey(h))
    case Some(i) => docs[i := docs[i].(chunks := docs[i].chunks + [h.text])]
    case None => docs + [NewDocument(h)]
  }

  /** One document per distinct key. */
  predicate KeysMatch(hs: seq<Hit>, docs: seq<Document>) {
    DistinctDocKeys(docs) && DocKeys(docs) == HitKeys(hs)
  }

  /** Each document is described by the first hit with its key. */
  predicate DescribedByFirst(hs: seq<Hit>, docs: seq<Document>) {
    forall d :: 0 <= d < |docs| ==>
      FirstIndex(hs, docs[d].key) < |hs|
      && docs[d] == NewDocument(hs[FirstIndex(hs, docs[d].key)]).(chunks := docs[d].chunks)
  }

  /** Each document holds the texts of all hits with its key, in order. */
  predicate ChunksMatch(hs: seq<Hit>, docs: seq<Document>) {
    forall d :: 0 <= d < |docs| ==> docs[d].chunks == TextsWithKey(hs, docs[d].key)
  }

  /** Documents appear in order of their first hit. */
  predicate OrderedByFirst(hs: seq<Hit>, docs: seq<Document>) {
    forall d, e :: 0 <= d < e < |docs| ==> FirstIndex(hs, docs[d].key) < FirstIndex(hs, docs[e].key)
  }

  predicate GroupedBy(hs: seq<Hit>, docs: seq<Document>) {
    KeysMatch(hs, docs) && DescribedByFirst(hs, docs) && ChunksMatch(hs, docs) && OrderedByFirst(hs, docs)
  }

  /** `doc_evidence` of `_generate_answer_from_evidence`. */
  function GroupEvidence(hs: seq<Hit>): (docs: seq<Document>)
    ensures GroupedBy(hs, docs)
  {
    if |hs| == 0 then []
    else
      var init := hs[..|hs| - 1];
      var h := hs[|hs| - 1];
      var prev := GroupEvidence(init);
      assert init + [h] == hs;
      KeysStep(init, h, prev);
      DescribedStep(init, h, prev);
      ChunksStep(init, h, prev);
      OrderStep(init, h, prev);
      AddToDocuments(prev, h)
  }

  /** The first index of a key already present does not move when a hit is appended. */
  lemma FirstIndexSnoc(init: seq<Hit>, h: Hit, k: string)
    ensures FirstIndex(init, k) < |init| ==> FirstIndex(init + [h], k) == FirstIndex(init, k)
    ensures FirstIndex(init, k) == |init| && DocKey(h) == k ==> FirstIndex(init + [h], k) == |init|
    ensures HitKeys(init + [h]) == HitKeys(init) + {DocKey(h)}
    ensures TextsWithKey(init + [h], k) == TextsWithKey(init, k) + (if DocKey(h) == k then [h.text] else [])
  {
    assert (init + [h])[..|init|] == init;
  }

  lemma KeysStep(init: seq<Hit>, h: Hit, prev: seq<Document>)
    requires KeysMatch(init, prev)
    ensures KeysMatch(init + [h], AddToDocuments(prev, h))
  {
    FirstIndexSnoc(init, h, DocKey(h));
    var docs := AddToDocuments(prev, h);
    if FindDocument(prev, DocKey(h)).None? {
      assert docs[..|docs| - 1] == prev;
      DocKeysMembers(prev);
    } else {
      assert forall j :: 0 <= j < |docs| ==> docs[j].key == prev[j].key;
      SameKeys(prev, docs);
    }
  }

  /** Documents with the same keys position by position have the same key set. */
  lemma {:induction false} SameKeys(a: seq<Document>, b: seq<Document>)
    requires |a| == |b| && forall j :: 0 <= j < |a| ==> a[j].key == b[j].key
    ensures DocKeys(a) == DocKeys(b)
    decreases |a|
  {
    if |a| > 0 {
      SameKeys(a[..|a| - 1], b[..|b| - 1]);
    }
  }

  lemma DescribedStep(init: seq<Hit>, h: Hit, prev: seq<Document>)
    requires KeysMatch(init, prev) && DescribedByFirst(init, prev)
    ensures DescribedByFirst(init + [h], AddToDocuments(prev, h))
  {
    var hs := init + [h];
    var docs := AddToDocuments(prev, h);
    forall d | 0 <= d < |docs|
      ensures FirstIndex(hs, docs[d].key) < |hs|
      ensures docs[d] == NewDocument(hs[FirstIndex(hs, docs[d].key)]).(chunks := docs[d].chunks)
    {
      if d < |prev| {
        FirstIndexSnoc(init, h, prev[d].key);
        assert hs[FirstIndex(init, prev[d].key)] == init[FirstIndex(init, prev[d].key)];
      } else {
        assert FindDocument(prev, DocKey(h)).None?;
        HitKeysFirstIndex(init, DocKey(h));
        FirstIndexSnoc(init, h, DocKey(h));
      }
    }
  }

  lemma ChunksStep(init: seq<Hit>, h: Hit, prev: seq<Document>)
    requires KeysMatch(init, prev) && ChunksMatch(init, prev)
    ensures ChunksMatch(init + [h], AddToDocuments(prev, h))
  {
    var docs := AddToDocuments(prev, h);
    forall d | 0 <= d < |docs|
      ensures docs[d].chunks == TextsWithKey(init + [h], docs[d].key)
    {
      FirstIndexSnoc(init, h, docs[d].key);
      match FindDocument(prev, DocKey(h))
      case Some(i) =>
        if d != i {
          assert prev[d].key != prev[i].key;
        }
      case None =>
        if d == |prev| {
          HitKeysFirstIndex(init, DocKey(h));
          NoTextsForAbsentKey(init, DocKey(h));
        } else {
          DocKeysMembers(prev);
          assert docs[d] == prev[d];
        }
    }
  }

  lemma OrderStep(init: seq<Hit>, h: Hit, prev: seq<Document>)
    requires KeysMatch(init, prev) && DescribedByFirst(init, prev) && OrderedByFirst(init, prev)
    ensures OrderedByFirst(init + [h], AddToDocuments(prev, h))
  {
    var docs := AddToDocuments(prev, h);
    forall d | 0 <= d < |prev|
      ensures FirstIndex(init + [h], prev[d].key) == FirstIndex(init, prev[d].key)
    {
      FirstIndexSnoc(init, h, prev[d].key);
    }
    if FindDocument(prev, DocKey(h)).None? {
      HitKeysFirstIndex(init, DocKey(h));
      FirstIndexSnoc(init, h, DocKey(h));
    }
  }

  /** The numbered chunk lines of one document: at most five, each cut to 1200 characters. */
  function ChunkLines(chunks: seq<string>): (r: seq<string>)
    ensures |r| == Report.Min(|chunks|, ChunksPerDocument)
    ensures forall j :: 0 <= j < |r| ==>
              r[j] == "  " + NatToString(j + 1) + ". " + Take(chunks[j], ChunkLength) + "...\n"
  {
    var shown := Take(chunks, ChunksPerDocument);
    seq(|shown|, j requires 0 <= j < |shown| =>
      "  " + NatToString(j + 1) + ". " + Take(shown[j], ChunkLength) + "...\n")
  }

  // ---------------------------------------------------------------------------
  // The fact check

  /** The parsed evidence analysis; each field may be missing from the model's JSON. */
  datatype Analysis = Analysis(strength: Option<string>, confidence: Option<real>,
                               sources: Option<int>, totalEvidence: Option<int>)

  /** `_analyze_evidence` when the model's reply holds no JSON object. */
  function AnalysisFallback(evidence: seq<Hit>): (a: Analysis)
    ensures a.confidence == Some(0.5) && a.strength == Some("moderate")
    ensures a.sources == Some(|evidence|) && a.totalEvidence == Some(|evidence|)
  {
    Analysis(Some("moderate"), Some(0.5), Some(|evidence|), Some(|evidence|))
  }

  datatype CheckResult =
    | Checked(journey: string, claim: string, answer: string, evidence: seq<Hit>,
              confidence: real, sourcesUsed: nat, analysis: Option<Analysis>)
    | CheckFailed(message: string)

  /**
   * `fact_check`. `answer` is the stripped reply of the answering call and
   * `analysis` the parsed analysis reply (None when it held no JSON object);
   * either is the error text when that call raised.
   */
  function FactCheck(journey: string, claim: string, search: Searcher,
                     answer: Result<string>, analysis: Result<Option<Analysis>>): (r: CheckResult)
    ensures var hits := SearchAll(journey, SearchQueries(journey, claim), search);
            && (hits.Err? ==> r.CheckFailed?)
            && (hits.Ok? && |hits.value| == 0 ==>
                  r == Checked(journey, claim, NoEvidenceAnswer, [], 0.0, 0, None))
            && (hits.Ok? && |hits.value| > 0 ==>
                  && (r.CheckFailed? <==> answer.Err? || analysis.Err?)
                  && (r.Checked? ==>
                        && r.evidence == RankEvidence(hits.value)
                        && 0 < |r.evidence| <= EvidenceLimit
                        && r.sourcesUsed == |r.evidence|
                        && r.answer == answer.value
                        && r.analysis == Some(analysis.value.GetOr(AnalysisFallback(r.evidence)))
                        && r.confidence == r.analysis.value.confidence.GetOr(0.5)))
  {
    match SearchAll(journey, SearchQueries(journey, claim), search)
    case Err(e) => CheckFailed("Fact-check failed: " + e)
    case Ok(hits) =>
      var evidence := RankEvidence(hits);
      if |evidence| == 0 then Checked(journey, claim, NoEvidenceAnswer, [], 0.0, 0, None)
      else match (answer, analysis)
        case (Err(e), _) => CheckFailed("Fact-check failed: " + e)
        case (_, Err(e)) => CheckFailed("Fact-check failed: " + e)
        case (Ok(text), Ok(parsed)) =>
          var a := parsed.GetOr(AnalysisFallback(evidence));
          Checked(journey, claim, text, evidence, a.confidence.GetOr(0.5), |evidence|, Some(a))
  }

  /** Without a parsable analysis the confidence is one half and every source counts. */
  lemma FallbackConfidence(journey: string, claim: string, search: Searcher, answer: string)
    requires SearchAll(journey, SearchQueries(journey, claim), search).Ok?
    requires |SearchAll(journey, SearchQueries(journey, claim), search).value| > 0
    ensures var r := FactCheck(journey, claim, search, Ok(answer), Ok(None));
            r.Checked? && r.confidence == 0.5 && r.analysis.value.sources == Some(r.sourcesUsed)
  {
  }

  // ---------------------------------------------------------------------------
  // Timeline

  datatype TimelineRow = TimelineRow(version: string, sourceType: string, summary: string,
                                     effectiveDate: Option<string>, createdAt: string)

  datatype TimelineReply = TimelineReply(journey: string, timeline: seq<TimelineRow>, totalVersions: nat)

  /** `get_timeline`: a projection of the journey's version entries, and their count. */
  function GetTimeline(store: Versioning.Store, journey: string): (r: (Versioning.Store, TimelineReply))
    ensures r.0 == Versioning.ListVersions(store, journey).0
    ensures var entries := Versioning.Timeline(store, journey);
            && r.1.journey == journey
            && r.1.totalVersions == |r.1.timeline| == |entries|
            && forall i :: 0 <= i < |entries| ==>
                 r.1.timeline[i] == TimelineRow(entries[i].version, entries[i].sourceType, entries[i].summary,
                                                entries[i].effectiveDate, entries[i].createdAt)
  {
    var (next, entries) := Versioning.ListVersions(store, journey);
    var rows := seq(|entries|, i requires 0 <= i < |entries| =>
      TimelineRow(entries[i].version, entries[i].sourceType, entries[i].summary,
                  entries[i].effectiveDate, entries[i].createdAt));
    (next, TimelineReply(journey, rows, |rows|))
  }
}

=== FILE: gemini.dfy ===
/**
 * The deterministic parts of the Gemini provider: the retry loop around an
 * HTTP call, the conversion of chat messages into Gemini's `contents`, the
 * extraction of the completion text, the embedding fallback and the parsing
 * of a rerank reply into an index order.
 *
 * Each HTTP call is an oracle: the k-th call's outcome is a parameter.
 * Backoff delays and their random jitter only affect timing and are not
 * modelled.
 */
module Gemini {
  import opened Common

  // ---------------------------------------------------------------------------
  // Retry

  datatype FailureKind =
    | ConnectionError    // requests' ConnectionError
    | Timeout            // requests' Timeout
    | OtherRequestError  // any other RequestException, e.g. an HTTP error status
    | NotRequestError    // an exception outside requests' hierarchy

  /** A raised exception: its kind and the status code of the response it carries, if any. */
  datatype Failure = Failure(kind: FailureKind, status: Option<int>)

  datatype Attempt<T> = Success(value: T) | Failed(failure: Failure)

  datatype RetryOutcome<T> = Returned(value: T) | Raised(failure: Failure) | NoResult

  /** A server error, rate limiting, or a connection or timeout error. */
  predicate Retryable(f: Failure) {
    || (f.status.Some? && (f.status.value >= 500 || f.status.value == 429))
    || f.kind == ConnectionError
    || f.kind == Timeout
  }

  /** Whether the loop goes on after attempt `k` failed with `f`. */
  predicate RetriesAfter(f: Failure, k: nat, maxRetries: int) {
    f.kind != NotRequestError && k < maxRetries - 1 && Retryable(f)
  }

  /** The retry loop from attempt `k` on. */
  function RetryFrom<T>(attempts: nat -> Attempt<T>, k: nat, maxRetries: int): RetryOutcome<T>
    decreases maxRetries - k
  {
    if k >= maxRetries then NoResult
    else match attempts(k)
      case Success(v) => Returned(v)
      case Failed(f) => if RetriesAfter(f, k, maxRetries) then RetryFrom(attempts, k + 1, maxRetries) else Raised(f)
  }

  /** The number of calls the retry loop makes from attempt `k` on. */
  function CallsFrom<T>(attempts: nat -> Attempt<T>, k: nat, maxRetries: int): nat
    decreases maxRetries - k
  {
    if k >= maxRetries then 0
    else match attempts(k)
      case Success(_) => 1
      case Failed(f) => if RetriesAfter(f, k, maxRetries) then 1 + CallsFrom(attempts, k + 1, maxRetries) else 1
  }

  /**
   * `_retry_request`: `attempts(k)` is what the k-th call of `func` does.
   * `calls` is the number of calls made.
   */
  method RetryRequest<T>(attempts: nat -> Attempt<T>, maxRetries: int) returns (r: RetryOutcome<T>, calls: nat)
    ensures r == RetryFrom(attempts, 0, maxRetries)
    ensures calls == CallsFrom(attempts, 0, maxRetries)
    ensures maxRetries <= 0 ==> calls == 0 && r.NoResult?
    ensures maxRetries > 0 ==> 1 <= calls <= maxRetries && !r.NoResult?
    ensures forall k :: 0 <= k < calls - 1 ==> attempts(k).Failed? && RetriesAfter(attempts(k).failure, k, maxRetries)
    ensures r.Returned? ==> attempts(calls - 1) == Success(r.value)
    ensures r.Raised? ==> attempts(calls - 1) == Failed(r.failure) && !RetriesAfter(r.failure, calls - 1, maxRetries)
  {
    if maxRetries <= 0 {
      return NoResult, 0;
    }
    var k: nat := 0;
    while true
      invariant k < maxRetries
      invariant RetryFrom(attempts, 0, maxRetries) == RetryFrom(attempts, k, maxRetries)
      invariant CallsFrom(attempts, 0, maxRetries) == k + CallsFrom(attempts, k, maxRetries)
      invariant forall j :: 0 <= j < k ==> attempts(j).Failed? && RetriesAfter(attempts(j).failure, j, maxRetries)
      decreases maxRetries - k
    {
      match attempts(k)
      case Success(v) =>
        return Returned(v), k + 1;
      case Failed(f) =>
        if !RetriesAfter(f, k, maxRetries) {
          return Raised(f), k + 1;
        }
      // A retry only happens before the last attempt.
      k := k + 1;
    }
  }

  /** A non-retryable request error ends the loop at the first call, whatever the limit. */
  lemma NonRetryableStopsAtOnce<T>(attempts: nat -> Attempt<T>, maxRetries: int)
    requires maxRetries > 0 && attempts(0).Failed? && !Retryable(attempts(0).failure)
    ensures RetryFrom(attempts, 0, maxRetries) == Raised(attempts(0).failure)
  {
  }

  /**
   * A call that keeps failing retryably from attempt `k` on is made
   * `maxRetries - k` more times, and its error is raised.
   */
  lemma {:induction false} PersistentFailureExhausts<T>(attempts: nat -> Attempt<T>, k: nat, maxRetries: int, f: Failure)
    requires k < maxRetries && f.kind != NotRequestError && Retryable(f)
    requires forall j :: k <= j < maxRetries ==> attempts(j) == Failed(f)
    ensures RetryFrom(attempts, k, maxRetries) == Raised(f)
    ensures CallsFrom(attempts, k, maxRetries) == maxRetries - k
    decreases maxRetries - k
  {
    if k < maxRetries - 1 {
      PersistentFailureExhausts(attempts, k + 1, maxRetries, f);
    }
  }

  // ---------------------------------------------------------------------------
  // Message conversion

  /** A chat message; a missing content reads as "". */
  datatype Message = Message(role: Option<string>, content: string)

  predicate IsChat(m: Message) {
    m.role == Some("user") || m.role == Some("assistant")
  }

  /** One message of the conversion loop applied to the entries so far (each entry's part text). */
  function ConvertStep(entries: seq<string>, m: Message): seq<string> {
    if IsChat(m) then entries + [m.content]
    else if m.role == Some("system") && |entries| > 0 then
      entries[..|entries| - 1] + [m.content + "\n\n" + entries[|entries| - 1]]
    else entries
  }

  function ConvertAll(ms: seq<Message>): seq<string> {
    if |ms| == 0 then [] else ConvertStep(ConvertAll(ms[..|ms| - 1]), ms[|ms| - 1])
  }

  /** The contents of the user and assistant messages, in order. */
  function ChatContents(ms: seq<Message>): seq<string> {
    if |ms| == 0 then []
    else ChatContents(ms[..|ms| - 1]) + (if IsChat(ms[|ms| - 1]) then [ms[|ms| - 1].content] else [])
  }

  /** Positions of the user and assistant messages, ascending. */
  function ChatIndices(ms: seq<Message>): (p: seq<nat>)
    ensures forall k :: 0 <= k < |p| ==> p[k] < |ms| && IsChat(ms[p[k]])
    ensures forall a, b :: 0 <= a < b < |p| ==> p[a] < p[b]
  {
    if |ms| == 0 then []
    else
      var init := ms[..|ms| - 1];
      assert forall i :: 0 <= i < |init| ==> init[i] == ms[i];
      ChatIndices(init) + (if IsChat(ms[|ms| - 1]) then [|ms| - 1] else [])
  }

  /** Where the messages that follow chat message `k` end: at the next chat message, or at the end. */
  function SegmentEnd(ms: seq<Message>, k: nat): (e: nat)
    requires k < |ChatIndices(ms)|
    ensures ChatIndices(ms)[k] < e <= |ms|
  {
    var p := ChatIndices(ms);
    if k + 1 < |p| then p[k + 1] else |ms|
  }

  /** The system contents among `ms[lo..hi]`, most recent first, each followed by a blank line. */
  function SystemBetween(ms: seq<Message>, lo: nat, hi: nat): string
    requires lo <= hi <= |ms|
    decreases hi - lo
  {
    if hi == lo then ""
    else
      var m := ms[hi - 1];
      (if m.role == Some("system") then m.content + "\n\n" else "") + SystemBetween(ms, lo, hi - 1)
  }

  /**
   * The Gemini entry of chat message `k`: the system messages that arrive
   * after it and before the next chat message, most recent first, then its
   * own content.
   */
  function ExpectedEntry(ms: seq<Message>, k: nat): string
    requires k < |ChatIndices(ms)|
  {
    var p := ChatIndices(ms);
    SystemBetween(ms, p[k] + 1, SegmentEnd(ms, k)) + ms[p[k]].content
  }

  /** The message conversion in `complete`, with "Hello" when nothing is left. */
  function ConvertMessages(ms: seq<Message>): (r: seq<string>)
    ensures |ChatIndices(ms)| == 0 ==> r == ["Hello"]
    ensures |ChatIndices(ms)| > 0 ==> |r| == |ChatIndices(ms)|
    ensures |ChatIndices(ms)| > 0 ==> forall k :: 0 <= k < |r| ==> r[k] == ExpectedEntry(ms, k)
  {
    ConvertTracksChat(ms);
    var entries := ConvertAll(ms);
    if |entries| == 0 then ["Hello"] else entries
  }

  /**
   * One entry per user or assistant message, and each entry is exactly that
   * message's content with the later system messages prepended.
   */
  lemma {:induction false} ConvertTracksChat(ms: seq<Message>)
    ensures |ConvertAll(ms)| == |ChatIndices(ms)|
    ensures forall k :: 0 <= k < |ChatIndices(ms)| ==> ConvertAll(ms)[k] == ExpectedEntry(ms, k)
    decreases |ms|
  {
    if |ms| > 0 {
      var init := ms[..|ms| - 1];
      ConvertTracksChat(init);
      assert ms == init + [ms[|ms| - 1]];
      ConvertSnocExact(init, ms[|ms| - 1]);
    }
  }

  /** The induction step: the entries of `init` are exact, so are those of `init + [m]`. */
  lemma ConvertSnocExact(init: seq<Message>, m: Message)
    requires |ConvertAll(init)| == |ChatIndices(init)|
    requires forall k :: 0 <= k < |ChatIndices(init)| ==> ConvertAll(init)[k] == ExpectedEntry(init, k)
    ensures |ConvertAll(init + [m])| == |ChatIndices(init + [m])|
    ensures forall k :: 0 <= k < |ChatIndices(init + [m])| ==> ConvertAll(init + [m])[k] == ExpectedEntry(init + [m], k)
  {
    var ms := init + [m];
    var prev := ConvertAll(init);
    var p := ChatIndices(init);
    assert ms[..|ms| - 1] == init;
    assert ConvertAll(ms) == ConvertStep(prev, m);
    ChatIndicesSnoc(init, m);
    if IsChat(m) {
      forall k | 0 <= k < |p| ensures ConvertAll(ms)[k] == ExpectedEntry(ms, k) {
        EntryUnchanged(init, m, k);
      }
      assert ExpectedEntry(ms, |p|) == m.content;
    } else if |p| > 0 {
      forall k | 0 <= k < |p| - 1 ensures ConvertAll(ms)[k] == ExpectedEntry(ms, k) {
        EntryUnchanged(init, m, k);
      }
      EntryExtended(init, m);
    }
  }

  /** Appending a message leaves the earlier chat positions in place. */
  lemma ChatIndicesSnoc(init: seq<Message>, m: Message)
    ensures ChatIndices(init + [m]) == ChatIndices(init) + (if IsChat(m) then [|init|] else [])
  {
    assert (init + [m])[..|init|] == init;
  }

  /** Appending a message does not change the system contents of a range before it. */
  lemma {:induction false} SystemBetweenSnoc(init: seq<Message>, m: Message, lo: nat, hi: nat)
    requires lo <= hi <= |init|
    ensures SystemBetween(init + [m], lo, hi) == SystemBetween(init, lo, hi)
    decreases hi - lo
  {
    if hi > lo {
      var ms := init + [m];
      var x := init[hi - 1];
      assert ms[hi - 1] == x;
      var head := if x.role == Some("system") then x.content + "\n\n" else "";
      SystemBetweenSnoc(init, m, lo, hi - 1);
      assert SystemBetween(ms, lo, hi) == head + SystemBetween(ms, lo, hi - 1);
      assert SystemBetween(init, lo, hi) == head + SystemBetween(init, lo, hi - 1);
    }
  }

  /** The expected entry of `k` is untouched by a message that does not fall in its segment. */
  lemma EntryUnchanged(init: seq<Message>, m: Message, k: nat)
    requires k < |ChatIndices(init)|
    requires k + 1 < |ChatIndices(init)| || IsChat(m)
    ensures k < |ChatIndices(init + [m])| && ExpectedEntry(init + [m], k) == ExpectedEntry(init, k)
  {
    var ms := init + [m];
    var p := ChatIndices(init);
    ChatIndicesSnoc(init, m);
    var e := SegmentEnd(init, k);
    assert SegmentEnd(ms, k) == e;
    assert ms[p[k]] == init[p[k]];
    SystemBetweenSnoc(init, m, p[k] + 1, e);
  }

  /** A non-chat message lands in the segment of the last chat message. */
  lemma EntryExtended(init: seq<Message>, m: Message)
    requires |ChatIndices(init)| > 0 && !IsChat(m)
    ensures var k := |ChatIndices(init)| - 1;
            k < |ChatIndices(init + [m])|
            && ExpectedEntry(init + [m], k)
               == (if m.role == Some("system") then m.content + "\n\n" else "") + ExpectedEntry(init, k)
  {
    var ms := init + [m];
    var p := ChatIndices(init);
    var k := |p| - 1;
    var i := p[k];
    ChatIndicesSnoc(init, m);
    assert SegmentEnd(ms, k) == |ms| && SegmentEnd(init, k) == |init|;
    var c := init[i].content;
    var pre := if m.role == Some("system") then m.content + "\n\n" else "";
    assert ms[i] == init[i] && ms[|ms| - 1] == m;
    SystemBetweenSnoc(init, m, i + 1, |init|);
    var before := SystemBetween(init, i + 1, |init|);
    assert SystemBetween(ms, i + 1, |ms|) == pre + before;
    assert ExpectedEntry(init, k) == before + c;
    assert ExpectedEntry(ms, k) == (pre + before) + c;
    assert (pre + before) + c == pre + (before + c);
  }

  /** System messages that arrive before any user or assistant message are dropped. */
  lemma {:induction false} LeadingSystemDropped(lead: seq<Message>, rest: seq<Message>)
    requires forall i :: 0 <= i < |lead| ==> !IsChat(lead[i])
    ensures ConvertAll(lead + rest) == ConvertAll(rest)
    decreases |rest|
  {
    if |rest| == 0 {
      NoChatNoEntries(lead);
      assert lead + rest == lead;
    } else {
      var init := rest[..|rest| - 1];
      assert (lead + rest)[..|lead + rest| - 1] == lead + init;
      LeadingSystemDropped(lead, init);
    }
  }

  lemma {:induction false} NoChatNoEntries(ms: seq<Message>)
    requires forall i :: 0 <= i < |ms| ==> !IsChat(ms[i])
    ensures ConvertAll(ms) == []
    decreases |ms|
  {
    if |ms| > 0 {
      NoChatNoEntries(ms[..|ms| - 1]);
    }
  }

  /** Without system messages the entries are exactly the chat contents. */
  lemma {:induction false} ConvertWithoutSystem(ms: seq<Message>)
    requires forall i :: 0 <= i < |ms| ==> ms[i].role != Some("system")
    ensures ConvertAll(ms) == ChatContents(ms)
    decreases |ms|
  {
    if |ms| > 0 {
      ConvertWithoutSystem(ms[..|ms| - 1]);
    }
  }

  // ---------------------------------------------------------------------------
  // Completion text

  /** The parts of the reply JSON `complete` reads; a missing key is None. */
  datatype Part = Part(text: Option<string>)
  datatype Candidate = Candidate(parts: Option<seq<Part>>)  // None: no "content" or no "parts"
  datatype Reply = Reply(candidates: Option<seq<Candidate>>)

  const ParseFallback := "Generated response (structure parsing failed)"

  /** The parts of the first candidate, when the reply has a candidate with content and parts. */
  function FirstParts(reply: Reply): Option<seq<Part>> {
    if reply.candidates.Some? && |reply.candidates.value| > 0 then reply.candidates.value[0].parts else None
  }

  /**
   * The completion text: the first part's text of the first candidate, ""
   * when that part has no text, the fixed fallback when the structure is
   * missing, and an error when the parts list is empty.
   */
  function ExtractText(reply: Reply): (r: Result<string>)
    ensures r.Err? <==> FirstParts(reply) == Some([])
    ensures FirstParts(reply).None? ==> r == Ok(ParseFallback)
    ensures FirstParts(reply).Some? && |FirstParts(reply).value| > 0 ==>
              r == Ok(FirstParts(reply).value[0].text.GetOr(""))
  {
    if reply.candidates.Some? && |reply.candidates.value| > 0 && reply.candidates.value[0].parts.Some? then
      var parts := reply.candidates.value[0].parts.value;
      if |parts| == 0 then Err("list index out of range")
      else Ok(parts[0].text.GetOr(""))
    else Ok(ParseFallback)
  }

  /** `complete`: the retried request, then the text extraction. */
  function Complete(response: RetryOutcome<Reply>): (r: Result<string>)
    ensures response.Returned? ==> (r.Ok? <==> ExtractText(response.value).Ok?)
    ensures response.Returned? && r.Ok? ==> r == ExtractText(response.value)
    ensures response.Raised? ==> r.Err?
    ensures response.NoResult? ==> r.Err?
  {
    match response
    case Returned(reply) =>
      (match ExtractText(reply)
       case Ok(text) => Ok(text)
       case Err(e) => Err("Gemini completion failed: " + e))
    case Raised(f) => Err(if f.kind == NotRequestError then "Gemini completion failed" else "Gemini API request failed")
    case NoResult => Err("Gemini completion failed: 'NoneType' object has no attribute 'json'")
  }

  // ---------------------------------------------------------------------------
  // Embeddings

  const EmbeddingSize := 768

  function Zeros(n: nat): (r: seq<real>)
    ensures |r| == n && forall i :: 0 <= i < n ==> r[i] == 0.0
  {
    seq(n, _ => 0.0)
  }

  /**
   * `embed`: `replies(i)` is the retried request for the i-th text, holding
   * the vector when the reply has `embedding.values`. The first failure
   * fails the whole call.
   */
  function Embed(texts: seq<string>, replies: nat -> Result<Option<seq<real>>>): (r: Result<seq<seq<real>>>)
    ensures r.Err? <==> exists i :: 0 <= i < |texts| && replies(i).Err?
    ensures r.Ok? ==> |r.value| == |texts|
    ensures r.Ok? ==> forall i :: 0 <= i < |texts| ==>
              r.value[i] == (if replies(i).value.Some? then replies(i).value.value else Zeros(EmbeddingSize))
    decreases |texts|
  {
    if |texts| == 0 then Ok([])
    else match Embed(texts[..|texts| - 1], replies)
      case Err(e) => Err(e)
      case Ok(vs) =>
        match replies(|texts| - 1)
        case Err(e) => Err(e)
        case Ok(v) => Ok(vs + [if v.Some? then v.value else Zeros(EmbeddingSize)])
  }

  // ---------------------------------------------------------------------------
  // Rerank

  predicate IsDigit(c: char) {
    '0' <= c <= '9'
  }

  function DigitsValue(s: string): nat
    requires forall i :: 0 <= i < |s| ==> IsDigit(s[i])
  {
    if |s| == 0 then 0
    else
      assert IsDigit(s[|s| - 1]);
      DigitsValue(s[..|s| - 1]) * 10 + (s[|s| - 1] as int - '0' as int)
  }

  /** Length of the run of digits that starts `s`. */
  function DigitRunLength(s: string): (n: nat)
    ensures n <= |s|
    ensures forall i :: 0 <= i < n ==> IsDigit(s[i])
    ensures n < |s| ==> !IsDigit(s[n])
  {
    if |s| == 0 || !IsDigit(s[0]) then 0 else 1 + DigitRunLength(s[1..])
  }

  /** `[int(x) for x in re.findall(r'\d+', s)]` over ASCII digits. */
  function DigitRuns(s: string): seq<nat>
    decreases |s|
  {
    if |s| == 0 then []
    else if !IsDigit(s[0]) then DigitRuns(s[1..])
    else
      var n := DigitRunLength(s);
      [DigitsValue(s[..n])] + DigitRuns(s[n..])
  }

  /** The parsed numbers that name a candidate, made 0-based, in reply order. */
  function InRange(nums: seq<nat>, n: nat): (r: seq<nat>)
    ensures forall k :: 0 <= k < |r| ==> r[k] < n
  {
    if |nums| == 0 then []
    else
      var x := nums[|nums| - 1];
      InRange(nums[..|nums| - 1], n) + (if 1 <= x <= n then [x - 1] else [])
  }

  /** Exactly the in-range numbers appear, shifted to 0-based. */
  lemma {:induction false} InRangeMembers(nums: seq<nat>, n: nat)
    ensures forall i: nat :: i in InRange(nums, n) <==> i < n && i + 1 in nums
    decreases |nums|
  {
    if |nums| > 0 {
      var init := nums[..|nums| - 1];
      var x := nums[|nums| - 1];
      InRangeMembers(init, n);
      assert nums == init + [x];
      forall i: nat
        ensures i in InRange(nums, n) <==> i < n && i + 1 in nums
      {
        assert i + 1 in nums <==> i + 1 in init || i + 1 == x;
      }
    }
  }

  /** The indices below `n` that `ranked` does not mention, ascending. */
  function Missing(ranked: seq<nat>, n: nat): seq<nat> {
    if n == 0 then [] else Missing(ranked, n - 1) + (if n - 1 in ranked then [] else [n - 1])
  }

  /** The missing indices are below `n`, absent from the ranking, ascending, and all there. */
  lemma {:induction false} MissingFacts(ranked: seq<nat>, n: nat)
    ensures var r := Missing(ranked, n);
            && (forall k :: 0 <= k < |r| ==> r[k] < n && r[k] !in ranked)
            && (forall i :: 0 <= i < n && i !in ranked ==> i in r)
            && (forall j, k :: 0 <= j < k < |r| ==> r[j] < r[k])
    decreases n
  {
    if n > 0 {
      MissingFacts(ranked, n - 1);
    }
  }

  lemma MissingStep(ranked: seq<nat>, i: nat)
    ensures i !in Missing(ranked, i)
    ensures Missing(ranked, i + 1) == Missing(ranked, i) + (if i in ranked then [] else [i])
  {
    MissingFacts(ranked, i);
  }

  /** The loop of `rerank` that appends every index the ranking does not yet hold. */
  method AppendMissing(ranked: seq<nat>, n: nat) returns (r: seq<nat>)
    ensures r == ranked + Missing(ranked, n)
  {
    r := ranked;
    var i := 0;
    while i < n
      invariant i <= n
      invariant r == ranked + Missing(ranked, i)
    {
      // The indices appended so far are all below i, so testing the growing
      // list is the same as testing the ranking alone.
      MissingStep(ranked, i);
      ghost var m := Missing(ranked, i);
      assert i in r <==> i in ranked || i in m;
      if i !in r {
        r := r + [i];
      }
      i := i + 1;
    }
  }

  function Identity(n: nat): (r: seq<nat>)
    ensures |r| == n && forall i :: 0 <= i < n ==> r[i] == i
  {
    seq(n, i => i)
  }

  predicate Distinct(s: seq<nat>) {
    forall j, k :: 0 <= j < k < |s| ==> s[j] != s[k]
  }

  /** `s` orders the indices `0 .. n-1`: each exactly once. */
  predicate IsPermutation(s: seq<nat>, n: nat) {
    |s| == n && Distinct(s) && (forall k :: 0 <= k < |s| ==> s[k] < n) && (forall i :: 0 <= i < n ==> i in s)
  }

  /**
   * `rerank` as written: `reply` is the completion, an error when it
   * raised; `n` is the number of candidates.
   */
  function RerankAsWritten(reply: Result<string>, n: nat): (r: seq<nat>)
    ensures |r| == n
    ensures forall k :: 0 <= k < n ==> r[k] < n
    ensures reply.Err? || |DigitRuns(reply.value)| == 0 ==> r == Identity(n)
    ensures reply.Ok? && |DigitRuns(reply.value)| > 0 ==>
              var ranked := InRange(DigitRuns(reply.value), n);
              && Take(ranked, n) <= r
              && (|ranked| < n ==> forall j, k :: |ranked| <= j < k < n ==> r[j] < r[k])
              && (|ranked| < n ==> forall k :: |ranked| <= k < n ==> r[k] !in ranked)
  {
    if reply.Err? || |DigitRuns(reply.value)| == 0 then Identity(n)
    else
      var ranked := InRange(DigitRuns(reply.value), n);
      MissingCovers(ranked, n);
      MissingFacts(ranked, n);
      var all := ranked + Missing(ranked, n);
      if |ranked| < n then
        MissingTail(ranked, n, n);
        all[..n]
      else
        Take(all, n)
  }

  /**
   * The parsed ranking comes first, then the missing indices in ascending
   * order; with distinct numbers the result is a permutation.
   */
  lemma RerankAsWrittenOrder(reply: string, n: nat)
    requires |DigitRuns(reply)| > 0
    ensures var ranked := InRange(DigitRuns(reply), n);
            && Take(ranked, n) <= RerankAsWritten(Ok(reply), n)
            && (Distinct(ranked) ==> IsPermutation(RerankAsWritten(Ok(reply), n), n))
    ensures var ranked := InRange(DigitRuns(reply), n);
            var r := RerankAsWritten(Ok(reply), n);
            |ranked| < n ==>
              && r[|ranked|..] == Take(Missing(ranked, n), n - |ranked|)
              && (forall j, k :: |ranked| <= j < k < n ==> r[j] < r[k])
              && (forall k :: |ranked| <= k < n ==> r[k] !in ranked)
  {
    var ranked := InRange(DigitRuns(reply), n);
    MissingCovers(ranked, n);
    var all := ranked + Missing(ranked, n);
    assert RerankAsWritten(Ok(reply), n) == all[..n];
    if |ranked| < n {
      MissingTail(ranked, n, n);
    }
    if Distinct(ranked) {
      PermutationFromDistinct(ranked, n);
      assert all[..n] == all;
    }
  }

  /** Cut anywhere past the ranking, the appended tail is the missing indices, ascending. */
  lemma MissingTail(ranked: seq<nat>, n: nat, len: nat)
    requires |ranked| <= len <= |ranked + Missing(ranked, n)|
    ensures var r := (ranked + Missing(ranked, n))[..len];
            && r[..|ranked|] == ranked
            && r[|ranked|..] == Take(Missing(ranked, n), len - |ranked|)
            && (forall j, k :: |ranked| <= j < k < len ==> r[j] < r[k])
            && (forall k :: |ranked| <= k < len ==> r[k] !in ranked)
  {
    MissingFacts(ranked, n);
    var m := Missing(ranked, n);
    var r := (ranked + m)[..len];
    forall k | |ranked| <= k < len
      ensures r[k] == m[k - |ranked|]
    {
    }
    assert r[|ranked|..] == m[..len - |ranked|];
  }


  /** With no number in the reply, or a failed completion, the order is unchanged. */
  lemma RerankFallsBackToIdentity(reply: Result<string>, n: nat)
    requires reply.Err? || |DigitRuns(reply.value)| == 0
    ensures RerankAsWritten(reply, n) == Identity(n) && IsPermutation(Identity(n), n)
  {
    var r := Identity(n);
    forall i | 0 <= i < n
      ensures i in r
    {
      assert r[i] == i;
    }
  }

  /** A reply that repeats a number drops a candidate: "1,1" for two candidates gives [0, 0]. */
  lemma RerankRepeatedNumber()
    ensures RerankAsWritten(Ok("1,1"), 2) == [0, 0]
    ensures !IsPermutation(RerankAsWritten(Ok("1,1"), 2), 2)
  {
    DigitRunsOfSample();
    RankedOfSample();
    MissingOfSample();
    var all: seq<nat> := [0, 0] + [1];
    assert all[..2] == [0, 0];
    assert 1 !in [0, 0];
  }

  lemma RankedOfSample()
    ensures InRange([1, 1], 2) == [0, 0]
  {
    assert [1, 1][..1] == [1];
    assert [1][..0] == [];
  }

  lemma MissingOfSample()
    ensures Missing([0, 0], 2) == [1]
  {
    assert Missing([0, 0], 1) == [];
  }

  lemma DigitRunsOfSample()
    ensures DigitRuns("1,1") == [1, 1]
  {
    var one := "1";
    assert DigitRunLength(one[1..]) == 0;
    assert DigitRunLength(one) == 1;
    assert DigitsValue(one[..1]) == 1 by {
      assert one[..1][..0] == [];
    }
    assert DigitRuns(one[1..]) == [];
    assert DigitRuns(one) == [1];
    var s := "1,1";
    assert s[1..][1..] == one;
    assert DigitRuns(s[1..]) == [1];
    assert DigitRunLength(s[1..]) == 0;
    assert DigitRunLength(s) == 1;
    assert s[..1] == one;
  }

  /** The first occurrence of each index, in order. */
  function FirstOccurrences(s: seq<nat>): (r: seq<nat>)
    ensures Distinct(r)
    ensures forall x :: x in r <==> x in s
  {
    if |s| == 0 then []
    else
      var init := FirstOccurrences(s[..|s| - 1]);
      var x := s[|s| - 1];
      assert forall y :: y in s <==> y in s[..|s| - 1] || y == x by {
        assert s == s[..|s| - 1] + [x];
      }
      if x in init then init else init + [x]
  }

  /** `rerank` with repeated numbers ignored after their first occurrence. */
  function Rerank(reply: Result<string>, n: nat): (r: seq<nat>)
    ensures IsPermutation(r, n)
    ensures reply.Err? || |DigitRuns(reply.value)| == 0 ==> r == Identity(n)
    ensures reply.Ok? && |DigitRuns(reply.value)| > 0 ==>
              var ranked := FirstOccurrences(InRange(DigitRuns(reply.value), n));
              && |ranked| <= n == |r|
              && r[..|ranked|] == ranked
              && (forall j, k :: |ranked| <= j < k < n ==> r[j] < r[k])
              && (forall k :: |ranked| <= k < n ==> r[k] !in ranked)
  {
    if reply.Err? || |DigitRuns(reply.value)| == 0 then
      RerankFallsBackToIdentity(reply, n);
      Identity(n)
    else
      var ranked := FirstOccurrences(InRange(DigitRuns(reply.value), n));
      RankedInRange(InRange(DigitRuns(reply.value), n), n);
      PermutationFromDistinct(ranked, n);
      var all := ranked + Missing(ranked, n);
      assert all == all[..n];
      MissingTail(ranked, n, n);
      all
  }

  lemma RankedInRange(s: seq<nat>, n: nat)
    requires forall k :: 0 <= k < |s| ==> s[k] < n
    ensures forall k :: 0 <= k < |FirstOccurrences(s)| ==> FirstOccurrences(s)[k] < n
  {
    var r := FirstOccurrences(s);
    forall k | 0 <= k < |r|
      ensures r[k] < n
    {
      assert r[k] in s;
    }
  }

  /** The corrected rerank agrees with the code whenever the reply repeats no index. */
  lemma RerankAgreesWithoutRepeats(reply: string, n: nat)
    requires |DigitRuns(reply)| > 0 && Distinct(InRange(DigitRuns(reply), n))
    ensures Rerank(Ok(reply), n) == RerankAsWritten(Ok(reply), n)
  {
    var ranked := InRange(DigitRuns(reply), n);
    FirstOccurrencesOfDistinct(ranked);
    PermutationFromDistinct(ranked, n);
  }

  lemma {:induction false} FirstOccurrencesOfDistinct(s: seq<nat>)
    requires Distinct(s)
    ensures FirstOccurrences(s) == s
    decreases |s|
  {
    if |s| > 0 {
      FirstOccurrencesOfDistinct(s[..|s| - 1]);
      assert s[|s| - 1] !in s[..|s| - 1];
    }
  }

  // Counting lemmas behind the length of `ranked + Missing(ranked, n)`.

  function CountBelow(s: seq<nat>, n: nat): nat {
    if |s| == 0 then 0 else CountBelow(s[..|s| - 1], n) + (if s[|s| - 1] < n then 1 else 0)
  }

  function CountOf(s: seq<nat>, v: nat): nat {
    if |s| == 0 then 0 else CountOf(s[..|s| - 1], v) + (if s[|s| - 1] == v then 1 else 0)
  }

  lemma {:induction false} CountBelowStep(s: seq<nat>, n: nat)
    ensures CountBelow(s, n + 1) == CountBelow(s, n) + CountOf(s, n)
    decreases |s|
  {
    if |s| > 0 {
      CountBelowStep(s[..|s| - 1], n);
    }
  }

  lemma {:induction false} CountOfMember(s: seq<nat>, v: nat)
    ensures v in s <==> CountOf(s, v) >= 1
    ensures Distinct(s) ==> CountOf(s, v) <= 1
    decreases |s|
  {
    if |s| > 0 {
      var init := s[..|s| - 1];
      CountOfMember(init, v);
      assert s == init + [s[|s| - 1]];
      if Distinct(s) {
        assert Distinct(init);
        assert s[|s| - 1] !in init;
      }
    }
  }

  lemma {:induction false} CountBelowAll(s: seq<nat>, n: nat)
    requires forall k :: 0 <= k < |s| ==> s[k] < n
    ensures CountBelow(s, n) == |s|
    decreases |s|
  {
    if |s| > 0 {
      CountBelowAll(s[..|s| - 1], n);
    }
  }

  lemma {:induction false} CountBelowZero(s: seq<nat>)
    ensures CountBelow(s, 0) == 0
    decreases |s|
  {
    if |s| > 0 {
      CountBelowZero(s[..|s| - 1]);
    }
  }

  /** Ranked indices and missing indices together account for at least `n` entries, exactly `n` without repeats. */
  lemma {:induction false} MissingCount(ranked: seq<nat>, n: nat)
    ensures CountBelow(ranked, n) + |Missing(ranked, n)| >= n
    ensures Distinct(ranked) ==> CountBelow(ranked, n) + |Missing(ranked, n)| == n
    decreases n
  {
    if n == 0 {
      CountBelowZero(ranked);
    } else {
      MissingCount(ranked, n - 1);
      CountBelowStep(ranked, n - 1);
      CountOfMember(ranked, n - 1);
      assert |Missing(ranked, n)| == |Missing(ranked, n - 1)| + (if n - 1 in ranked then 0 else 1);
      if Distinct(ranked) {
        assert CountOf(ranked, n - 1) == (if n - 1 in ranked then 1 else 0);
        assert CountBelow(ranked, n - 1) + |Missing(ranked, n - 1)| == n - 1;
        assert CountBelow(ranked, n) == CountBelow(ranked, n - 1) + CountOf(ranked, n - 1);
      }
    }
  }

  lemma MissingCovers(ranked: seq<nat>, n: nat)
    requires forall k :: 0 <= k < |ranked| ==> ranked[k] < n
    ensures |ranked + Missing(ranked, n)| >= n
    ensures Distinct(ranked) ==> |ranked + Missing(ranked, n)| == n
  {
    MissingCount(ranked, n);
    CountBelowAll(ranked, n);
  }

  lemma PermutationFromDistinct(ranked: seq<nat>, n: nat)
    requires forall k :: 0 <= k < |ranked| ==> ranked[k] < n
    requires Distinct(ranked)
    ensures IsPermutation(ranked + Missing(ranked, n), n)
  {
    MissingCovers(ranked, n);
    MissingFacts(ranked, n);
    var r := ranked + Missing(ranked, n);
    var m := Missing(ranked, n);
    forall j, k | 0 <= j < k < |r|
      ensures r[j] != r[k]
    {
      if k >= |ranked| && j < |ranked| {
        assert r[k] == m[k - |ranked|];
      } else if j >= |ranked| {
        assert r[j] == m[j - |ranked|] && r[k] == m[k - |ranked|];
      }
    }
    forall i | 0 <= i < n
      ensures i in r
    {
      if i !in ranked {
        assert i in m;
      }
    }
  }
}

=== FILE: journeys.dfy ===
/**
 * The journey registry: a list of named user-flow groupings, three of which
 * are built-in and cannot be deleted. Each operation maps the current list to
 * the next one together with the reply it gives; the journeys file is the
 * list itself.
 */
module Journeys {
  import opened Common

  datatype Journey = Journey(
    name: string,
    description: string,
    color: string,
    createdDate: string,
    isDefault: bool,
    lastUpdated: Option<string>)

  datatype Reply = Done(journey: Journey, message: string) | Rejected(message: string)

  /** The list after an operation, and the reply to the caller. */
  datatype Step = Step(journeys: seq<Journey>, reply: Reply)

  /** The list written when no journeys file exists yet. */
  function DefaultJourneys(now: string): (r: seq<Journey>)
    ensures |r| == 3
    ensures forall i :: 0 <= i < |r| ==> r[i].isDefault && r[i].createdDate == now
    ensures Names(r) == ["Point of Settlement", "Payment Processing", "Account Management"]
  {
    [ Journey("Point of Settlement", "Banking settlement and clearing processes", "primary", now, true, None),
      Journey("Payment Processing", "Payment transaction workflows", "secondary", now, true, None),
      Journey("Account Management", "Customer account operations", "success", now, true, None) ]
  }

  /** `get_journey_names`. */
  function Names(js: seq<Journey>): (r: seq<string>)
    ensures |r| == |js|
    ensures forall i :: 0 <= i < |js| ==> r[i] == js[i].name
  {
    seq(|js|, i requires 0 <= i < |js| => js[i].name)
  }

  /** Some journey already carries `name`, ignoring case. */
  predicate NameTaken(js: seq<Journey>, name: string) {
    exists i :: 0 <= i < |js| && Lower(js[i].name) == Lower(name)
  }

  /** No two journeys share a name up to case. */
  predicate NamesDistinct(js: seq<Journey>) {
    forall i, j :: 0 <= i < j < |js| ==> Lower(js[i].name) != Lower(js[j].name)
  }

  function AddJourney(js: seq<Journey>, name: string, description: string, color: string, now: string): (r: Step)
    ensures r.reply.Rejected? <==> NameTaken(js, name)
    ensures r.reply.Rejected? ==> r.journeys == js
    ensures r.reply.Done? ==>
              && r.journeys == js + [r.reply.journey]
              && r.reply.journey.name == name
              && !r.reply.journey.isDefault
              && r.reply.journey.color == color
              && r.reply.journey.description == (if description == "" then "Custom journey: " + name else description)
  {
    if NameTaken(js, name) then Step(js, Rejected("Journey '" + name + "' already exists"))
    else
      var j := Journey(name, if description != "" then description else "Custom journey: " + name,
                       color, now, false, None);
      Step(js + [j], Done(j, "Journey '" + name + "' added successfully"))
  }

  /** Position of the first journey named exactly `name`. */
  function FindFirst(js: seq<Journey>, name: string): (r: Option<nat>)
    ensures r.None? <==> forall i :: 0 <= i < |js| ==> js[i].name != name
    ensures r.Some? ==> r.value < |js| && js[r.value].name == name
                        && forall i :: 0 <= i < r.value ==> js[i].name != name
  {
    if |js| == 0 then None
    else if js[0].name == name then Some(0)
    else match FindFirst(js[1..], name)
      case None => None
      case Some(i) => Some(i + 1)
  }

  /** Python truthiness of an optional string argument. */
  predicate Given(s: Option<string>) {
    s.Some? && s.value != ""
  }

  function UpdateJourney(js: seq<Journey>, oldName: string, newName: Option<string>,
                         description: Option<string>, color: Option<string>, now: string): (r: Step)
    ensures r.reply.Rejected? <==> forall i :: 0 <= i < |js| ==> js[i].name != oldName
    ensures r.reply.Rejected? ==> r.journeys == js
    ensures r.reply.Done? ==>
              var i := FindFirst(js, oldName).value;
              var u := r.reply.journey;
              && r.journeys == js[i := u]
              && u.name == (if Given(newName) then newName.value else oldName)
              && u.description == (if description.Some? then description.value else js[i].description)
              && u.color == (if Given(color) then color.value else js[i].color)
              && u.createdDate == js[i].createdDate
              && u.isDefault == js[i].isDefault
              && u.lastUpdated == Some(now)
  {
    match FindFirst(js, oldName)
    case None => Step(js, Rejected("Journey '" + oldName + "' not found"))
    case Some(i) =>
      var j := js[i];
      var u := j.(name := if Given(newName) then newName.value else j.name,
                  description := if description.Some? then description.value else j.description,
                  color := if Given(color) then color.value else j.color,
                  lastUpdated := Some(now));
      Step(js[i := u], Done(u, "Journey updated successfully"))
  }

  function DeleteJourney(js: seq<Journey>, name: string): (r: Step)
    ensures r.reply.Rejected? <==>
              (forall i :: 0 <= i < |js| ==> js[i].name != name) || js[FindFirst(js, name).value].isDefault
    ensures r.reply.Rejected? ==> r.journeys == js
    ensures r.reply.Done? ==>
              var i := FindFirst(js, name).value;
              r.journeys == js[..i] + js[i + 1..] && r.reply.journey == js[i] && !js[i].isDefault
  {
    match FindFirst(js, name)
    case None => Step(js, Rejected("Journey '" + name + "' not found"))
    case Some(i) =>
      if js[i].isDefault then Step(js, Rejected("Cannot delete default journey '" + name + "'"))
      else Step(js[..i] + js[i + 1..], Done(js[i], "Journey '" + name + "' deleted successfully"))
  }

  function DefaultCount(js: seq<Journey>): nat {
    if |js| == 0 then 0
    else DefaultCount(js[..|js| - 1]) + (if js[|js| - 1].isDefault then 1 else 0)
  }

  lemma {:induction false} DefaultCountAppend(a: seq<Journey>, b: seq<Journey>)
    ensures DefaultCount(a + b) == DefaultCount(a) + DefaultCount(b)
    decreases |b|
  {
    if |b| == 0 {
      assert a + b == a;
    } else {
      assert (a + b)[..|a + b| - 1] == a + b[..|b| - 1];
      DefaultCountAppend(a, b[..|b| - 1]);
    }
  }

  /** Replacing one journey by one with the same default flag keeps the count. */
  lemma DefaultCountReplace(js: seq<Journey>, i: nat, u: Journey)
    requires i < |js| && u.isDefault == js[i].isDefault
    ensures DefaultCount(js[i := u]) == DefaultCount(js)
  {
    assert js == js[..i] + [js[i]] + js[i + 1..];
    assert js[i := u] == js[..i] + [u] + js[i + 1..];
    DefaultCountAppend(js[..i] + [js[i]], js[i + 1..]);
    DefaultCountAppend(js[..i] + [u], js[i + 1..]);
    DefaultCountAppend(js[..i], [js[i]]);
    DefaultCountAppend(js[..i], [u]);
  }

  /** Adding a journey never changes how many built-in journeys there are. */
  lemma AddPreservesDefaults(js: seq<Journey>, name: string, description: string, color: string, now: string)
    ensures DefaultCount(AddJourney(js, name, description, color, now).journeys) == DefaultCount(js)
  {
    var a := AddJourney(js, name, description, color, now);
    if a.reply.Done? {
      DefaultCountAppend(js, [a.reply.journey]);
      assert [a.reply.journey][..0] == [];
    }
  }

  /** Updating a journey never changes how many built-in journeys there are. */
  lemma UpdatePreservesDefaults(js: seq<Journey>, oldName: string, newName: Option<string>,
                                description: Option<string>, color: Option<string>, now: string)
    ensures DefaultCount(UpdateJourney(js, oldName, newName, description, color, now).journeys) == DefaultCount(js)
  {
    var u := UpdateJourney(js, oldName, newName, description, color, now);
    if u.reply.Done? {
      DefaultCountReplace(js, FindFirst(js, oldName).value, u.reply.journey);
    }
  }

  /** Deleting a journey never changes how many built-in journeys there are. */
  lemma DeletePreservesDefaults(js: seq<Journey>, name: string)
    ensures DefaultCount(DeleteJourney(js, name).journeys) == DefaultCount(js)
  {
    var d := DeleteJourney(js, name);
    if d.reply.Done? {
      var i := FindFirst(js, name).value;
      var pre, post := js[..i], js[i + 1..];
      assert js == pre + [js[i]] + post;
      DefaultCountAppend(pre + [js[i]], post);
      DefaultCountAppend(pre, [js[i]]);
      DefaultCountAppend(pre, post);
      assert [js[i]][..0] == [];
      assert DefaultCount([js[i]]) == 0;
    }
  }

  /** Adding keeps names distinct up to case. */
  lemma AddKeepsNamesDistinct(js: seq<Journey>, name: string, description: string, color: string, now: string)
    requires NamesDistinct(js)
    ensures NamesDistinct(AddJourney(js, name, description, color, now).journeys)
  {
  }

  /** The three default journeys have distinct names, up to case. */
  lemma DefaultNamesDistinct(now: string)
    ensures NamesDistinct(DefaultJourneys(now))
  {
    var js := DefaultJourneys(now);
    assert Lower(js[0].name)[1] == 'o' && Lower(js[1].name)[1] == 'a';
    assert Lower(js[0].name)[0] == 'p' && Lower(js[1].name)[0] == 'p' && Lower(js[2].name)[0] == 'a';
  }

  /** Renaming is not checked against the other names, so it can break distinctness. */
  lemma UpdateCanDuplicateNames()
    ensures var js := DefaultJourneys("t0");
            NamesDistinct(js)
            && !NamesDistinct(UpdateJourney(js, "Payment Processing", Some("Point of Settlement"), None, None, "t1").journeys)
  {
    var js := DefaultJourneys("t0");
    DefaultNamesDistinct("t0");
    var r := UpdateJourney(js, "Payment Processing", Some("Point of Settlement"), None, None, "t1");
    assert FindFirst(js, "Payment Processing") == Some(1);
    assert r.journeys[1].name == r.journeys[0].name;
  }
}

=== FILE: providers.dfy ===
/**
 * Choosing the language-model provider: the name comes from the caller, the
 * `LLM_PROVIDER` environment variable or the built-in default, and a name
 * maps to a provider whose construction may fail. Whether the OpenAI module
 * imported, and whether each constructor raises, are parameters.
 */
module Providers {
  import opened Common

  datatype Provider = OpenAi | Ollama | Claude | GeminiApi

  /** Which constructors succeed; `openAiImported` is whether the optional import worked. */
  datatype Environment = Environment(openAiImported: bool, openAiBuilds: bool, ollamaBuilds: bool,
                                     claudeBuilds: bool, geminiBuilds: bool)

  const DefaultName := "claude"

  /** `(preferred or os.environ.get("LLM_PROVIDER", "claude")).lower()`. */
  function ProviderName(preferred: Option<string>, env: Option<string>): (r: string)
    ensures preferred.Some? && preferred.value != "" ==> r == Lower(preferred.value)
    ensures (preferred.None? || preferred.value == "") && env.Some? ==> r == Lower(env.value)
    ensures (preferred.None? || preferred.value == "") && env.None? ==> r == DefaultName
  {
    var name := if preferred.Some? && preferred.value != "" then preferred.value else env.GetOr(DefaultName);
    assert Lower(DefaultName) == DefaultName;
    Lower(name)
  }

  function Build(p: Provider, e: Environment): Result<Provider> {
    var ok := match p
      case OpenAi => e.openAiBuilds
      case Ollama => e.ollamaBuilds
      case Claude => e.claudeBuilds
      case GeminiApi => e.geminiBuilds;
    if ok then Ok(p) else Err("provider construction failed")
  }

  /** Claude, else Gemini, else Ollama, whose failure is not caught. */
  function DefaultChain(e: Environment): (r: Result<Provider>)
    ensures e.claudeBuilds ==> r == Ok(Claude)
    ensures !e.claudeBuilds && e.geminiBuilds ==> r == Ok(GeminiApi)
    ensures !e.claudeBuilds && !e.geminiBuilds ==> r == Build(Ollama, e)
  {
    if e.claudeBuilds then Ok(Claude)
    else if e.geminiBuilds then Ok(GeminiApi)
    else Build(Ollama, e)
  }

  predicate KnownName(name: string) {
    name == "ollama" || name == "claude" || name == "gemini"
  }

  /** `get_provider` for an already normalised name. */
  function Select(name: string, e: Environment): (r: Result<Provider>)
    ensures name == "openai" && e.openAiImported ==> r == Build(OpenAi, e)
    ensures name == "ollama" ==> r == Build(Ollama, e)
    ensures name == "claude" ==> r == Build(Claude, e)
    ensures name == "gemini" ==> r == Build(GeminiApi, e)
    ensures !KnownName(name) && !(name == "openai" && e.openAiImported) ==> r == DefaultChain(e)
  {
    if name == "openai" && e.openAiImported then Build(OpenAi, e)
    else if name == "ollama" then Build(Ollama, e)
    else if name == "claude" then Build(Claude, e)
    else if name == "gemini" then Build(GeminiApi, e)
    else DefaultChain(e)
  }

  /**
   * `get_provider`: with nothing configured Claude is built directly and its
   * failure propagates; only an unrecognised name takes the fallback chain.
   */
  function GetProvider(preferred: Option<string>, env: Option<string>, e: Environment): (r: Result<Provider>)
    ensures (preferred.None? || preferred.value == "") && env.None? ==> r == Build(Claude, e)
    ensures preferred.Some? && Lower(preferred.value) == "gemini" ==> r == Build(GeminiApi, e)
    ensures r == Ok(OpenAi) ==> e.openAiImported
    ensures !KnownName(ProviderName(preferred, env)) && !(ProviderName(preferred, env) == "openai" && e.openAiImported) ==>
              (r.Err? <==> !e.claudeBuilds && !e.geminiBuilds && !e.ollamaBuilds)
  {
    Select(ProviderName(preferred, env), e)
  }

  /** A successful selection is OpenAI only when the module imported and the name asked for it. */
  lemma OpenAiNeedsImport(preferred: Option<string>, env: Option<string>, e: Environment)
    requires GetProvider(preferred, env, e) == Ok(OpenAi)
    ensures e.openAiImported && ProviderName(preferred, env) == "openai"
  {
  }

  /** Without the OpenAI module, asking for "openai" falls back to the default chain. */
  lemma OpenAiWithoutImport(e: Environment)
    requires !e.openAiImported
    ensures GetProvider(Some("OpenAI"), None, e) == DefaultChain(e)
  {
    assert Lower("OpenAI") == "openai";
  }

  /** The default chain fails only when all three of its constructors fail. */
  lemma DefaultChainFails(e: Environment)
    ensures DefaultChain(e).Err? <==> !e.claudeBuilds && !e.geminiBuilds && !e.ollamaBuilds
  {
  }

  /** An explicitly named provider is never replaced by another one. */
  lemma ExplicitNameNoFallback(name: string, e: Environment)
    requires KnownName(name)
    ensures Select(name, e).Ok? ==>
              Select(name, e).value == (if name == "ollama" then Ollama else if name == "claude" then Claude else GeminiApi)
  {
  }

  /** A set but empty `LLM_PROVIDER` yields the empty name, which takes the default chain. */
  lemma EmptyEnvironmentName(e: Environment)
    ensures ProviderName(None, Some("")) == ""
    ensures GetProvider(None, Some(""), e) == DefaultChain(e)
  {
  }
}

=== FILE: report.dfy ===
/**
 * The test-case spreadsheet of the email service: a list of loosely typed
 * test-case records becomes a 12-column "Test Cases" sheet (header row plus
 * one row per record), conditional fills on the type and priority columns,
 * capped column widths and a "Summary" sheet of counts.
 *
 * The workbook is modelled as its cell matrix, fills, widths and summary;
 * its xlsx serialisation is not part of this model.
 */
module Report {
  import opened Common

  /** A value of a test-case record as decoded from JSON. */
  datatype Value = Str(s: string) | Int(i: int) | Bool(b: bool) | Null | List(items: seq<string>)

  /** A test-case record: optional string-keyed fields. */
  type Record = map<string, Value>

  /** What a spreadsheet cell can hold. */
  datatype Cell = Text(s: string) | Number(n: int) | Flag(b: bool) | Blank

  datatype Summary = Summary(
    total: nat,
    positive: nat, negative: nat, edge: nat,
    high: nat, medium: nat, low: nat,
    generatedAt: string)

  datatype Workbook = Workbook(
    cases: seq<seq<Cell>>,
    fills: seq<seq<Option<string>>>,
    widths: seq<nat>,
    summary: Summary)

  const Headers: seq<string> := [
    "Test Case Name", "Preconditions", "Steps", "Expected Result", "Actual Result",
    "Test Type", "Priority", "Journey", "Requirement Reference", "Status",
    "Test Case ID", "Created Date"]

  const ColumnCount := 12
  /** Zero-based positions of the two colour-coded columns. */
  const TypeColumn := 5
  const PriorityColumn := 6
  const MaxWidth := 50
  const HeaderFill := "366092"

  const TypeColours: map<string, string> :=
    map["positive" := "C6EFCE", "negative" := "FFC7CE", "edge" := "FFEB9C"]
  const PriorityColours: map<string, string> :=
    map["High" := "FFC7CE", "Medium" := "FFEB9C", "Low" := "C6EFCE"]

  const Bullet := "\U{2022} "

  /** Python truthiness of a record value. */
  predicate Truthy(v: Value) {
    match v
    case Str(s) => |s| > 0
    case Int(i) => i != 0
    case Bool(b) => b
    case Null => false
    case List(xs) => |xs| > 0
  }

  /** `str(v)` for a value that is not a list. */
  function ScalarText(v: Value): string
    requires !v.List?
  {
    match v
    case Str(s) => s
    case Int(i) => IntToString(i)
    case Bool(b) => if b then "True" else "False"
    case Null => "None"
  }

  /** `rec.get(key, default)`. */
  function Get(rec: Record, key: string, default: Value): Value {
    if key in rec then rec[key] else default
  }

  /** Legacy-key fallback: the value under the first of `keys` present in `rec`, else `default`. */
  function Lookup(rec: Record, keys: seq<string>, default: Value): (r: Value)
    ensures (forall i :: 0 <= i < |keys| ==> keys[i] !in rec) ==> r == default
    ensures forall i :: 0 <= i < |keys| && keys[i] in rec && (forall j :: 0 <= j < i ==> keys[j] !in rec)
                        ==> r == rec[keys[i]]
  {
    if |keys| == 0 then default
    else if keys[0] in rec then rec[keys[0]]
    else Lookup(rec, keys[1..], default)
  }

  /** The nested `get` chains of the source are exactly ordered fallback lookups. */
  lemma LookupIsNestedGet(rec: Record, k1: string, k2: string, k3: string, d: Value)
    ensures Lookup(rec, [k1, k2], d) == Get(rec, k1, Get(rec, k2, d))
    ensures Lookup(rec, [k1, k2, k3], d) == Get(rec, k1, Get(rec, k2, Get(rec, k3, d)))
  {
    assert [k1, k2][1..] == [k2] && [k2][1..] == [];
    assert [k1, k2, k3][1..] == [k2, k3] && [k2, k3][1..] == [k3] && [k3][1..] == [];
    assert Lookup(rec, [k3], d) == Get(rec, k3, d);
    assert Lookup(rec, [k2, k3], d) == Get(rec, k2, Get(rec, k3, d));
  }

  function NumberedLines(items: seq<string>): (r: seq<string>)
    ensures |r| == |items|
    ensures forall i :: 0 <= i < |items| ==> r[i] == NatToString(i + 1) + ". " + items[i]
  {
    seq(|items|, i requires 0 <= i < |items| => NatToString(i + 1) + ". " + items[i])
  }

  function BulletLines(items: seq<string>): (r: seq<string>)
    ensures |r| == |items|
    ensures forall i :: 0 <= i < |items| ==> r[i] == Bullet + items[i]
  {
    seq(|items|, i requires 0 <= i < |items| => Bullet + items[i])
  }

  /** Steps: a list is numbered one per line; a falsy scalar is ""; another scalar is `str(v)`. */
  function FormatSteps(v: Value): string {
    match v
    case List(xs) => Join(NumberedLines(xs), "\n")
    case _ => if Truthy(v) then ScalarText(v) else ""
  }

  /** Preconditions and expected results: a list is bulleted one per line. */
  function FormatBullets(v: Value): string {
    match v
    case List(xs) => Join(BulletLines(xs), "\n")
    case _ => if Truthy(v) then ScalarText(v) else ""
  }

  /** The twelve values written for one record, before they become cells. */
  function RowValues(rec: Record, today: string): seq<Value> {
    [ Lookup(rec, ["test_case_name", "name", "title"], Str("")),
      Str(FormatBullets(Lookup(rec, ["preconditions", "precondition_objective"], Str("")))),
      Str(FormatSteps(Lookup(rec, ["steps", "test_script"], Str("")))),
      Str(FormatBullets(Lookup(rec, ["expected_result", "expected"], Str("")))),
      Get(rec, "actual_result", Str("")),
      Get(rec, "test_type", Str("positive")),
      Get(rec, "priority", Str("Medium")),
      Get(rec, "journey", Str("")),
      Get(rec, "requirement_reference", Str("")),
      Get(rec, "status", Str("Draft")),
      Lookup(rec, ["test_case_id", "key", "test_id"], Str("")),
      Get(rec, "created_date", Str(today)) ]
  }

  /** Writing a value into a cell; a list cannot be stored and aborts the workbook. */
  function ToCell(v: Value): Option<Cell> {
    match v
    case Str(s) => Some(Text(s))
    case Int(i) => Some(Number(i))
    case Bool(b) => Some(Flag(b))
    case Null => Some(Blank)
    case List(_) => None
  }

  function CellText(c: Cell): string {
    match c
    case Text(s) => s
    case Number(n) => IntToString(n)
    case Flag(b) => if b then "True" else "False"
    case Blank => "None"
  }

  function ToCells(vs: seq<Value>): (r: Option<seq<Cell>>)
    ensures r.Some? <==> forall i :: 0 <= i < |vs| ==> !vs[i].List?
    ensures r.Some? ==> |r.value| == |vs| && forall i :: 0 <= i < |vs| ==> Some(r.value[i]) == ToCell(vs[i])
  {
    if |vs| == 0 then Some([])
    else match (ToCell(vs[0]), ToCells(vs[1..]))
      case (Some(c), Some(cs)) => Some([c] + cs)
      case _ => None
  }

  /** The data row of one record, or None when a field that is written as-is holds a list. */
  function BuildRow(rec: Record, today: string): (r: Option<seq<Cell>>)
    ensures r.Some? ==> |r.value| == ColumnCount
  {
    ToCells(RowValues(rec, today))
  }

  predicate Renderable(rec: Record, today: string) {
    BuildRow(rec, today).Some?
  }

  /** All the values when none is missing; nothing as soon as one is. */
  function Collect<T>(xs: seq<Option<T>>): (r: Option<seq<T>>)
    ensures r.Some? <==> forall i :: 0 <= i < |xs| ==> xs[i].Some?
    ensures r.Some? ==> |r.value| == |xs| && forall i :: 0 <= i < |xs| ==> Some(r.value[i]) == xs[i]
  {
    if |xs| == 0 then Some([])
    else
      var init := Collect(xs[..|xs| - 1]);
      assert forall i :: 0 <= i < |xs| - 1 ==> xs[..|xs| - 1][i] == xs[i];
      if init.Some? && xs[|xs| - 1].Some? then Some(init.value + [xs[|xs| - 1].value]) else None
  }

  function BuildRows(tests: seq<Record>, today: string): (r: Option<seq<seq<Cell>>>)
    ensures r.Some? <==> forall i :: 0 <= i < |tests| ==> Renderable(tests[i], today)
    ensures r.Some? ==> |r.value| == |tests|
    ensures r.Some? ==> forall i :: 0 <= i < |tests| ==> Some(r.value[i]) == BuildRow(tests[i], today)
  {
    var rows := seq(|tests|, i requires 0 <= i < |tests| => BuildRow(tests[i], today));
    assert forall i :: 0 <= i < |tests| ==> rows[i] == BuildRow(tests[i], today);
    assert forall i :: 0 <= i < |tests| ==> (rows[i].Some? <==> Renderable(tests[i], today));
    Collect(rows)
  }

  function HeaderRow(): (r: seq<Cell>)
    ensures |r| == ColumnCount
    ensures forall i :: 0 <= i < ColumnCount ==> r[i] == Text(Headers[i])
  {
    seq(ColumnCount, i requires 0 <= i < ColumnCount => Text(Headers[i]))
  }

  /** The fill of the cell at (row, col), zero-based; row 0 is the header. */
  function CellFill(row: nat, col: nat, c: Cell): (r: Option<string>)
    ensures row == 0 ==> r == Some(HeaderFill)
    ensures row > 0 && col == TypeColumn ==>
              r == (if c.Text? && c.s in TypeColours then Some(TypeColours[c.s]) else None)
    ensures row > 0 && col == PriorityColumn ==>
              r == (if c.Text? && c.s in PriorityColours then Some(PriorityColours[c.s]) else None)
    ensures row > 0 && col != TypeColumn && col != PriorityColumn ==> r == None
  {
    if row == 0 then Some(HeaderFill)
    else if col == TypeColumn then
      if c == Text("positive") then Some("C6EFCE")
      else if c == Text("negative") then Some("FFC7CE")
      else if c == Text("edge") then Some("FFEB9C")
      else None
    else if col == PriorityColumn then
      if c == Text("High") then Some("FFC7CE")
      else if c == Text("Medium") then Some("FFEB9C")
      else if c == Text("Low") then Some("C6EFCE")
      else None
    else None
  }

  function Fills(sheet: seq<seq<Cell>>): (r: seq<seq<Option<string>>>)
    ensures |r| == |sheet|
    ensures forall i :: 0 <= i < |sheet| ==> |r[i]| == |sheet[i]|
    ensures forall i, j :: 0 <= i < |sheet| && 0 <= j < |sheet[i]| ==> r[i][j] == CellFill(i, j, sheet[i][j])
  {
    seq(|sheet|, i requires 0 <= i < |sheet| =>
      seq(|sheet[i]|, j requires 0 <= j < |sheet[i]| => CellFill(i, j, sheet[i][j])))
  }

  /** Longest rendered text in column `col`, over rows that have such a column. */
  function LongestIn(sheet: seq<seq<Cell>>, col: nat): (m: nat)
    ensures forall i :: 0 <= i < |sheet| && col < |sheet[i]| ==> |CellText(sheet[i][col])| <= m
    ensures m == 0 || exists i :: 0 <= i < |sheet| && col < |sheet[i]| && |CellText(sheet[i][col])| == m
  {
    if |sheet| == 0 then 0
    else
      var rest := LongestIn(sheet[1..], col);
      var here := if col < |sheet[0]| then |CellText(sheet[0][col])| else 0;
      if here > rest then here else rest
  }

  function Min(a: int, b: int): int {
    if a < b then a else b
  }

  /** The width of column `c`: its longest rendered value plus two, capped at 50. */
  function Width(sheet: seq<seq<Cell>>, c: nat): nat {
    if LongestIn(sheet, c) + 2 < MaxWidth then LongestIn(sheet, c) + 2 else MaxWidth
  }

  /** Auto-sized column widths: longest rendered value plus two, capped at 50. */
  function ColumnWidths(sheet: seq<seq<Cell>>): (r: seq<nat>)
    ensures |r| == ColumnCount
    ensures forall c :: 0 <= c < ColumnCount ==> r[c] <= MaxWidth
    ensures forall c, i :: 0 <= c < ColumnCount && 0 <= i < |sheet| && c < |sheet[i]| ==>
              Min(|CellText(sheet[i][c])| + 2, MaxWidth) <= r[c]
  {
    var r := seq(ColumnCount, c requires 0 <= c < ColumnCount => Width(sheet, c));
    assert forall c :: 0 <= c < ColumnCount ==> r[c] == Width(sheet, c);
    r
  }

  /** A width is reached by some cell of its column unless the column is empty. */
  lemma WidthIsAttained(sheet: seq<seq<Cell>>, c: nat)
    requires c < ColumnCount
    requires exists i :: 0 <= i < |sheet| && c < |sheet[i]| && |CellText(sheet[i][c])| > 0
    ensures exists i :: 0 <= i < |sheet| && c < |sheet[i]| && ColumnWidths(sheet)[c] == Min(|CellText(sheet[i][c])| + 2, MaxWidth)
  {
    var m := LongestIn(sheet, c);
    assert m > 0;
    var i :| 0 <= i < |sheet| && c < |sheet[i]| && |CellText(sheet[i][c])| == m;
    assert ColumnWidths(sheet)[c] == Min(|CellText(sheet[i][c])| + 2, MaxWidth);
  }

  /** Number of records whose raw `key` field equals the string `val`. */
  function CountWhere(tests: seq<Record>, key: string, val: string): (n: nat)
    ensures n <= |tests|
  {
    if |tests| == 0 then 0
    else CountWhere(tests[..|tests| - 1], key, val)
         + (if key in tests[|tests| - 1] && tests[|tests| - 1][key] == Str(val) then 1 else 0)
  }

  /** The positions of the records whose raw `key` field equals the string `val`. */
  function Matching(tests: seq<Record>, key: string, val: string): set<nat> {
    set i: nat | i < |tests| && key in tests[i] && tests[i][key] == Str(val)
  }

  /** The running count is the number of matching records. */
  lemma {:induction false} CountWhereIsMatching(tests: seq<Record>, key: string, val: string)
    ensures CountWhere(tests, key, val) == |Matching(tests, key, val)|
    decreases |tests|
  {
    if |tests| > 0 {
      var n := |tests| - 1;
      var init := tests[..n];
      CountWhereIsMatching(init, key, val);
      var before := Matching(init, key, val);
      assert forall i :: 0 <= i < n ==> init[i] == tests[i];
      if key in tests[n] && tests[n][key] == Str(val) {
        assert Matching(tests, key, val) == before + {n};
        assert n !in before;
      } else {
        assert Matching(tests, key, val) == before;
      }
    }
  }

  /** Records matching three distinct values of one field never outnumber the records. */
  lemma {:induction false} DistinctCountsBounded(tests: seq<Record>, key: string, a: string, b: string, c: string)
    requires a != b && b != c && a != c
    ensures CountWhere(tests, key, a) + CountWhere(tests, key, b) + CountWhere(tests, key, c) <= |tests|
  {
    if |tests| > 0 {
      DistinctCountsBounded(tests[..|tests| - 1], key, a, b, c);
    }
  }

  /** Each summary count is the number of records whose raw field holds that bucket's value. */
  lemma SummariseCounts(tests: seq<Record>, generatedAt: string)
    ensures var s := Summarise(tests, generatedAt);
            && s.positive == |Matching(tests, "test_type", "positive")|
            && s.negative == |Matching(tests, "test_type", "negative")|
            && s.edge == |Matching(tests, "test_type", "edge")|
            && s.high == |Matching(tests, "priority", "High")|
            && s.medium == |Matching(tests, "priority", "Medium")|
            && s.low == |Matching(tests, "priority", "Low")|
  {
    CountWhereIsMatching(tests, "test_type", "positive");
    CountWhereIsMatching(tests, "test_type", "negative");
    CountWhereIsMatching(tests, "test_type", "edge");
    CountWhereIsMatching(tests, "priority", "High");
    CountWhereIsMatching(tests, "priority", "Medium");
    CountWhereIsMatching(tests, "priority", "Low");
  }

  function Summarise(tests: seq<Record>, generatedAt: string): (s: Summary)
    ensures s.total == |tests|
    ensures s.positive + s.negative + s.edge <= s.total
    ensures s.high + s.medium + s.low <= s.total
    ensures s.positive == CountWhere(tests, "test_type", "positive")
    ensures s.negative == CountWhere(tests, "test_type", "negative")
    ensures s.edge == CountWhere(tests, "test_type", "edge")
    ensures s.high == CountWhere(tests, "priority", "High")
    ensures s.medium == CountWhere(tests, "priority", "Medium")
    ensures s.low == CountWhere(tests, "priority", "Low")
  {
    DistinctCountsBounded(tests, "test_type", "positive", "negative", "edge");
    DistinctCountsBounded(tests, "priority", "High", "Medium", "Low");
    Summary(|tests|,
      CountWhere(tests, "test_type", "positive"),
      CountWhere(tests, "test_type", "negative"),
      CountWhere(tests, "test_type", "edge"),
      CountWhere(tests, "priority", "High"),
      CountWhere(tests, "priority", "Medium"),
      CountWhere(tests, "priority", "Low"),
      generatedAt)
  }

  /**
   * `generate_excel_file`: the workbook, or None when some record holds a list
   * in a field that is written unformatted (the source lets that error propagate).
   * `today` and `now` stand for the two readings of the clock.
   */
  function GenerateWorkbook(tests: seq<Record>, today: string, now: string): (r: Option<Workbook>)
    ensures r.Some? <==> forall i :: 0 <= i < |tests| ==> Renderable(tests[i], today)
    ensures r.Some? ==> |r.value.cases| == |tests| + 1
    ensures r.Some? ==> forall i :: 0 <= i < |r.value.cases| ==> |r.value.cases[i]| == ColumnCount
    ensures r.Some? ==> forall j :: 0 <= j < ColumnCount ==> r.value.cases[0][j] == Text(Headers[j])
    ensures r.Some? ==> forall i :: 0 <= i < |tests| ==> Some(r.value.cases[i + 1]) == BuildRow(tests[i], today)
    ensures r.Some? ==> r.value.summary.total == |tests|
    ensures r.Some? ==> r.value.fills == Fills(r.value.cases) && r.value.widths == ColumnWidths(r.value.cases)
    ensures r.Some? ==> r.value.summary == Summarise(tests, now)
  {
    match BuildRows(tests, today)
    case None => None
    case Some(rows) =>
      var sheet := [HeaderRow()] + rows;
      Some(Workbook(sheet, Fills(sheet), ColumnWidths(sheet), Summarise(tests, now)))
  }

  /**
   * The cell defaults are not the summary's: a record without `test_type` or
   * `priority` shows "positive" and "Medium" but is counted in no bucket.
   */
  lemma MissingFieldsDefaultOnlyInCells(rec: Record, today: string)
    requires "test_type" !in rec && "priority" !in rec
    requires Renderable(rec, today)
    ensures BuildRow(rec, today).value[TypeColumn] == Text("positive")
    ensures BuildRow(rec, today).value[PriorityColumn] == Text("Medium")
    ensures CountWhere([rec], "test_type", "positive") == 0
    ensures CountWhere([rec], "priority", "Medium") == 0
  {
    var vs := RowValues(rec, today);
    assert vs[TypeColumn] == Str("positive") && vs[PriorityColumn] == Str("Medium");
    assert [rec][..0] == [];
  }

  /** Steps render one numbered line per step: one more step adds the line "n. step". */
  lemma StepsRendering(xs: seq<string>, x: string)
    ensures FormatSteps(List([])) == ""
    ensures FormatSteps(List([x])) == "1. " + x
    ensures |xs| > 0 ==> FormatSteps(List(xs + [x])) == FormatSteps(List(xs)) + "\n" + (NatToString(|xs| + 1) + ". " + x)
  {
    SingleStep(x);
    if |xs| > 0 {
      NumberedSnoc(xs, x);
      JoinSnoc(NumberedLines(xs), NatToString(|xs| + 1) + ". " + x, "\n");
    }
  }

  lemma SnocPointwise<T>(r: seq<T>, front: seq<T>, last: T)
    requires |r| == |front| + 1
    requires forall i :: 0 <= i < |front| ==> r[i] == front[i]
    requires r[|front|] == last
    ensures r == front + [last]
  {
  }

  lemma SingleStep(x: string)
    ensures FormatSteps(List([x])) == "1. " + x
  {
    OneToString();
    var r := NumberedLines([x]);
    assert r[0] == NatToString(1) + ". " + x;
    assert "1" + ". " == "1. ";
    SnocPointwise(r, [], "1. " + x);
  }

  lemma OneToString()
    ensures NatToString(1) == "1"
  {
  }

  lemma NumberedSnoc(xs: seq<string>, x: string)
    ensures NumberedLines(xs + [x]) == NumberedLines(xs) + [NatToString(|xs| + 1) + ". " + x]
  {
    var r := NumberedLines(xs + [x]);
    var front := NumberedLines(xs);
    forall i | 0 <= i < |front| ensures r[i] == front[i] {
      NumberedKeepsEarlier(xs, x, i);
    }
    SnocPointwise(r, front, NatToString(|xs| + 1) + ". " + x);
  }

  lemma NumberedKeepsEarlier(xs: seq<string>, x: string, i: nat)
    requires i < |xs|
    ensures NumberedLines(xs + [x])[i] == NumberedLines(xs)[i]
  {
    assert (xs + [x])[i] == xs[i];
  }

  /** A scalar renders as `str(v)` when truthy and as "" otherwise, in every formatted column. */
  lemma ScalarRendering(v: Value)
    requires !v.List?
    ensures FormatSteps(v) == (if Truthy(v) then ScalarText(v) else "")
    ensures FormatBullets(v) == FormatSteps(v)
  {
  }

  /** Preconditions and expected results render one bulleted line per item. */
  lemma BulletsRendering(xs: seq<string>, x: string)
    ensures FormatBullets(List([])) == ""
    ensures FormatBullets(List([x])) == Bullet + x
    ensures |xs| > 0 ==> FormatBullets(List(xs + [x])) == FormatBullets(List(xs)) + "\n" + (Bullet + x)
  {
    assert BulletLines([x]) == [Bullet + x];
    if |xs| > 0 {
      assert BulletLines(xs + [x]) == BulletLines(xs) + [Bullet + x];
      JoinSnoc(BulletLines(xs), Bullet + x, "\n");
    }
  }

  /** Joining one more part adds the separator and the part. */
  lemma {:induction false} JoinSnoc(ps: seq<string>, p: string, sep: string)
    requires |ps| > 0
    ensures Join(ps + [p], sep) == Join(ps, sep) + sep + p
    decreases |ps|
  {
    if |ps| > 1 {
      assert (ps + [p])[1..] == ps[1..] + [p];
      JoinSnoc(ps[1..], p, sep);
    } else {
      assert (ps + [p])[1..] == [p];
    }
  }
}

=== FILE: search.dfy ===
/**
 * A hit returned by the retrieval service: its text, its relevance score and
 * the metadata stored with the indexed chunk. A hit without `text` is read as
 * the empty text and a hit without `score` as score 0, which is how every
 * modelled caller reads them.
 */
module Search {
  import opened Common

  datatype Hit = Hit(
    text: string,
    score: real,
    sourceType: Option<string>,
    version: Option<string>,
    summary: Option<string>)
}

=== FILE: tasks.dfy ===
/**
 * The background task registry: tasks keyed by id, each with a kind, a
 * status, a start time, a progress figure and the result or error of its
 * future. Submitting, querying, cancelling and cleaning up are functions from
 * the registry to the next registry. A future is observed, not run: its
 * state at the moment of a call is a parameter, and so is the clock.
 */
module Tasks {
  import opened Common
  import Report

  datatype Status = Running | Completed | Failed | Cancelled

  /** What a future shows when it is inspected. */
  datatype Future = Pending | Raised(error: string) | Returned(value: string)

  datatype Task = Task(kind: string, status: Status, startedAt: real, progress: int,
                       result: Option<string>, error: Option<string>)

  type Registry = map<string, Task>

  const BatchKind := "batch_test_generation"
  const BatchSize := 50
  const ProgressCap := 90

  /** `submit_task`: a new id gets a running task; a known id is an error and nothing changes. */
  function Submit(reg: Registry, kind: string, id: string, now: real): (r: (Registry, Result<string>))
    ensures id in reg ==> r.0 == reg && r.1.Err?
    ensures id !in reg ==>
              && r.1 == Ok(id)
              && r.0.Keys == reg.Keys + {id}
              && r.0[id] == Task(kind, Running, now, 0, None, None)
              && forall other :: other in reg ==> r.0[other] == reg[other]
  {
    if id in reg then (reg, Err("Task " + id + " already exists"))
    else (reg[id := Task(kind, Running, now, 0, None, None)], Ok(id))
  }

  /** A task whose future has finished takes on its outcome; a pending future changes nothing. */
  function Settle(t: Task, future: Future): (u: Task)
    ensures future.Pending? ==> u == t
    ensures future.Raised? ==> u == t.(status := Failed, error := Some(future.error))
    ensures future.Returned? ==> u == t.(status := Completed, result := Some(future.value), progress := 100)
  {
    match future
    case Pending => t
    case Raised(e) => t.(status := Failed, error := Some(e))
    case Returned(v) => t.(status := Completed, result := Some(v), progress := 100)
  }

  /** `get_task_status`: the (settled) task, and the registry with it stored back. */
  function GetStatus(reg: Registry, id: string, future: Future): (r: (Registry, Option<Task>))
    ensures id !in reg ==> r == (reg, None)
    ensures id in reg ==> r.1 == Some(Settle(reg[id], future)) && r.0 == reg[id := Settle(reg[id], future)]
    ensures r.0.Keys == reg.Keys
  {
    if id !in reg then (reg, None)
    else
      var t := Settle(reg[id], future);
      (reg[id := t], Some(t))
  }

  /** A finished future overrides an earlier cancellation: the status follows the future. */
  lemma SettleOverridesCancel(t: Task, v: string)
    requires t.status == Cancelled
    ensures Settle(t, Returned(v)).status == Completed
  {
  }

  /** `cancel_task`: true iff the task exists and is running, and only then it becomes cancelled. */
  function Cancel(reg: Registry, id: string): (r: (Registry, bool))
    ensures r.1 <==> id in reg && reg[id].status == Running
    ensures r.1 ==> r.0 == reg[id := reg[id].(status := Cancelled)]
    ensures !r.1 ==> r.0 == reg
  {
    if id in reg && reg[id].status == Running then (reg[id := reg[id].(status := Cancelled)], true)
    else (reg, false)
  }

  predicate Terminal(s: Status) {
    s == Completed || s == Failed || s == Cancelled
  }

  /** Whether cleanup drops `t`: it is finished and older than the limit. */
  predicate Expired(t: Task, now: real, maxAgeHours: int) {
    Terminal(t.status) && now - t.startedAt > (maxAgeHours * 3600) as real
  }

  /** `cleanup_completed_tasks`. */
  function Cleanup(reg: Registry, now: real, maxAgeHours: int): (r: Registry)
    ensures forall id :: id in r <==> id in reg && !Expired(reg[id], now, maxAgeHours)
    ensures forall id :: id in r ==> r[id] == reg[id]
  {
    map id | id in reg && !Expired(reg[id], now, maxAgeHours) :: reg[id]
  }

  /** Running tasks survive every cleanup. */
  lemma CleanupKeepsRunning(reg: Registry, now: real, maxAgeHours: int, id: string)
    requires id in reg && reg[id].status == Running
    ensures id in Cleanup(reg, now, maxAgeHours) && Cleanup(reg, now, maxAgeHours)[id] == reg[id]
  {
  }

  /** Python's `int(x)` for a non-negative real: truncation. */
  function Truncate(x: real): int
    requires x >= 0.0
  {
    x.Floor
  }

  /**
   * One pass of `_monitor_task` while the future is still pending: a batch
   * task older than 30 seconds shows progress growing with its age, capped
   * at 90; once the future is done the task is settled.
   */
  function MonitorTick(t: Task, now: real, future: Future): (u: Task)
    ensures !future.Pending? ==> u == Settle(t, future)
    ensures future.Pending? ==> u.status == t.status && u.result == t.result && u.error == t.error
    ensures future.Pending? && t.kind == BatchKind && now - t.startedAt > 30.0 ==>
              && 0 <= u.progress <= ProgressCap
              && u == t.(progress := u.progress)
              && (now - t.startedAt >= 54.0 <==> u.progress == ProgressCap)
              && (u.progress < ProgressCap ==>
                    (u.progress as real) * 60.0 <= (now - t.startedAt) * 100.0 < (u.progress as real + 1.0) * 60.0)
    ensures future.Pending? && (t.kind != BatchKind || now - t.startedAt <= 30.0) ==> u == t
  {
    if !future.Pending? then Settle(t, future)
    else if t.kind == BatchKind && now - t.startedAt > 30.0 then
      var elapsed := now - t.startedAt;
      t.(progress := Report.Min(ProgressCap, Truncate(elapsed / 60.0 * 100.0)))
    else t
  }

  /** From 54 seconds of age on, the shown progress of a batch task is the cap. */
  lemma ProgressSaturates(t: Task, now: real)
    requires t.kind == BatchKind && now - t.startedAt >= 60.0 * 0.9
    requires now - t.startedAt > 30.0
    ensures MonitorTick(t, now, Pending).progress == ProgressCap
  {
    var elapsed := now - t.startedAt;
    assert elapsed / 60.0 * 100.0 >= 90.0;
  }

  /** The shown progress of a pending batch task never decreases as it ages. */
  lemma ProgressMonotone(t: Task, now: real, later: real)
    requires t.kind == BatchKind && now - t.startedAt > 30.0 && now <= later
    ensures MonitorTick(t, now, Pending).progress <= MonitorTick(t, later, Pending).progress
  {
    var a := (now - t.startedAt) / 60.0 * 100.0;
    var b := (later - t.startedAt) / 60.0 * 100.0;
    assert a <= b;
    assert Truncate(a) <= Truncate(b);
  }

  /** The batch sizes `min(50, maxCases - i)` for `i` in `range(0, maxCases, 50)`. */
  function BatchSizes(maxCases: int): (r: seq<int>)
    decreases maxCases
  {
    if maxCases <= 0 then []
    else if maxCases <= BatchSize then [maxCases]
    else [BatchSize] + BatchSizes(maxCases - BatchSize)
  }

  /** The batch loop of `submit_batch_test_generation`, reduced to the sizes it requests. */
  method PartitionBatches(maxCases: int) returns (sizes: seq<int>)
    ensures Sum(sizes) == if maxCases > 0 then maxCases else 0
    ensures forall k :: 0 <= k < |sizes| ==> 1 <= sizes[k] <= BatchSize
    ensures |sizes| == if maxCases > 0 then (maxCases + BatchSize - 1) / BatchSize else 0
    ensures forall k :: 0 <= k < |sizes| - 1 ==> sizes[k] == BatchSize
    ensures sizes == BatchSizes(maxCases)
  {
    sizes := [];
    var i := 0;
    while i < maxCases
      invariant 0 <= i
      invariant i == BatchSize * |sizes|
      invariant sizes + BatchSizes(maxCases - i) == BatchSizes(maxCases)
      decreases maxCases - i
    {
      var current := if maxCases - i < BatchSize then maxCases - i else BatchSize;
      assert BatchSizes(maxCases - i) == [current] + BatchSizes(maxCases - i - BatchSize);
      assert sizes + ([current] + BatchSizes(maxCases - i - BatchSize))
          == (sizes + [current]) + BatchSizes(maxCases - i - BatchSize);
      sizes := sizes + [current];
      i := i + BatchSize;
    }
    assert BatchSizes(maxCases - i) == [];
    assert sizes == BatchSizes(maxCases);
    BatchSizesSum(maxCases);
    BatchSizesShape(maxCases);
  }

  /** Every batch but the last is full, and there are `ceil(maxCases / 50)` of them. */
  lemma {:induction false} BatchSizesShape(maxCases: int)
    ensures forall k :: 0 <= k < |BatchSizes(maxCases)| - 1 ==> BatchSizes(maxCases)[k] == BatchSize
    ensures |BatchSizes(maxCases)| == if maxCases > 0 then (maxCases + BatchSize - 1) / BatchSize else 0
    decreases maxCases
  {
    if maxCases > BatchSize {
      BatchSizesShape(maxCases - BatchSize);
      var rest := BatchSizes(maxCases - BatchSize);
      assert BatchSizes(maxCases) == [BatchSize] + rest;
      DivStep(maxCases + BatchSize - 1);
    }
  }

  lemma DivStep(a: int)
    requires a >= BatchSize
    ensures a / BatchSize == (a - BatchSize) / BatchSize + 1
  {
  }

  /** The loop agrees with the recursive definition of the sizes. */
  lemma {:induction false} BatchSizesSum(maxCases: int)
    ensures Sum(BatchSizes(maxCases)) == if maxCases > 0 then maxCases else 0
    ensures forall k :: 0 <= k < |BatchSizes(maxCases)| ==> 1 <= BatchSizes(maxCases)[k] <= BatchSize
    decreases maxCases
  {
    if maxCases > BatchSize {
      var rest := BatchSizes(maxCases - BatchSize);
      BatchSizesSum(maxCases - BatchSize);
      SumCons(BatchSize, rest);
    }
  }

  lemma {:induction false} SumCons(x: int, xs: seq<int>)
    ensures Sum([x] + xs) == x + Sum(xs)
    decreases |xs|
  {
    if |xs| > 0 {
      var init := xs[..|xs| - 1];
      assert ([x] + xs)[..|xs|] == [x] + init;
      SumCons(x, init);
    }
  }
}

=== FILE: testgen.dfy ===
/**
 * Test generation: the prompt context assembled from retrieval hits, the
 * deterministic fallback test cases used when the model's reply cannot be
 * parsed, the single-journey response and the batch aggregation.
 *
 * The retrieval call and the language model are oracles: their answers are
 * parameters.
 */
module TestGen {
  import opened Common
  import opened Search
  import Report

  /** What the language model step produced. */
  datatype LlmReply =
    | LlmFailed(error: string)
    | Unparsable
    | ParsedTests(tests: seq<Report.Record>)

  datatype GenResponse =
    | Generated(journey: string, testCases: seq<Report.Record>, totalGenerated: nat,
                contextUsed: string, modelUsed: string)
    | GenFailed(message: string)

  datatype BatchResult = BatchResult(journeysProcessed: nat, totalTestsGenerated: int,
                                     results: map<string, GenResponse>)

  const FallbackLimit := 5
  const MaxContextHits := 5
  const HitTextLimit := 300
  const PreviewLimit := 500

  /** Python's `s[:n]` for any integer `n`: a negative bound counts from the end. */
  function PyPrefix<T>(s: seq<T>, n: int): (r: seq<T>)
    ensures r <= s
    ensures n >= 0 ==> |r| == Report.Min(n, |s|)
    ensures n < 0 ==> |r| == (if |s| + n > 0 then |s| + n else 0)
  {
    if n >= 0 then Take(s, n)
    else if |s| + n > 0 then s[..|s| + n] else []
  }

  /** `f"{i:03d}"` for a non-negative `i`. */
  function Pad3(i: nat): (r: string)
    ensures |r| >= 3
  {
    var digits := NatToString(i);
    if |digits| >= 3 then digits else seq(3 - |digits|, _ => '0') + digits
  }

  function TestId(i: nat): string {
    "TC" + Pad3(i)
  }

  /** A test case as the generator writes it. */
  datatype TestCase = TestCase(
    testId: string, title: string, description: string,
    preconditions: seq<string>, testSteps: seq<string>, expectedResults: seq<string>,
    testData: string, priority: string, testType: string)

  /** The record (JSON object) form of a generated test case. */
  function ToRecord(t: TestCase): Report.Record {
    map[
      "test_id" := Report.Str(t.testId),
      "title" := Report.Str(t.title),
      "description" := Report.Str(t.description),
      "preconditions" := Report.List(t.preconditions),
      "test_steps" := Report.List(t.testSteps),
      "expected_results" := Report.List(t.expectedResults),
      "test_data" := Report.Str(t.testData),
      "priority" := Report.Str(t.priority),
      "test_type" := Report.Str(t.testType)]
  }

  /** The generic case number `i`, used from the third case on. */
  function ExtraCase(journey: string, i: nat): TestCase {
    TestCase(TestId(i), journey + " Test Case " + NatToString(i),
             "Additional test case for " + journey + " functionality",
             ["System is accessible"], ["Execute test operation", "Verify results"],
             ["Operation completes successfully"], "Test data", "Medium", "Functional")
  }

  /** The generic cases from TC`from` up to, but excluding, TC`upto`. */
  function ExtraCases(journey: string, from: nat, upto: nat): (r: seq<TestCase>)
    ensures |r| == if from < upto then upto - from else 0
    ensures forall k :: 0 <= k < |r| ==> r[k] == ExtraCase(journey, from + k)
  {
    var n := if from < upto then upto - from else 0;
    seq(n, k requires 0 <= k < n => ExtraCase(journey, from + k))
  }

  /** The first fallback case: the basic functionality check. */
  function BasicCase(journey: string): TestCase {
    TestCase(TestId(1), "Basic " + journey + " Functionality",
             "Verify basic " + journey + " functionality works as expected",
             ["System is accessible", "User has proper permissions"],
             ["Navigate to journey", "Execute basic operation", "Verify result"],
             ["Operation completes successfully", "Result is as expected"],
             "Standard test data", "High", "Functional")
  }

  /** The second fallback case: error handling. */
  function ErrorCase(journey: string): TestCase {
    TestCase(TestId(2), journey + " Error Handling",
             "Verify " + journey + " handles errors gracefully",
             ["System is accessible", "Error conditions can be triggered"],
             ["Trigger error condition", "Observe system response"],
             ["Error is handled gracefully", "User receives clear error message"],
             "Invalid test data", "Medium", "Functional")
  }

  /** Case `k` (zero-based) of the fallback list has id TC`k+1`; only the first is High. */
  predicate NumberedCase(t: TestCase, k: nat) {
    && t.testId == TestId(k + 1)
    && t.priority == (if k == 0 then "High" else "Medium")
    && t.testType == "Functional"
  }

  /** The generic cases are numbered like the two fixed ones before them. */
  lemma ExtraCasesNumbered(journey: string, from: nat, upto: nat)
    requires from >= 2
    ensures forall j :: 0 <= j < |ExtraCases(journey, from, upto)| ==>
              NumberedCase(ExtraCases(journey, from, upto)[j], from - 1 + j)
  {
    var extra := ExtraCases(journey, from, upto);
    forall j | 0 <= j < |extra|
      ensures NumberedCase(extra[j], from - 1 + j)
    {
      assert extra[j] == ExtraCase(journey, from + j);
    }
  }

  /**
   * The candidate list before the final cut: the two fixed cases, then the
   * generic cases TC003 up to TC`maxCases`, never beyond TC005 (the loop
   * `range(3, min(max_cases + 1, 6))`).
   */
  function FallbackCandidates(journey: string, maxCases: int): (all: seq<TestCase>)
    ensures |all| == if maxCases <= 2 then 2 else Report.Min(maxCases, FallbackLimit)
    ensures forall k :: 0 <= k < |all| ==> NumberedCase(all[k], k)
  {
    var fixed := [BasicCase(journey), ErrorCase(journey)];
    if maxCases <= 2 then fixed
    else
      var upto := Report.Min(maxCases + 1, 6);
      var extra := ExtraCases(journey, 3, upto);
      ExtraCasesNumbered(journey, 3, upto);
      assert forall k :: 2 <= k < |fixed + extra| ==> (fixed + extra)[k] == extra[k - 2];
      fixed + extra
  }

  /** `_generate_fallback_tests`. */
  function FallbackTests(journey: string, maxCases: int): (r: seq<TestCase>)
    ensures maxCases >= 0 ==> |r| == Report.Min(maxCases, FallbackLimit)
    ensures maxCases < 0 ==> |r| == (if 2 + maxCases > 0 then 2 + maxCases else 0)
    ensures forall k :: 0 <= k < |r| ==> NumberedCase(r[k], k)
  {
    var all := FallbackCandidates(journey, maxCases);
    var r := PyPrefix(all, maxCases);
    assert forall k :: 0 <= k < |r| ==> r[k] == all[k];
    r
  }

  /** Fallback case ids are TC001, TC002, ... */
  lemma FallbackIds(journey: string)
    ensures var r := FallbackTests(journey, 5);
            |r| == 5 && r[0].testId == "TC001" && r[4].testId == "TC005"
  {
    var r := FallbackTests(journey, 5);
    assert r[0].testId == TestId(1) && r[4].testId == TestId(5);
    SmallTestIds();
  }

  lemma SmallTestIds()
    ensures TestId(1) == "TC001" && TestId(5) == "TC005"
  {
    assert NatToString(1) == "1" && NatToString(5) == "5";
  }

  /** One "Requirement i" block per hit, at most five, each text cut to 300 characters. */
  function RequirementBlocks(hits: seq<Hit>): (r: seq<string>)
    ensures |r| == Report.Min(|hits|, MaxContextHits)
    ensures forall i :: 0 <= i < |r| ==>
              r[i] == "Requirement " + NatToString(i + 1) + ":\n" + Take(hits[i].text, HitTextLimit) + "..."
  {
    var top := Take(hits, MaxContextHits);
    seq(|top|, i requires 0 <= i < |top| =>
      "Requirement " + NatToString(i + 1) + ":\n" + Take(top[i].text, HitTextLimit) + "...")
  }

  /** `_build_context`. */
  function BuildContext(hits: seq<Hit>, additional: string): (r: string)
    ensures r == "" <==> |hits| == 0 && IsBlank(additional)
    ensures !IsBlank(additional) ==> "Additional Context: " + additional <= r
    ensures IsBlank(additional) && |hits| > 0 ==> "Requirements Context:\n" <= r
    ensures !IsBlank(additional) && |hits| > 0 ==>
              r == "Additional Context: " + additional + "\n\n" + "Requirements Context:\n" + Join(RequirementBlocks(hits), "\n\n")
    ensures IsBlank(additional) && |hits| > 0 ==> r == "Requirements Context:\n" + Join(RequirementBlocks(hits), "\n\n")
    ensures !IsBlank(additional) && |hits| == 0 ==> r == "Additional Context: " + additional
  {
    var blocks := RequirementBlocks(hits);
    var parts := (if !IsBlank(additional) then ["Additional Context: " + additional] else [])
               + (if |blocks| > 0 then ["Requirements Context:\n" + Join(blocks, "\n\n")] else []);
    JoinHeadPrefix(parts, "\n\n");
    Join(parts, "\n\n")
  }

  /** A join starts with its first part, and is empty only when there is no part or one empty part. */
  lemma JoinHeadPrefix(parts: seq<string>, sep: string)
    requires |sep| > 0
    ensures |parts| > 0 ==> parts[0] <= Join(parts, sep)
    ensures Join(parts, sep) == "" <==> |parts| == 0 || (|parts| == 1 && parts[0] == "")
  {
  }

  /** `context_used`: the first 500 characters and "..." when the context is longer. */
  function Preview(ctx: string): (r: string)
    ensures |ctx| <= PreviewLimit ==> r == ctx
    ensures |ctx| > PreviewLimit ==> |r| == PreviewLimit + 3 && r[..PreviewLimit] == ctx[..PreviewLimit]
  {
    if |ctx| > PreviewLimit then ctx[..PreviewLimit] + "..." else ctx
  }

  /**
   * `generate_test_cases`: `search` is the retrieval outcome (an error text
   * when it raised), `reply` the language-model step, `model` the requested
   * model, empty when not given.
   */
  function GenerateTestCases(journey: string, maxCases: int, context: string, model: string,
                             defaultModel: string, search: Result<seq<Hit>>, reply: LlmReply): (r: GenResponse)
    ensures search.Ok? && |search.value| == 0 ==> r == GenFailed("No requirements found for journey: " + journey)
    ensures search.Err? ==> r.GenFailed?
    ensures r.Generated? ==>
              && search.Ok? && |search.value| > 0 && !reply.LlmFailed?
              && r.journey == journey
              && r.totalGenerated == |r.testCases|
              && r.contextUsed == Preview(BuildContext(search.value, context))
              && r.modelUsed == (if model != "" then model else defaultModel)
              && (reply.Unparsable? ==> r.testCases == Records(FallbackTests(journey, maxCases)))
              && (reply.ParsedTests? ==> r.testCases == reply.tests)
    ensures r.Generated? <==> search.Ok? && |search.value| > 0 && !reply.LlmFailed?
  {
    match search
    case Err(e) => GenFailed("Test generation failed: " + e)
    case Ok(hits) =>
      if |hits| == 0 then GenFailed("No requirements found for journey: " + journey)
      else
        var ctx := BuildContext(hits, context);
        match reply
        case LlmFailed(e) => GenFailed("Test generation failed: " + e)
        case Unparsable =>
          var tests := Records(FallbackTests(journey, maxCases));
          Generated(journey, tests, |tests|, Preview(ctx), if model != "" then model else defaultModel)
        case ParsedTests(tests) =>
          Generated(journey, tests, |tests|, Preview(ctx), if model != "" then model else defaultModel)
  }

  function Records(ts: seq<TestCase>): (r: seq<Report.Record>)
    ensures |r| == |ts|
    ensures forall i :: 0 <= i < |ts| ==> r[i] == ToRecord(ts[i])
  {
    seq(|ts|, i requires 0 <= i < |ts| => ToRecord(ts[i]))
  }

  function SuccessCount(r: GenResponse): int {
    if r.Generated? then r.totalGenerated else 0
  }

  /** The sum of the `total_generated` figures of the successful responses. */
  function SuccessTotal(outcomes: seq<GenResponse>): int {
    if |outcomes| == 0 then 0
    else SuccessTotal(outcomes[..|outcomes| - 1]) + SuccessCount(outcomes[|outcomes| - 1])
  }

  /** The results dictionary: each journey mapped to its response, later entries overwriting earlier ones. */
  function Responses(journeys: seq<string>, outcomes: seq<GenResponse>): map<string, GenResponse>
    requires |outcomes| == |journeys|
  {
    if |journeys| == 0 then map[]
    else Responses(journeys[..|journeys| - 1], outcomes[..|outcomes| - 1])[journeys[|journeys| - 1] := outcomes[|outcomes| - 1]]
  }

  /** Every journey, and nothing else, has an entry. */
  lemma {:induction false} ResponsesKeys(journeys: seq<string>, outcomes: seq<GenResponse>)
    requires |outcomes| == |journeys|
    ensures forall j :: j in Responses(journeys, outcomes) <==> j in journeys
    decreases |journeys|
  {
    if |journeys| > 0 {
      var init := journeys[..|journeys| - 1];
      ResponsesKeys(init, outcomes[..|outcomes| - 1]);
      assert journeys == init + [journeys[|journeys| - 1]];
    }
  }

  /** A journey's entry is the response to its last occurrence. */
  lemma {:induction false} ResponsesLastWins(journeys: seq<string>, outcomes: seq<GenResponse>)
    requires |outcomes| == |journeys|
    ensures forall i :: 0 <= i < |journeys| && (forall k :: i < k < |journeys| ==> journeys[k] != journeys[i])
                        ==> journeys[i] in Responses(journeys, outcomes)
                            && Responses(journeys, outcomes)[journeys[i]] == outcomes[i]
    decreases |journeys|
  {
    if |journeys| > 0 {
      var n := |journeys| - 1;
      var init, oinit := journeys[..n], outcomes[..n];
      ResponsesLastWins(init, oinit);
      forall i | 0 <= i < |journeys| && (forall k :: i < k < |journeys| ==> journeys[k] != journeys[i])
        ensures journeys[i] in Responses(journeys, outcomes)
        ensures Responses(journeys, outcomes)[journeys[i]] == outcomes[i]
      {
        if i < n {
          assert init[i] == journeys[i] && oinit[i] == outcomes[i];
          assert journeys[n] != journeys[i];
          assert forall k :: i < k < n ==> init[k] == journeys[k];
        }
      }
    }
  }

  /**
   * `generate_batch_tests`: `outcomes[i]` is what `generate_test_cases`
   * answered for `journeys[i]`. A journey listed twice is generated twice,
   * counted twice, and its later response is the one kept.
   */
  method GenerateBatch(journeys: seq<string>, outcomes: seq<GenResponse>) returns (b: BatchResult)
    requires |outcomes| == |journeys|
    ensures b.journeysProcessed == |journeys|
    ensures b.totalTestsGenerated == SuccessTotal(outcomes)
    ensures forall j :: j in b.results <==> j in journeys
    ensures forall i :: 0 <= i < |journeys| && (forall k :: i < k < |journeys| ==> journeys[k] != journeys[i])
                        ==> b.results[journeys[i]] == outcomes[i]
  {
    var results: map<string, GenResponse> := map[];
    var total := 0;
    var n := 0;
    while n < |journeys|
      invariant n <= |journeys|
      invariant total == SuccessTotal(outcomes[..n])
      invariant results == Responses(journeys[..n], outcomes[..n])
    {
      assert outcomes[..n + 1][..n] == outcomes[..n];
      assert journeys[..n + 1][..n] == journeys[..n];
      results := results[journeys[n] := outcomes[n]];
      total := total + SuccessCount(outcomes[n]);
      n := n + 1;
    }
    assert journeys[..n] == journeys && outcomes[..n] == outcomes;
    ResponsesKeys(journeys, outcomes);
    ResponsesLastWins(journeys, outcomes);
    b := BatchResult(|journeys|, total, results);
  }

  /**
   * The generator writes `test_steps` and `expected_results`, keys the
   * spreadsheet does not read: its Steps and Expected Result cells stay empty,
   * while name and id come from `title` and `test_id`.
   */
  lemma GeneratedCaseInSpreadsheet(t: TestCase, today: string)
    ensures var row := Report.RowValues(ToRecord(t), today);
            row[2] == Report.Str("") && row[3] == Report.Str("")
            && row[0] == Report.Str(t.title) && row[10] == Report.Str(t.testId)
  {
    var rec := ToRecord(t);
    RecordKeys(t);
    UnreadKeysGiveEmptyCells(rec, today);
    assert "title" in rec && "test_id" in rec;
    assert rec["title"] == Report.Str(t.title) && rec["test_id"] == Report.Str(t.testId);
    NameAndIdFromFallbackKeys(rec, today);
  }

  /** Without any of the spreadsheet's step and expected-result keys, both cells are empty. */
  lemma UnreadKeysGiveEmptyCells(rec: Report.Record, today: string)
    requires "steps" !in rec && "test_script" !in rec
    requires "expected_result" !in rec && "expected" !in rec
    ensures Report.RowValues(rec, today)[2] == Report.Str("")
    ensures Report.RowValues(rec, today)[3] == Report.Str("")
  {
    assert Report.FormatSteps(Report.Str("")) == "";
    assert Report.FormatBullets(Report.Str("")) == "";
  }

  /** The name and id cells fall back to `title` and `test_id`. */
  lemma NameAndIdFromFallbackKeys(rec: Report.Record, today: string)
    requires "test_case_name" !in rec && "name" !in rec && "title" in rec
    requires "test_case_id" !in rec && "key" !in rec && "test_id" in rec
    ensures Report.RowValues(rec, today)[0] == rec["title"]
    ensures Report.RowValues(rec, today)[10] == rec["test_id"]
  {
    var names: seq<string> := ["test_case_name", "name", "title"];
    assert names[0] !in rec && names[1] !in rec && names[2] in rec;
    var ids: seq<string> := ["test_case_id", "key", "test_id"];
    assert ids[0] !in rec && ids[1] !in rec && ids[2] in rec;
  }

  /** The keys the spreadsheet reads first are not among the generator's keys. */
  lemma RecordKeys(t: TestCase)
    ensures var rec := ToRecord(t);
            && "steps" !in rec && "test_script" !in rec
            && "expected_result" !in rec && "expected" !in rec
            && "test_case_name" !in rec && "name" !in rec
            && "test_case_id" !in rec && "key" !in rec
  {
  }
}

=== FILE: versioning.dfy ===
/**
 * Requirement versioning: every journey owns a directory named after a
 * 16-hex-digit digest of its name followed by `__` and the name itself; the
 * directory holds an append-only timeline of version entries. Two versions
 * are compared as sets of lines.
 *
 * The filesystem is a `Store`: the set of journeys that have a directory and
 * each journey's timeline. The digest, the clock and reading a stored
 * document are supplied by the caller.
 */
module Versioning {
  import opened Common

  datatype Entry = Entry(
    version: string,
    journey: string,
    sourceType: string,
    documentUri: string,
    summary: string,
    effectiveDate: Option<string>,
    createdAt: string)

  datatype Store = Store(dirs: set<string>, timelines: map<string, seq<Entry>>)

  datatype Diff = Diff(added: set<string>, removed: set<string>, changed: set<string>)

  const Separator := "__"

  predicate IsHexDigit(c: char) {
    '0' <= c <= '9' || 'a' <= c <= 'f'
  }

  /** The first 16 characters of a SHA-256 hex digest. */
  predicate IsDigest(h: string) {
    |h| == 16 && forall i :: 0 <= i < |h| ==> IsHexDigit(h[i])
  }

  /** `_journey_dir`'s directory name. */
  function JourneyDirName(digest: string, journey: string): string {
    digest + Separator + journey
  }

  /** `pat` occurs in `s` starting at index `j`. */
  predicate OccursAt(s: string, pat: string, j: nat) {
    j + |pat| <= |s| && s[j..j + |pat|] == pat
  }

  lemma OccursAtShift(s: string, pat: string, j: nat)
    requires |s| > 0
    ensures OccursAt(s, pat, j + 1) <==> OccursAt(s[1..], pat, j)
  {
    if j + 1 + |pat| <= |s| {
      assert s[j + 1..j + 1 + |pat|] == s[1..][j..j + |pat|];
    }
  }

  /** Position of the first occurrence of `pat` in `s`. */
  function IndexOf(s: string, pat: string): (r: Option<nat>)
    ensures r.Some? ==> OccursAt(s, pat, r.value)
    ensures r.Some? ==> forall j :: 0 <= j < r.value ==> !OccursAt(s, pat, j)
    ensures r.None? ==> forall j: nat :: !OccursAt(s, pat, j)
    decreases |s|
  {
    if |s| < |pat| then None
    else if s[..|pat|] == pat then Some(0)
    else match IndexOf(s[1..], pat)
      case None =>
        assert forall j: nat :: !OccursAt(s, pat, j) by {
          forall j: nat ensures !OccursAt(s, pat, j) {
            if j > 0 { OccursAtShift(s, pat, j - 1); }
          }
        }
        None
      case Some(i) =>
        OccursAtShift(s, pat, i);
        assert forall j :: 0 <= j < i + 1 ==> !OccursAt(s, pat, j) by {
          forall j | 0 <= j < i + 1 ensures !OccursAt(s, pat, j) {
            if j > 0 { OccursAtShift(s, pat, j - 1); }
          }
        }
        Some(i + 1)
  }

  /** `name.split("__", 1)[1]` for names that contain `__`. */
  function RecoverJourney(name: string): Option<string> {
    match IndexOf(name, Separator)
    case None => None
    case Some(i) => Some(name[i + |Separator|..])
  }

  /** Splitting a directory name on its first `__` gives back the journey, whatever the journey contains. */
  lemma DirNameRoundTrip(digest: string, journey: string)
    requires IsDigest(digest)
    ensures RecoverJourney(JourneyDirName(digest, journey)) == Some(journey)
  {
    var s := JourneyDirName(digest, journey);
    assert OccursAt(s, Separator, 16);
    forall j | 0 <= j < 16 ensures !OccursAt(s, Separator, j) {
      assert s[j] == digest[j] && s[j] != '_';
      assert s[j..j + 2][0] == s[j];
    }
    assert IndexOf(s, Separator) == Some(16);
    assert s[18..] == journey;
  }

  /** Python's ordering of strings: code-point lexicographic. */
  predicate LexLe(a: string, b: string)
    decreases |a|
  {
    |a| == 0 || (|b| > 0 && (a[0] < b[0] || (a[0] == b[0] && LexLe(a[1..], b[1..]))))
  }

  lemma {:induction false} LexLeTotal(a: string, b: string)
    ensures LexLe(a, b) || LexLe(b, a)
    decreases |a|
  {
    if |a| > 0 && |b| > 0 && a[0] == b[0] {
      LexLeTotal(a[1..], b[1..]);
    }
  }

  predicate Sorted(s: seq<string>) {
    forall i :: 0 <= i < |s| - 1 ==> LexLe(s[i], s[i + 1])
  }

  function Insert(x: string, s: seq<string>): (r: seq<string>)
    requires Sorted(s)
    ensures Sorted(r)
    ensures multiset(r) == multiset(s) + multiset{x}
    ensures |r| > 0 && (r[0] == x || (|s| > 0 && r[0] == s[0]))
  {
    if |s| == 0 then [x]
    else if LexLe(x, s[0]) then [x] + s
    else
      LexLeTotal(x, s[0]);
      var t := Insert(x, s[1..]);
      assert s == [s[0]] + s[1..];
      [s[0]] + t
  }

  /** `sorted(names)`. */
  function SortStrings(s: seq<string>): (r: seq<string>)
    ensures Sorted(r)
    ensures multiset(r) == multiset(s)
  {
    if |s| == 0 then []
    else
      assert s == [s[0]] + s[1..];
      Insert(s[0], SortStrings(s[1..]))
  }

  /** The journeys named by directory entries that contain `__`, in listing order. */
  function RecoveredJourneys(listing: seq<string>): (r: seq<string>)
    ensures |r| <= |listing|
  {
    if |listing| == 0 then []
    else
      var rest := RecoveredJourneys(listing[1..]);
      match RecoverJourney(listing[0])
      case None => rest
      case Some(j) => [j] + rest
  }

  /** `list_versions(None)`: the recovered journey names, sorted. */
  function ListAllJourneys(listing: seq<string>): (r: seq<string>)
    ensures Sorted(r)
    ensures multiset(r) == multiset(RecoveredJourneys(listing))
  {
    SortStrings(RecoveredJourneys(listing))
  }

  /** A name `makedirs` creates as one directory entry: it holds no path separator. */
  predicate FlatName(journey: string) {
    '/' !in journey
  }

  /** The directory entries `_journey_dir` creates for `journeys`, in that order. */
  function DirListing(journeys: seq<string>, digests: seq<string>): (r: seq<string>)
    requires |digests| == |journeys|
    ensures |r| == |journeys|
    ensures forall i :: 0 <= i < |r| ==> r[i] == JourneyDirName(digests[i], journeys[i])
  {
    seq(|journeys|, i requires 0 <= i < |journeys| => JourneyDirName(digests[i], journeys[i]))
  }

  /**
   * Listing the directories of some journeys yields exactly those journeys,
   * sorted. A name holding "/" is created as nested directories, so the
   * listing would show its first segment only.
   */
  lemma {:induction false} ListAllRoundTrip(journeys: seq<string>, digests: seq<string>)
    requires |digests| == |journeys|
    requires forall i :: 0 <= i < |digests| ==> IsDigest(digests[i])
    requires forall i :: 0 <= i < |journeys| ==> FlatName(journeys[i])
    ensures Sorted(ListAllJourneys(DirListing(journeys, digests)))
    ensures multiset(ListAllJourneys(DirListing(journeys, digests))) == multiset(journeys)
  {
    RecoveredAll(journeys, digests, DirListing(journeys, digests));
  }

  /**
   * The journeys `list_versions(None)` reports are exactly the journeys whose
   * directory the store holds, when `order` enumerates those directories.
   */
  lemma ListStoreJourneys(store: Store, order: seq<string>, digests: seq<string>)
    requires |digests| == |order|
    requires forall i :: 0 <= i < |digests| ==> IsDigest(digests[i])
    requires forall j :: j in store.dirs <==> j in order
    requires forall i :: 0 <= i < |order| ==> FlatName(order[i])
    ensures Sorted(ListAllJourneys(DirListing(order, digests)))
    ensures forall j :: j in ListAllJourneys(DirListing(order, digests)) <==> j in store.dirs
  {
    var listed := ListAllJourneys(DirListing(order, digests));
    ListAllRoundTrip(order, digests);
    forall j ensures j in listed <==> j in store.dirs {
      assert j in listed <==> j in multiset(listed);
      assert j in order <==> j in multiset(order);
    }
  }

  lemma {:induction false} RecoveredAll(journeys: seq<string>, digests: seq<string>, listing: seq<string>)
    requires |digests| == |journeys| == |listing|
    requires forall i :: 0 <= i < |digests| ==> IsDigest(digests[i])
    requires forall i :: 0 <= i < |listing| ==> listing[i] == JourneyDirName(digests[i], journeys[i])
    ensures RecoveredJourneys(listing) == journeys
    decreases |listing|
  {
    if |listing| > 0 {
      DirNameRoundTrip(digests[0], journeys[0]);
      RecoveredAll(journeys[1..], digests[1..], listing[1..]);
    }
  }

  /** `list_versions(journey)`: the timeline, and the store with the journey's directory now created. */
  function ListVersions(store: Store, journey: string): (r: (Store, seq<Entry>))
    ensures r.0.dirs == store.dirs + {journey} && r.0.timelines == store.timelines
    ensures journey !in store.timelines ==> r.1 == []
    ensures journey in store.timelines ==> r.1 == store.timelines[journey]
  {
    (store.(dirs := store.dirs + {journey}), Timeline(store, journey))
  }

  function Timeline(store: Store, journey: string): seq<Entry> {
    if journey in store.timelines then store.timelines[journey] else []
  }

  /** `record_version`: `ts` is the UTC time formatted as `%Y%m%dT%H%M%SZ`. */
  function RecordVersion(store: Store, journey: string, sourceType: string, documentUri: string,
                         summary: string, effectiveDate: Option<string>, ts: string): (r: (Store, string))
    ensures r.1 == ts + "-" + sourceType
    ensures var t := Timeline(r.0, journey);
            |t| == |Timeline(store, journey)| + 1
            && t[..|t| - 1] == Timeline(store, journey)
            && t[|t| - 1] == Entry(r.1, journey, sourceType, documentUri, summary, effectiveDate, ts)
    ensures forall j :: j != journey ==> Timeline(r.0, j) == Timeline(store, j)
    ensures r.0.dirs == store.dirs + {journey}
  {
    var versionId := ts + "-" + sourceType;
    var entry := Entry(versionId, journey, sourceType, documentUri, summary, effectiveDate, ts);
    var t := Timeline(store, journey) + [entry];
    assert t[..|t| - 1] == Timeline(store, journey);
    (Store(store.dirs + {journey}, store.timelines[journey := t]), versionId)
  }

  /** Listing after recording yields the earlier entries followed by the new one. */
  lemma ListAfterRecord(store: Store, journey: string, sourceType: string, documentUri: string,
                        summary: string, effectiveDate: Option<string>, ts: string)
    ensures var (after, id) := RecordVersion(store, journey, sourceType, documentUri, summary, effectiveDate, ts);
            ListVersions(after, journey).1
              == ListVersions(store, journey).1 + [Entry(id, journey, sourceType, documentUri, summary, effectiveDate, ts)]
  {
    var (after, id) := RecordVersion(store, journey, sourceType, documentUri, summary, effectiveDate, ts);
    var t := Timeline(after, journey);
    assert t == t[..|t| - 1] + [t[|t| - 1]];
  }

  /** `{v["version"]: v for v in versions}`: later entries overwrite earlier ones. */
  function IndexByVersion(t: seq<Entry>): (m: map<string, Entry>)
    ensures forall i :: 0 <= i < |t| ==> t[i].version in m
  {
    if |t| == 0 then map[]
    else
      var last := t[|t| - 1];
      var m' := IndexByVersion(t[..|t| - 1]);
      m'[last.version := last]
  }

  function PredefinedBreak(c: char): bool {
    c == '\n' || c == '\r' || c == '\U{000B}' || c == '\U{000C}' || c == '\U{001C}' || c == '\U{001D}'
    || c == '\U{001E}' || c == '\U{0085}' || c == '\U{2028}' || c == '\U{2029}'
  }

  /** Index of the first line break in `s`, or `|s|`. */
  function FirstBreak(s: string): (i: nat)
    ensures i <= |s|
    ensures i < |s| ==> PredefinedBreak(s[i])
    ensures forall k :: 0 <= k < i ==> !PredefinedBreak(s[k])
  {
    if |s| == 0 || PredefinedBreak(s[0]) then 0 else 1 + FirstBreak(s[1..])
  }

  /** Python `str.splitlines()`; `\r\n` counts as one break. */
  function SplitLines(s: string): (r: seq<string>)
    ensures forall k :: 0 <= k < |r| ==> forall c :: 0 <= c < |r[k]| ==> !PredefinedBreak(r[k][c])
    decreases |s|
  {
    if |s| == 0 then []
    else
      var i := FirstBreak(s);
      if i == |s| then [s]
      else
        var width := if s[i] == '\r' && i + 1 < |s| && s[i + 1] == '\n' then 2 else 1;
        [s[..i]] + SplitLines(s[i + width..])
  }

  function LineSet(lines: seq<string>): set<string> {
    set l | l in lines
  }

  /** The line-set comparison of two texts. */
  function DiffTexts(textA: string, textB: string): (d: Diff)
    ensures d.added == LineSet(SplitLines(textB)) - LineSet(SplitLines(textA))
    ensures d.removed == LineSet(SplitLines(textA)) - LineSet(SplitLines(textB))
    ensures d.added !! d.removed
    ensures d.changed == {}
  {
    var linesA, linesB := SplitLines(textA), SplitLines(textB);
    var setA, setB := LineSet(linesA), LineSet(linesB);
    Diff(setB - setA, setA - setB,
         set l | l in setA * setB && (l !in linesA || l !in linesB))
  }

  /**
   * `diff_versions` over a journey's timeline; `load` reads a stored document.
   * An unknown version on either side gives the empty diff.
   */
  function DiffVersions(timeline: seq<Entry>, fromVersion: string, toVersion: string,
                        load: string -> string): (d: Diff)
    ensures var m := IndexByVersion(timeline);
            fromVersion !in m || toVersion !in m ==> d == Diff({}, {}, {})
    ensures var m := IndexByVersion(timeline);
            fromVersion in m && toVersion in m ==>
              d == DiffTexts(load(m[fromVersion].documentUri), load(m[toVersion].documentUri))
    ensures d.added !! d.removed && d.changed == {}
  {
    var m := IndexByVersion(timeline);
    if fromVersion !in m || toVersion !in m then Diff({}, {}, {})
    else DiffTexts(load(m[fromVersion].documentUri), load(m[toVersion].documentUri))
  }

  /** Every version id of the index comes from the timeline. */
  lemma {:induction false} IndexKeysFromTimeline(t: seq<Entry>, id: string)
    requires id in IndexByVersion(t)
    ensures exists i :: 0 <= i < |t| && t[i].version == id && IndexByVersion(t)[id] == t[i]
  {
    var last := t[|t| - 1];
    if id != last.version {
      IndexKeysFromTimeline(t[..|t| - 1], id);
      var i :| 0 <= i < |t| - 1 && t[..|t| - 1][i].version == id && IndexByVersion(t[..|t| - 1])[id] == t[..|t| - 1][i];
      assert t[i].version == id && IndexByVersion(t)[id] == t[i];
    } else {
      assert t[|t| - 1].version == id;
    }
  }

  /** With duplicate version ids, the index keeps the latest entry. */
  lemma {:induction false} IndexKeepsLatest(t: seq<Entry>, i: nat)
    requires i < |t|
    requires forall k :: i < k < |t| ==> t[k].version != t[i].version
    ensures IndexByVersion(t)[t[i].version] == t[i]
  {
    if i < |t| - 1 {
      var p := t[..|t| - 1];
      assert p[i] == t[i];
      assert forall k :: i < k < |p| ==> p[k].version != p[i].version by {
        forall k | i < k < |p| ensures p[k].version != p[i].version { assert p[k] == t[k]; }
      }
      IndexKeepsLatest(p, i);
      assert t[|t| - 1].version != t[i].version;
    }
  }

  /** A version compared with itself has no differences. */
  lemma DiffWithSelfIsEmpty(timeline: seq<Entry>, v: string, load: string -> string)
    ensures DiffVersions(timeline, v, v, load) == Diff({}, {}, {})
  {
  }

}
